=== FILE: README.md ===
# Elite Meet backend: reservation core in Dafny

This project models the core of the Elite Meet backend, an Express/Mongoose
service. The service sells consultation slots, a mentorship programme, exam
books, a typing course, and two downloadable products. Each payment goes
through a Razorpay order.

The centre of the model is the consultation-slot reservation state machine:

- **Claim.** `createBooking` moves a slot from free to pending with one
  compare-and-set.
- **Confirmation.** A booking is confirmed either by the client's
  `verifyPayment` or by the Razorpay webhook's `payment.captured` branch. Both
  move the slot from pending to booked, but only while it is still pending.
- **Cancellation.** `cancelPayment` has no status guard. The webhook's
  `payment.failed` branch acts only on pending records.
- **Expiry sweeper.** `cleanupExpiredSlots` releases stale holds and cancels
  expired bookings.
- **Reconciliation.** `fixConfirmedBookings` forces the slot of every
  confirmed booking back to booked.

The store is a value: `Store.Store` holds slots and bookings in maps keyed by
store-assigned ids, enrollments keyed by their unique order id, and the
singleton mentorship programme. Every handler is a pure function from the
store, the request, the answers of outside services and the clock to a new
store and a reply.

"Two users race for one slot" and "Razorpay redelivers a webhook" become
lemmas over sequences of these steps. The TTL indexes of the bookings and
enrollments collections are steps that may fire at any time
(`Store.TtlDeleteBooking`, `Store.TtlDeleteEnrollment`).

Around the state machine, the project models these smaller rule sets:

- the slot calendar: half-open overlap per administrator, and edits only while
  a slot is free;
- mentorship seat accounting, including the webhook's enrollment synthesis
  from order notes;
- book and package entitlement, and the typing course's duplicate-purchase
  guard;
- the polity book and PDF magazine purchases;
- the small helpers: the JavaScript `parseInt` rules (radix 10 for prices, no radix for slot durations), receipt strings and
  their lengths, Razorpay's signed message, and bearer-token extraction
  (section 2.1 of RFC 6750).

Outside services are parameters:

- **HMAC-SHA256** is a function value `hmac(key, message)`.
- **Razorpay** `orders.create` and `orders.fetch` are `Option` values
  (`None` when the SDK throws).
- **Firebase** `verifyIdToken` is a function from token to optional claims.
- **Mail** is not sent. The webhook only reports the addresses it would have
  written to.
- **The clock** (`Date.now()`) is a millisecond argument `now`.

The error middleware answers an error passed to `next(err)` with
`err.status || 500` (`index.js:57-62`). The errors the modelled handlers can
raise are Mongoose validation, cast and duplicate-key errors and Razorpay SDK
rejections, and none of them carries a `status`. So a thrown exception appears
in the model as a 500 reply, with the writes made before the throw kept.

Where the written description of the system and the code disagree, the model
follows the code:

- Confirmation moves a slot only from pending to booked. A slot the sweeper
  already freed stays free under a confirmed booking, and the reconciliation
  pass exists to repair exactly that (`Traces.LateConfirmationDrifts`,
  `Traces.DriftIsRepaired`).
- There is no "expired" status. The sweeper cancels.
- `cancelPayment` cancels even a confirmed booking and frees its booked slot.
- The webhook's captured branch confirms a booking that was already
  cancelled. So booking status is not monotone (`Traces.CancelUndoesConfirmation`,
  `Traces.CaptureRevivesCancelled`).
- Only the webhook's synthesis of a missing enrollment increments
  `enrolledCount`. The source says this is on purpose ("only for new
  enrollments"). Enrollments created by users and then confirmed therefore
  take no seat (`Traces.ConfirmationTakesNoSeat`), and synthesis does not look
  at the seats left (`Traces.RebuildCanOversell`).
- No handler ever completes a book purchase. The webhook only knows bookings
  and enrollments. The access query is modelled as written even so.

## Model

| member | source | states |
|---|---|---|
| Js.FirstField | src/middleware/auth.js:13 | `split(sep)[0]`: the result is a prefix of the input free of the separator, ending at the first separator or at the end of the input |
| Js.FirstFieldOf | src/middleware/auth.js:13 | a field with no separator in it, followed by nothing or by the separator, splits back to exactly that field |
| Auth.BearerToken | src/middleware/auth.js:12-17 | a token exists exactly when the header starts with the case-sensitive "Bearer " and the next character is not a space; the token is the non-empty, space-free text from there up to the next space |
| Auth.BearerRoundTrip | src/middleware/auth.js:13 | a header built as "Bearer " + token + (nothing, or text starting with a space) yields that token back |
| Auth.NoTokenCases | src/middleware/auth.js:12-17 | a missing header, "Bearer " alone, a double space after the scheme, and the lower-case scheme all yield no token |
| Auth.Authenticate | src/middleware/auth.js:12-38 | 401 exactly when there is no token or verification fails; otherwise req.user has id = uid, email from the claims, name = name else display name, role = stored role else "user" |
| Payment.SignedMessage | src/controllers/paymentController.js:40 | the message is order id, one bar, payment id, with the two ids at known positions |
| Payment.SignedMessageRoundTrip | src/controllers/paymentController.js:40 | for order ids without a bar, the message splits back into exactly the two ids, so distinct pairs never share a message |
| Payment.CheckSignature | src/controllers/paymentController.js:41-50 | success exactly when a secret is configured and the supplied signature equals the HMAC of the signed message; a missing secret is a 500 |
| Payment.CreateOrder | src/controllers/paymentController.js:15-30 | the order asks for amount·100 paise in the requested currency (INR by default); 200 exactly when Razorpay created it, 500 otherwise |
| SlotModel.ParseSlotStatus | src/models/Slot.js:29-34 | exactly the five names free, pending, booked, completed, cancelled are accepted |
| SlotModel.SlotStatusNamesRoundTrip | src/models/Slot.js:29-34 | status names and status values convert both ways without loss |
| SlotModel.NewSlot | src/models/Slot.js:21-37 | a new slot is free with no holder; an omitted duration is 30 and an omitted price 500 |
| SlotModel.ClaimExcludesSecondClaim | src/controllers/bookingController.js:22-37 | after a successful claim the slot is pending and stamped with the claim time, and a second claim fails and changes nothing |
| SlotModel.WritesAreLocal | src/models/Slot.js:42 | each conditional slot write changes at most its own slot, and a write that happens stamps updatedAt with its time |
| Lifecycle.ParseStatus | src/models/Booking.js:39-44 | exactly pending, confirmed, cancelled, completed are accepted (MentorshipEnrollment.js declares the same enum) |
| Lifecycle.StatusNamesRoundTrip | src/models/Booking.js:39-44 | names and values convert both ways, and the default status is "pending" |
| Base.HoldExpiry | src/models/Booking.js:55-62 | a booking's (and an enrollment's) expiresAt is fifteen minutes after creation |
| BookingModel.TtlSparesSettled | src/models/Booking.js:71-78 | the TTL index never removes a non-pending booking, nor one before its expiry, and a deletable booking stays deletable later |
| MentorshipModel.EnrollmentTtlSparesSettled | src/models/MentorshipEnrollment.js:60-67 | the TTL index never removes a non-pending enrollment, nor one before its expiry |
| MentorshipModel.DefaultProgramSeats | src/models/MentorshipProgram.js:14-31 | a fresh programme is active at 14999 with six seats, all available |
| MentorshipModel.GetProgram | src/models/MentorshipProgram.js:47-53 | the stored programme is returned unchanged; only when none exists is the default created and stored |
| MentorshipModel.GetProgramIdempotent | src/models/MentorshipProgram.js:47-53 | a second getProgram creates nothing and returns the same programme |
| Store.FindByOrder | src/controllers/bookingController.js:114-120 | the lookup by order id returns the oldest booking with that order id, and nothing exactly when no booking carries it |
| Store.FindByOrderStable | src/models/Booking.js:45-48 | rewriting bookings in place without changing their order ids does not change which booking a lookup finds |
| Store.TtlDeleteBooking | src/models/Booking.js:71-78 | the TTL step is enabled exactly for a pending booking past its expiry and removes only that booking |
| Store.TtlDeleteEnrollment | src/models/MentorshipEnrollment.js:60-67 | the TTL step is enabled exactly for a pending enrollment past its expiry and removes only that enrollment |
| Store.TtlKeepsSettledBookings | src/models/Booking.js:71-78 | a TTL deletion keeps the store well formed, and every non-pending booking survives it unchanged |
| BookingFlow.CreateBooking | src/controllers/bookingController.js:15-88 | 400 with nothing changed exactly when the slot is not free; 201 exactly when Razorpay creates the order and the booking validates, leaving the slot pending and one new pending booking (holder, slot, price, order id, expiry now + 15 min) with an order of price·100 INR; any later failure (500) undoes the claim, so the store is the one before the request with only that slot's updatedAt stamped |
| BookingFlow.VerifyPayment | src/controllers/bookingController.js:94-160 | a bad signature changes nothing; an unknown order is 404 with nothing changed; an already confirmed booking answers success with nothing changed; otherwise the booking is confirmed with payment id and signature, and the slot becomes booked for the holder only if still pending, else stays as it was and the answer is 400 |
| BookingFlow.CancelPayment | src/controllers/bookingController.js:264-287 | always success; the first booking with the order id is cancelled whatever its status, and its slot gets status free, holder cleared and updatedAt stamped, with every other field and every other slot unchanged; a missing slot leaves the slots as they were |
| Webhook.CapturedEnrollment | src/controllers/webhookController.js:79-141 | a known enrollment is confirmed once in place, with no seat taken; an unknown one is 400 exactly when the notes, uid or email are missing; past that check it is ok exactly when the notes carry a name (500 otherwise, from the schema's required name), and then it is rebuilt confirmed from the notes at the programme price and enrolledCount grows by one; bookings and slots never change |
| Webhook.CapturedBooking | src/controllers/webhookController.js:229-260 | an unknown order or a confirmed booking is ok with nothing changed; otherwise the booking is confirmed with the payment id, and its slot is booked for the holder only if it was pending |
| Webhook.FailedPayment | src/controllers/webhookController.js:348-386 | an enrollment with the order id takes precedence and is cancelled only if pending; otherwise a pending booking is cancelled and its slot released only if pending; non-pending records are untouched; the answer is always ok |
| Webhook.HandleWebhook | src/controllers/webhookController.js:41-393 | a missing secret or a signature that does not match the body changes nothing (500 / 400); other events are acknowledged with nothing changed; captured and failed events dispatch to their branches, mentorship when the notes or an enrollment say so |
| Sweeper.Cutoff | src/utils/cleanupExpiredSlots.js:12-13 | the cutoff lies fifteen minutes before now |
| Sweeper.Sweep | src/utils/cleanupExpiredSlots.js:9-52 | the two passes produce the loop-free reference result, and report the number of stale holds released and the number of expired bookings cancelled |
| Sweeper.SweepSettlesBookings | src/utils/cleanupExpiredSlots.js:22-30 | after a sweep no expired pending booking remains, every expired one is cancelled, non-pending bookings are unchanged and none vanishes |
| Sweeper.SweepTouchesOnlyHolds | src/utils/cleanupExpiredSlots.js:16-34 | only pending slots change; each changed slot is freed with the holder cleared and was a stale hold or held by an expired booking; every stale hold ends free |
| Sweeper.SweepTwiceIsQuiet | src/utils/cleanupExpiredSlots.js:16-34 | a second sweep at the same instant finds nothing to release or cancel and changes nothing |
| Reconcile.FixConfirmed | src/utils/fixConfirmedBookings.js:15-63 | only slots change; each confirmed booking whose slot is not booked gets it booked for its holder unless its write fails; fixed, alreadyCorrect and errors count those classes, and with the skipped ones they add up to the total |
| Reconcile.FixTwice | src/utils/fixConfirmedBookings.js:34-50 | after an error-free run, a second run fixes nothing, reports no error whichever of its writes would fail, counts every existing confirmed slot as correct, and leaves the store unchanged |
| Calendar.OverlapSymmetricAndHalfOpen | src/controllers/slotController.js:83 | overlap is symmetric, adjacent slots do not overlap, and for proper intervals overlap means neither ends before the other starts |
| Calendar.AvailableSlots | src/controllers/slotController.js:9-25 | 500 with an empty list exactly when both bounds are truthy and one of them is no date; otherwise the listing holds exactly the free slots (inside from..to when both bounds are given), each once, sorted by start time |
| Calendar.BatchDuration | src/controllers/slotController.js:70 | the duration is what parseInt without a radix reads (hexadecimal after a 0x or 0X prefix) unless it is NaN or 0, in which case it is 30; never 0 |
| Calendar.HexDuration | src/controllers/slotController.js:70 | a duration written as 0x or 0X followed by hex digits is read in base 16 (so "0x10" is 16 minutes), falling back to 30 only when that value is 0 |
| Calendar.BareHexPrefixDuration | src/controllers/slotController.js:70 | a duration of just "0x" or "0X" has no digit after the prefix, so parseInt gives NaN and the duration is 30 |
| Calendar.BatchPrice | src/controllers/slotController.js:98 | the price is the supplied one when it is present and not 0, and 500 when it is absent or 0 |
| Calendar.Prepared | src/controllers/slotController.js:68-100 | a prepared slot is free with no holder, starts at the input time, and ends duration·60000 ms later |
| Calendar.CreateSlots | src/controllers/slotController.js:52-108 | 403 for non-admins; 400 for a missing or empty batch, a bad date, or any element clashing with a stored slot of the admin; all of these change nothing; 201 inserts every element at fresh ids |
| Calendar.CreateSlotsKeepsCalendar | src/controllers/slotController.js:80-103 | after a successful batch the calendar is overlap-free exactly when the batch's own elements are pairwise disjoint |
| Calendar.BatchMayOverlapItself | src/controllers/slotController.js:80-103 | a batch holding one admissible element twice is accepted and stores two identical, overlapping slots |
| Calendar.Patched | src/controllers/slotController.js:133-162 | a truthy, valid start time moves the slot and recomputes its end from the new or old duration; a falsy one (including the number 0) keeps times and duration; a price replaces the price |
| Calendar.UpdateSlot | src/controllers/slotController.js:114-169 | 403 for non-admins, 404 unless the slot is the admin's own, 400 unless it is free or when the moved slot clashes with another of the admin's slots, 500 with nothing saved exactly when a free own slot gets a truthy start time that is no date; only that slot changes |
| Calendar.UpdateSlotKeepsCalendar | src/controllers/slotController.js:135-158 | an update keeps an overlap-free calendar overlap-free |
| Calendar.DeleteSlot | src/controllers/slotController.js:175-199 | 403 for non-admins, 404 unless the slot is the admin's own, 400 exactly when it is not free; success removes only that slot |
| Calendar.HeldSlotsAreFrozen | src/controllers/slotController.js:129-192 | a slot that is not free comes out of update and delete unchanged |
| Js.PositiveOr | src/controllers/typingController.js:80-89 | the environment value when it is set and parseInt reads a positive integer from it, the default otherwise; so positive whenever the default is |
| Js.Decimal | src/controllers/typingController.js:97 | toString of a natural number is a non-empty string of decimal digits whose value is that number |
| Js.ParseIntDecimal | src/controllers/typingController.js:83 | parseInt reads back the number toString wrote, stopping at the first non-digit after it |
| Js.ParseIntSignedPadded | src/controllers/typingController.js:83 | parseInt skips leading white space and a minus sign negates |
| Js.AnyRadixAgreesWithDecimal | src/controllers/slotController.js:70 | without a 0x or 0X prefix after the white space and sign, parseInt with no radix reads the same value as parseInt with radix 10 |
| Js.AnyRadixReadsHex | src/controllers/slotController.js:70 | after a 0x or 0X prefix, parseInt with no radix reads the leading hex digits in base 16, where radix 10 stops at the x and reads 0 |
| Js.BareHexPrefixIsNaN | src/controllers/slotController.js:70 | parseInt with no radix reads a bare "0x" or "0X" as NaN, because no hex digit follows the prefix |
| Js.NoDigitsIsNaN | src/controllers/typingController.js:83-86 | text with no digit after the optional sign is NaN, so the price rule falls back to its default |
| Js.Receipt | src/controllers/mentorshipController.js:97-100 | the receipt starts with the prefix and ends with "_" and the first (at most eight) characters of the uid, after at most ten clock digits; so it is at most the prefix plus 19 characters |
| Js.NameOrFallback | src/controllers/mentorshipController.js:78 | the name when it is non-empty, else the non-empty text before '@' in the email, else "User"; never empty |
| Mentorship.ViewProgram | src/controllers/mentorshipController.js:16-36 | available seats are total minus enrolled; a missing programme is created and shows 14999, 6 seats, 0 enrolled, active |
| Mentorship.CreateEnrollment | src/controllers/mentorshipController.js:42-169 | 400 without an order when the programme is inactive, full, or the user has a pending or confirmed enrollment; 500 without an order when keys are missing; an order asks price·100 INR with a receipt of at most 24 characters and the mentorship notes; a Razorpay failure past the guards is 500; 400 happens exactly on a failed guard or on a record that fails the schema's required fields at save; success exactly when Razorpay answers and the record validates, adding one pending enrollment and no seat |
| Mentorship.UpdateProgram | src/controllers/mentorshipController.js:221-270 | 403 with nothing changed exactly when the stored role is not admin; 400 exactly when totalSeats would fall below enrolledCount; otherwise every supplied field is stored, the others and enrolledCount stay |
| Mentorship.HandlersKeepSeatsConsistent | src/controllers/mentorshipController.js:234-240 | neither enrollment creation nor a programme update can leave more enrolled than seats |
| Mentorship.OneActiveEnrollmentPerUser | src/controllers/mentorshipController.js:61-70 | after a successful enrollment, every further attempt by the same user is refused with 400 |
| Books.ParseBook | src/models/BookPurchase.js:3-12 | a name resolves to the book stored under it, and to none when no book has that name |
| Books.ParsePackage | src/models/BookPurchase.js:14-18 | a name resolves to the package stored under it, and to none when no package has that name |
| Books.BookTypesAreEight | src/models/BookPurchase.js:3-12 | there are eight distinct book types with distinct names that resolve back to them |
| Books.PackageTypesAreThree | src/models/BookPurchase.js:14-18 | every package type's name resolves back to it |
| Books.PackageContents | src/controllers/bookController.js:201-232 | the complete pack holds all eight books; the other bundle holds the seven other than polity |
| Books.AccessIsEntitlement | src/controllers/bookController.js:519-532 | for well-formed purchases, the access query grants a book exactly when a completed purchase of the user delivers it |
| Books.WithoutPolityNeverGrantsPolity | src/controllers/bookController.js:220-223 | a without-polity purchase never opens the polity book |
| Books.UnknownBookOnlyByCompletePack | src/controllers/bookController.js:519-532 | for a name that is no book, access holds exactly when the user has a completed complete pack |
| Books.DiscountIsFixed | src/controllers/bookController.js:15-16 | the crossed-out price is always the price plus 100 for a book and plus 200 for a bundle, configured or not |
| Books.SinglePurchase | src/controllers/bookController.js:340-350 | a single purchase is a well-formed pending record of that one book at its price |
| Books.BundlePurchase | src/controllers/bookController.js:463-473 | a bundle purchase is a well-formed pending record with no book type and the bundle's books at its price |
| Books.PendingOpensNothing | src/models/BookPurchase.js:72-76 | adding a pending purchase changes nobody's access to any book |
| Books.BookEntry | src/controllers/bookController.js:297-300 | the book table finds the eight book names as entries, every name all objects inherit as a priceless inherited value, and nothing else |
| Books.PackageEntry | src/controllers/bookController.js:380-383 | the package table finds the two bundles as entries, every inherited name as a bookless value, and neither "single" nor any other name |
| Books.CreateBookPurchase | src/controllers/bookController.js:283-370 | 404 exactly when the table lookup finds nothing; 400 without an order exactly when the lookup finds something and the user already matches the name; an inherited name otherwise gets 500; success exactly for a book when Razorpay answers and the record can be stored, adding one pending purchase and changing nobody's access |
| Books.CreatePackagePurchase | src/controllers/bookController.js:373-494 | 404 exactly when the table lookup finds nothing, including "single"; 500 without an order for an inherited name; 400 without an order exactly when the user completed a purchase of the same bundle, and owning single books never blocks; success exactly when no such purchase exists, Razorpay answers and the record can be stored, adding one pending bundle record |
| Books.InheritedNamesSellNothing | src/controllers/bookController.js:297-458 | for a name every object inherits, neither handler records anything; the book handler answers 400 exactly for a complete-pack owner and 500 otherwise; the bundle handler always answers 500 with no order |
| Books.CreatesKeepWellFormed | src/models/BookPurchase.js:34-51 | both create handlers keep every stored purchase well formed |
| Books.ReceiptsFit | src/controllers/bookController.js:328 | book and package receipts stay within Razorpay's 40 characters while the clock has at most thirteen digits |
| Typing.TypingPrice | src/controllers/typingController.js:80-89 | the configured price when it parses to a positive integer, 499 otherwise; always positive |
| Typing.CreateTypingPurchase | src/controllers/typingController.js:49-134 | 401 exactly without a user; 400 without an order exactly for an empty uid or a confirmed purchase; an order asks price·100 INR; success exactly when Razorpay answers and the record can be stored, adding one pending record and changing nobody's access |
| Typing.PendingGrantsNothing | src/controllers/typingController.js:110-117 | adding a pending purchase changes nobody's access |
| Typing.CheckTypingAccess | src/controllers/typingController.js:159-189 | 401 exactly without a user; hasAccess exactly when a confirmed purchase of the user exists |
| Typing.OwnerCannotBuyAgain | src/controllers/typingController.js:67-77 | once the user has access, every purchase attempt is 400 with no order and no change |
| Typing.PendingDoesNotBlock | src/controllers/typingController.js:67-70 | a user whose purchases are all pending is never refused as a duplicate |
| Typing.TypingReceiptFits | src/controllers/typingController.js:97 | the receipt is at most 20 characters while the clock has at most thirteen digits |
| Products.ProductPrice | src/controllers/polityController.js:13-22 | the configured price when it parses to a positive integer, else 199 (polity) or 99 (magazine); always at least 1 |
| Products.CreateProductPurchase | src/controllers/polityController.js:59-141 | 500 with no order exactly when keys are missing; an order asks price·100 INR with receipt "polity_"/"pdf_" + stamp + "_" + uid part, at most 40 characters; success exactly when Razorpay answers |
| Products.ReceiptBounds | src/controllers/pdfController.js:89-91 | polity receipts have at most 26 characters, magazine receipts at most 23 |
| Products.MyPurchases | src/controllers/polityController.js:147-162 | the list holds exactly the caller's confirmed purchases, unchanged |
| Products.MyPurchasesPartition | src/controllers/pdfController.js:152-167 | two users' lists share nothing, and filtering a list again gives the same list |
| Traces.HeldSlotRefusesAll | src/controllers/bookingController.js:40-44 | any sequence of claims on a slot that is not free wins nothing and changes nothing |
| Traces.AtMostOneClaimWins | src/controllers/bookingController.js:22-37 | of any sequence of createBooking calls on one slot at most one answers 201, and none when the slot was not free |
| Traces.VerifyPaymentTwice | src/controllers/bookingController.js:122-129 | repeating verifyPayment changes nothing, and succeeds once the first call got past the signature and the lookup |
| Traces.CapturedBookingTwice | src/controllers/webhookController.js:238-242 | a repeated captured event for a booking answers ok with no change and no email |
| Traces.CapturedEnrollmentTwice | src/controllers/webhookController.js:93-98 | a repeated captured event for an enrollment changes nothing; after an ok it answers ok with no email, and otherwise repeats the same code |
| Traces.FailedPaymentTwice | src/controllers/webhookController.js:375-386 | a repeated failed event answers ok and changes nothing |
| Traces.WebhookRedeliveryIsQuiet | src/controllers/webhookController.js:82-242 | any redelivered webhook changes nothing; if the first was answered ok, so is the redelivery, with no email |
| Traces.EmailsDoNotSteer | src/controllers/webhookController.js:215-226 | the administrator found, with or without an email, changes neither the store nor the status code |
| Traces.CancelUndoesConfirmation | src/controllers/bookingController.js:269-283 | cancelPayment on a confirmed booking with a booked slot cancels the booking and frees the slot |
| Traces.CaptureRevivesCancelled | src/controllers/webhookController.js:238-247 | a captured event confirms a booking that was already cancelled |
| Traces.LateConfirmationDrifts | src/controllers/bookingController.js:137-160 | a payment verified after the sweeper released an expired hold answers 400 but leaves the booking confirmed with its slot free, a booking the reconciliation counts as broken |
| Traces.SweepCancelsHold | src/utils/cleanupExpiredSlots.js:16-34 | a sweep cancels an expired hold, frees its slot, keeps the store well formed, and leaves the booking findable by its order id |
| Traces.DriftIsRepaired | src/utils/fixConfirmedBookings.js:5-9 | sweep, late verification and reconciliation in sequence end with the slot booked again, at least one fix, no error, and the bookings untouched by the repair |
| Traces.LostEnrollmentIsRebuilt | src/controllers/webhookController.js:104-132 | an enrollment removed by the TTL before the payment arrived is rebuilt from the order notes, confirmed for the same user, taking one seat |
| Traces.ConfirmationTakesNoSeat | src/controllers/webhookController.js:136-141 | an enrollment created by the user and confirmed by the webhook leaves enrolledCount unchanged |
| Traces.RebuildCanOversell | src/controllers/webhookController.js:121-141 | rebuilding an enrollment on a full programme still succeeds and pushes enrolledCount past totalSeats |

## Left out

- Emails, HTML templates and dates formatted for IST (`src/utils/email.js` is not part of this model). The webhook reports the addresses it would write to, and nothing else.
- The webhook's body normalisation (Buffer, string or parsed object) and JSON parsing. The raw body and the parsed event are separate inputs.
- The Razorpay and Firebase SDKs, and `verifyIdToken`. Each is a parameter.
- Cryptography. HMAC-SHA256 is an uninterpreted function.
- The upsert into the users collection done by the mentorship, polity and PDF handlers (`User.js` is not part of this model). Validation errors it could raise are not modelled.
- The `userId`/`adminId` versus `*FirebaseUid` field-name drift between handlers and schemas. Holders and administrators are single abstract ids.
- Mongoose `populate`, and exceptions other than the ones named in the contracts. A thrown error is a 500 that keeps the writes made before it.
- Express interleaving. Concurrency is modelled only as sequences of whole handler steps.
- Catalogue text, features and the info endpoints (`getBookInfo`, `getPackageInfo`, the product info handlers).
- The package rules in `bookController.js` that are commented out. They are not live code.
- Book `getMyPurchases`, `getAllEnrollments`, `getMyEnrollment` and `getMyTypingPurchases`. These are plain reads with no rule of their own.
- `getAllSlots`. It is a plain admin read.
- Books.BookPrice: book and bundle prices from the environment are taken as numbers. The source uses the raw environment string (`process.env.X || 199`), and a non-numeric string is not modelled. The `parseInt` without a radix in `originalPrice` is likewise taken as that number.
- Products.MyPurchases: the result is a map. The newest-first sort of the source is not modelled.
- Typing.CheckTypingAccess: the purchase details sent with a positive answer are not modelled.
- Typing.CreateTypingPurchase: the `user.firebaseUid` fallback for the uid is not modelled. The uid is `req.user.id`.
- Mentorship.CreateEnrollment: the email stored is `req.user.email`. The fallback to the user document's email is not modelled.
- The slot `meetingLink` field, and the Google Calendar configuration.
- Routes, the cron schedule and `index.js` wiring. The sweeper is a step that may run at any time. `index.js` mounts only the auth, slot, booking, payment and webhook routers. The book, mentorship, typing, polity and PDF handlers are modelled as the controllers define them, although no mounted route reaches them.
- `authController.js`. It only echoes `req.user`.
- Request-body numbers. `SlotInput.price`, the `SlotPatch` duration and price, the `ProgramPatch` totalSeats and price, and the `amount` of `createOrder` are integers. The source applies JavaScript coercion to whatever JSON arrives. For example, `amount * 100` gives 500 for the string "5" and NaN for an absent amount (paymentController.js:17-20), and `totalSeats < program.enrolledCount` compares null as 0 (mentorshipController.js:235). Non-numeric and missing values in these fields are not modelled.
- Number precision. JavaScript numbers are IEEE doubles, and the model's integers are exact. `parseInt` of a decimal longer than 2^53 rounds in JavaScript and is exact in `Js.ParseInt`. The same holds for `price * 100`, `amount * 100` and `enrolledCount += 1`. Rounding above 2^53 is not modelled.
- Dates. Slot times are milliseconds. A request date is one of three cases: falsy, a truthy value `new Date` turns into an instant, or a truthy value that gives Invalid Date. Which JSON values fall into each case is not modelled. For `createSlots`, which calls `new Date` without a truthiness test, an Invalid Date is an absent value.
- Books.CreateBookPurchase: for a name every object inherits, the order request with a NaN amount is not represented, so the reply carries no order. The model takes it that Razorpay refuses that request, so the handler answers 500 whatever `created` says.

=== FILE: auth.dfy ===
/** The bearer-token middleware (src/middleware/auth.js): the token is read
    from `Authorization: Bearer <token>` (the scheme of section 2.1 of
    RFC 6750, checked as a case-sensitive prefix and a split on single
    spaces), verified by Firebase, and turned into `req.user`. */
module Auth {
  import opened Base
  import opened Js

  const BEARER: string := "Bearer "

  /** `header.startsWith("Bearer ") ? header.split(" ")[1] : null`, followed
      by the `!token` test: an empty second field counts as no token. */
  function BearerToken(header: Option<string>): (r: Option<string>)
    ensures r.Some? <==> (header.Some? && |header.value| > |BEARER|
                          && header.value[..|BEARER|] == BEARER && header.value[|BEARER|] != ' ')
    ensures r.Some? ==> r.value != "" && ' ' !in r.value
    ensures r.Some? ==> var h := header.value; var n := |BEARER| + |r.value|;
                        n <= |h| && h[|BEARER|..n] == r.value && (n < |h| ==> h[n] == ' ')
  {
    var h := header.GetOr("");
    if |h| >= |BEARER| && h[..|BEARER|] == BEARER then
      var token := FirstField(h[|BEARER|..], ' ');
      if token == "" then None else Some(token)
    else None
  }

  /** What Firebase's verifyIdToken yields for a valid token. */
  datatype Claims = Claims(uid: Id, email: Option<string>, name: Option<string>,
                           displayName: Option<string>, picture: Option<string>)

  /** `req.user` as the middleware builds it. */
  datatype User = User(id: Id, email: Option<string>, name: Option<string>,
                       photoUrl: Option<string>, role: string)

  datatype AuthResult = Authenticated(user: User) | Rejected(code: int)

  /** The middleware: no token or a failed verification answers 401;
      otherwise the user is built from the claims and the stored role
      (`roles` is the users collection's uid -> role). */
  function Authenticate(header: Option<string>, verify: string -> Option<Claims>,
                        roles: map<Id, string>): (r: AuthResult)
    ensures r.Rejected? ==> r.code == UNAUTHORIZED
    ensures r.Authenticated? <==> BearerToken(header).Some? && verify(BearerToken(header).value).Some?
    ensures r.Authenticated? ==>
              var c := verify(BearerToken(header).value).value;
              && r.user.id == c.uid
              && r.user.email == c.email
              && r.user.name == (if Truthy(c.name) then c.name else c.displayName)
              && r.user.role == (if c.uid in roles then roles[c.uid] else "user")
  {
    match BearerToken(header)
    case None => Rejected(UNAUTHORIZED)
    case Some(token) =>
      match verify(token)
      case None => Rejected(UNAUTHORIZED)
      case Some(c) =>
        Authenticated(User(c.uid, c.email, OrElse(c.name, c.displayName), c.picture,
                           if c.uid in roles then roles[c.uid] else "user"))
  }

  /** A well-formed header round-trips: the token a client put after
      "Bearer " is the token the middleware reads, whatever follows the next
      space. */
  lemma BearerRoundTrip(token: string, trailer: string)
    requires token != "" && ' ' !in token
    requires trailer == "" || trailer[0] == ' '
    ensures BearerToken(Some(BEARER + token + trailer)) == Some(token)
  {
    var h := BEARER + token + trailer;
    assert h[..|BEARER|] == BEARER;
    assert h[|BEARER|..] == token + trailer;
    FirstFieldOf(token, trailer, ' ');
  }

  /** "Bearer " alone, a double space, or another scheme spelling never
      yields a token. */
  lemma NoTokenCases(rest: string)
    ensures BearerToken(None) == None
    ensures BearerToken(Some(BEARER)) == None
    ensures BearerToken(Some(BEARER + " " + rest)) == None
    ensures BearerToken(Some("bearer " + rest)) == None
  {
    assert (BEARER + " " + rest)[|BEARER|] == ' ';
    assert ("bearer " + rest)[0] == 'b';
  }
}

=== FILE: base.dfy ===
/** Shared vocabulary of the model: optional values, identifiers, time
    constants and HTTP status codes used by every handler. */
module Base {

  /** A value that may be absent (JavaScript `undefined`/`null`). */
  datatype Option<+T> = None | Some(value: T) {
    function GetOr(default: T): T {
      match this
      case Some(v) => v
      case None => default
    }
  }

  /** Firebase UIDs, emails, names: opaque text. */
  type Id = string

  /** Razorpay order and payment identifiers. */
  type OrderId = string

  /** Store-assigned document ids of slots and bookings (insertion order). */
  type SlotId = nat
  type BookingId = nat

  /** Time is an integer number of milliseconds since the epoch. */
  const MINUTE_MS: int := 60 * 1000

  /** The hold on a reservation: 15 minutes. */
  const HOLD_MS: int := 15 * MINUTE_MS

  /** The `expiresAt` default of a booking and of an enrollment: the hold
      ends fifteen minutes after creation. */
  function HoldExpiry(createdAt: int): (t: int)
    ensures t > createdAt && t - createdAt == 15 * 60 * 1000
  {
    createdAt + HOLD_MS
  }

  /** HTTP status codes the handlers answer with. */
  const OK: int := 200
  const CREATED: int := 201
  const BAD_REQUEST: int := 400
  const UNAUTHORIZED: int := 401
  const FORBIDDEN: int := 403
  const NOT_FOUND: int := 404
  const SERVER_ERROR: int := 500

  /** JavaScript truthiness of an optional string: absent and "" are falsy. */
  predicate Truthy(v: Option<string>) {
    v.Some? && v.value != ""
  }

  /** `a || b` on optional strings. */
  function OrElse(a: Option<string>, b: Option<string>): Option<string> {
    if Truthy(a) then a else b
  }

  /** What a caller learns about a Razorpay order request the handler sent:
      amount in paise, currency and receipt. */
  datatype OrderRequest = OrderRequest(amountPaise: int, currency: string, receipt: string)
}

=== FILE: booking_flow.dfy ===
/** The consultation booking handlers (src/controllers/bookingController.js):
    the claim with its compensation, the client-driven payment
    verification, and the unguarded cancellation. Each is a fixed chain of
    single-document writes, written here as one function of the store. */
module BookingFlow {
  import opened Base
  import opened Js
  import opened SlotModel
  import opened BookingModel
  import opened Store
  import Payment

  /** The request body of POST /api/bookings; absent fields are `None`. */
  datatype CreateRequest = CreateRequest(slot: SlotId, userName: Option<string>,
                                         userEmail: Option<string>, purpose: Option<string>)

  /** The answer: HTTP status, the order request sent to Razorpay (if one
      was sent) and the id of the inserted booking (if any). */
  datatype CreateReply = CreateReply(code: int, order: Option<OrderRequest>, booking: Option<BookingId>)

  /** The booking document createBooking inserts for a claimed slot. */
  function PendingBooking(holder: Id, req: CreateRequest, slot: Slot, order: OrderId, now: int): Booking {
    Booking(holder, req.slot, slot.admin, req.userName.GetOr(""), req.userEmail.GetOr(""),
            if Truthy(req.purpose) then req.purpose.value else "",
            slot.price, BookingStatus.Pending, order, None, None, HoldExpiry(now))
  }

  /** Whether createBooking gets past every step after the claim: Razorpay
      creates the order and the booking passes schema validation. */
  predicate CreateCompletes(holder: Id, req: CreateRequest, slot: Slot, created: Option<OrderId>, now: int) {
    created.Some? && Valid(PendingBooking(holder, req, slot, created.value, now))
  }

  /** POST /api/bookings. `created` is Razorpay's answer to orders.create
      (`None` when it throws). */
  function CreateBooking(st: Store, holder: Id, req: CreateRequest, now: nat,
                         created: Option<OrderId>): (r: (Store, CreateReply))
    requires Wf(st)
    ensures Wf(r.0)
    // the claim is the only gate: a slot that is not free is refused untouched
    ensures r.1.code == BAD_REQUEST <==> !(req.slot in st.slots && st.slots[req.slot].status == Free)
    ensures r.1.code == BAD_REQUEST ==> r.0 == st && r.1.order.None? && r.1.booking.None?
    ensures r.1.code == CREATED <==>
              req.slot in st.slots && st.slots[req.slot].status == Free
              && CreateCompletes(holder, req, st.slots[req.slot], created, now)
    // success: the slot is held and one pending booking records the hold
    ensures r.1.code == CREATED ==>
              var slot := st.slots[req.slot];
              var id := st.nextBooking;
              && r.1.booking == Some(id)
              && r.0.slots == st.slots[req.slot := slot.(status := SlotStatus.Pending, updatedAt := now)]
              && id !in st.bookings && id in r.0.bookings
              && r.0.bookings == st.bookings[id := r.0.bookings[id]]
              && r.0.bookings[id].status == BookingStatus.Pending
              && r.0.bookings[id].holder == holder && r.0.bookings[id].slot == req.slot
              && r.0.bookings[id].amount == slot.price
              && r.0.bookings[id].expiresAt == HoldExpiry(now)
              && r.0.bookings[id].orderId == created.value
              && r.1.order.Some? && r.1.order.value.amountPaise == slot.price * 100
              && r.1.order.value.currency == "INR"
    // failure after the claim: the slot is put back to free and no booking exists
    ensures r.1.code == SERVER_ERROR ==>
              && r.0.bookings == st.bookings && r.0.nextBooking == st.nextBooking
              && r.0.slots.Keys == st.slots.Keys
              && r.0.slots[req.slot].status == Free
              && r.0.slots[req.slot].bookedBy == st.slots[req.slot].bookedBy
              && (forall k :: k in st.slots && k != req.slot ==> r.0.slots[k] == st.slots[k])
              && r.1.order.Some? && r.1.booking.None?
    // the rollback undoes the claim's write exactly, leaving only the timestamp
    ensures r.1.code == SERVER_ERROR ==>
              r.0 == st.(slots := st.slots[req.slot := st.slots[req.slot].(updatedAt := now)])
    ensures r.1.code in {CREATED, BAD_REQUEST, SERVER_ERROR}
    ensures r.0.enrollments == st.enrollments && r.0.program == st.program
  {
    var (held, won) := Claim(st.slots, req.slot, now);
    if !won then (st, CreateReply(BAD_REQUEST, None, None))
    else
      var slot := held[req.slot];
      var order := OrderRequest(slot.price * 100, "INR", "booking_" + Decimal(now));
      var rollback := st.(slots := ForceFree(held, req.slot, false, now));
      match created
      case None => (rollback, CreateReply(SERVER_ERROR, Some(order), None))
      case Some(orderId) =>
        var b := PendingBooking(holder, req, slot, orderId, now);
        if !Valid(b) then (rollback, CreateReply(SERVER_ERROR, Some(order), None))
        else
          var id := st.nextBooking;
          (st.(slots := held, bookings := st.bookings[id := b], nextBooking := id + 1),
           CreateReply(CREATED, Some(order), Some(id)))
  }

  /** POST /api/bookings/verify-payment: the signature gate, then the
      booking is confirmed and its slot moved from pending to booked, but
      only if it is still pending. Returns the new store and the status. */
  function VerifyPayment(st: Store, hmac: (string, string) -> string, secret: Option<string>,
                         orderId: OrderId, paymentId: string, signature: Option<string>,
                         now: nat): (r: (Store, int))
    requires Wf(st)
    ensures Wf(r.0)
    ensures Payment.CheckSignature(hmac, secret, orderId, paymentId, signature) != OK ==>
              r.0 == st && r.1 == Payment.CheckSignature(hmac, secret, orderId, paymentId, signature)
    ensures r.1 == NOT_FOUND ==> r.0 == st && FindByOrder(st, orderId).None?
    ensures Payment.CheckSignature(hmac, secret, orderId, paymentId, signature) == OK
            && FindByOrder(st, orderId).Some? ==>
              var id := FindByOrder(st, orderId).value;
              var b := st.bookings[id];
              if b.status == BookingStatus.Confirmed then r.0 == st && r.1 == OK
              else
                && r.0.bookings == st.bookings[id := b.(status := BookingStatus.Confirmed, paymentId := Some(paymentId),
                                                       signature := signature)]
                && r.0.nextBooking == st.nextBooking
                && (if b.slot in st.slots && st.slots[b.slot].status == SlotStatus.Pending then
                      r.1 == OK && r.0.slots == st.slots[b.slot := st.slots[b.slot].(
                        status := Booked, bookedBy := Some(b.holder), updatedAt := now)]
                    else
                      r.0.slots == st.slots
                      && r.1 == (if b.slot in st.slots then BAD_REQUEST else SERVER_ERROR))
    ensures r.0.enrollments == st.enrollments && r.0.program == st.program
  {
    var gate := Payment.CheckSignature(hmac, secret, orderId, paymentId, signature);
    if gate != OK then (st, gate)
    else
      match FindByOrder(st, orderId)
      case None => (st, NOT_FOUND)
      case Some(id) =>
        var b := st.bookings[id];
        if b.status == BookingStatus.Confirmed then (st, OK)
        else
          var confirmed := st.(bookings := st.bookings[id := b.(status := BookingStatus.Confirmed,
                                 paymentId := Some(paymentId), signature := signature)]);
          if b.slot !in st.slots then (confirmed, SERVER_ERROR)
          else
            var (slots, moved) := BookIfPending(st.slots, b.slot, b.holder, now);
            (confirmed.(slots := slots), if moved then OK else BAD_REQUEST)
  }

  /** POST /api/bookings/cancel-payment: the first booking with the order id
      is cancelled whatever its status, and its slot is forced free with the
      holder cleared. The answer is always success. */
  function CancelPayment(st: Store, orderId: OrderId, now: nat): (r: (Store, int))
    requires Wf(st)
    ensures Wf(r.0)
    ensures r.1 == OK
    ensures FindByOrder(st, orderId).None? ==> r.0 == st
    ensures FindByOrder(st, orderId).Some? ==>
              var id := FindByOrder(st, orderId).value;
              var b := st.bookings[id];
              && r.0.bookings == st.bookings[id := b.(status := BookingStatus.Cancelled)]
              && r.0.slots.Keys == st.slots.Keys
              && (b.slot in st.slots ==> r.0.slots[b.slot].status == Free && r.0.slots[b.slot].bookedBy.None?)
              && (forall k :: k in st.slots && k != b.slot ==> r.0.slots[k] == st.slots[k])
    // only status, holder and the timestamp of that slot are written
    ensures FindByOrder(st, orderId).Some? ==>
              var b := st.bookings[FindByOrder(st, orderId).value];
              && (b.slot in st.slots ==>
                    r.0.slots == st.slots[b.slot := st.slots[b.slot].(status := Free, bookedBy := None, updatedAt := now)])
              && (b.slot !in st.slots ==> r.0.slots == st.slots)
    ensures r.0.enrollments == st.enrollments && r.0.program == st.program
  {
    match FindByOrder(st, orderId)
    case None => (st, OK)
    case Some(id) =>
      var b := st.bookings[id];
      (st.(bookings := st.bookings[id := b.(status := BookingStatus.Cancelled)],
           slots := ForceFree(st.slots, b.slot, true, now)), OK)
  }
}

=== FILE: booking_model.dfy ===
/** The Booking document (src/models/Booking.js): one holder's reservation
    of one slot against one Razorpay order. */
module BookingModel {
  import opened Base
  import Lifecycle

  /** Booking.js's `status` enum: pending, confirmed, cancelled, completed,
      default pending. */
  type BookingStatus = Lifecycle.Status

  const PURPOSE_MAX: int := 500

  /** `razorpayOrderId` is required but not unique; payment id and signature
      stay absent until a confirmation writes them. */
  datatype Booking = Booking(holder: Id, slot: SlotId, admin: Id, userName: string,
                             userEmail: string, purpose: string, amount: int,
                             status: BookingStatus, orderId: OrderId,
                             paymentId: Option<string>, signature: Option<string>,
                             expiresAt: int)

  /** Schema validation on insert: required strings must be non-empty (an
      empty string fails Mongoose's `required`) and `purpose` has at most
      500 characters. */
  predicate Valid(b: Booking) {
    b.holder != "" && b.userName != "" && b.userEmail != "" && b.orderId != ""
    && |b.purpose| <= PURPOSE_MAX
  }

  /** The TTL index (`expireAfterSeconds: 0` filtered on status "pending"):
      the store may delete a booking once it is pending and past its
      expiry, and no other booking. */
  predicate TtlMayDelete(b: Booking, now: int) {
    b.status == Lifecycle.Pending && b.expiresAt < now
  }

  /** Confirmed, cancelled and completed bookings are never auto-deleted,
      and a booking is safe until its expiry instant has passed. */
  lemma TtlSparesSettled(b: Booking, now: int)
    ensures b.status != Lifecycle.Pending ==> !TtlMayDelete(b, now)
    ensures now <= b.expiresAt ==> !TtlMayDelete(b, now)
    ensures TtlMayDelete(b, now) ==> TtlMayDelete(b, now + 1)
  {
  }
}

=== FILE: books.dfy ===
/** Book and package entitlement (src/models/BookPurchase.js and
    src/controllers/bookController.js): eight subject books, sold singly or
    in two bundles, and the rule deciding which completed purchases open
    which book. */
module Books {
  import opened Base
  import opened Js
  import Auth

  datatype BookType =
    | Polity | Economics | Geography | Environment | Science
    | ModernHistory | AncientHistory | MedievalHistory

  datatype PackageType = Single | CompletePack | WithoutPolity

  datatype PurchaseStatus = Pending | Completed | Failed

  /** The stored value of each book type. */
  function BookName(b: BookType): string {
    match b
    case Polity => "polity"
    case Economics => "economics"
    case Geography => "geography"
    case Environment => "environment"
    case Science => "science"
    case ModernHistory => "modern-history"
    case AncientHistory => "ancient-history"
    case MedievalHistory => "medieval-history"
  }

  function PackageName(p: PackageType): string {
    match p
    case Single => "single"
    case CompletePack => "complete-pack"
    case WithoutPolity => "without-polity"
  }

  /** The lookup of a route parameter in the book table. */
  function ParseBook(s: string): (r: Option<BookType>)
    ensures r.Some? ==> BookName(r.value) == s
    ensures r.None? ==> forall b: BookType :: BookName(b) != s
  {
    if s == "polity" then Some(Polity)
    else if s == "economics" then Some(Economics)
    else if s == "geography" then Some(Geography)
    else if s == "environment" then Some(Environment)
    else if s == "science" then Some(Science)
    else if s == "modern-history" then Some(ModernHistory)
    else if s == "ancient-history" then Some(AncientHistory)
    else if s == "medieval-history" then Some(MedievalHistory)
    else None
  }

  function ParsePackage(s: string): (r: Option<PackageType>)
    ensures r.Some? ==> PackageName(r.value) == s
    ensures r.None? ==> forall p: PackageType :: PackageName(p) != s
  {
    if s == "single" then Some(Single)
    else if s == "complete-pack" then Some(CompletePack)
    else if s == "without-polity" then Some(WithoutPolity)
    else None
  }

  /** `BOOK_INFO[bookType]`: the table's own keys are the eight book names. */
  function BookEntry(s: string): (r: Lookup<BookType>)
    ensures r.Entry? <==> ParseBook(s).Some?
    ensures r.Entry? ==> BookName(r.value) == s
    ensures r.Inherited? <==> s in INHERITED_NAMES
    ensures r.Missing? <==> ParseBook(s).None? && s !in INHERITED_NAMES
  {
    match ParseBook(s)
    case Some(b) => Entry(b)
    case None => if s in INHERITED_NAMES then Inherited else Missing
  }

  /** `PACKAGE_INFO[packageType]`: the table's own keys are the two bundles;
      "single" is a package type but has no entry. */
  function PackageEntry(s: string): (r: Lookup<PackageType>)
    ensures r.Entry? <==> ParsePackage(s) in {Some(CompletePack), Some(WithoutPolity)}
    ensures r.Entry? ==> PackageName(r.value) == s && r.value != Single
    ensures r.Inherited? <==> s in INHERITED_NAMES
    ensures r.Missing? <==> (ParsePackage(s).None? || ParsePackage(s) == Some(Single)) && s !in INHERITED_NAMES
  {
    match ParsePackage(s)
    case Some(p) => if p == Single then Missing else Entry(p)
    case None => if s in INHERITED_NAMES then Inherited else Missing
  }

  /** Every book type, in declaration order (`Object.values(BookType)`). */
  const ALL_BOOKS: seq<BookType> :=
    [Polity, Economics, Geography, Environment, Science, ModernHistory, AncientHistory, MedievalHistory]

  /** The books of a bundle; the single type is not in the package table. */
  function PackageBooks(p: PackageType): Option<seq<BookType>> {
    match p
    case Single => None
    case CompletePack => Some(ALL_BOOKS)
    case WithoutPolity => Some(ALL_BOOKS[1..])
  }

  predicate Distinct<T(==)>(s: seq<T>) {
    forall i, j :: 0 <= i < j < |s| ==> s[i] != s[j]
  }

  /** Eight distinct book types with eight distinct names, and the names
      round-trip through the table lookup. */
  lemma BookTypesAreEight()
    ensures |ALL_BOOKS| == 8 && Distinct(ALL_BOOKS)
    ensures forall b: BookType :: b in ALL_BOOKS
    ensures forall b: BookType :: ParseBook(BookName(b)) == Some(b)
    ensures forall b, c: BookType :: BookName(b) == BookName(c) ==> b == c
  {
    forall b: BookType ensures b in ALL_BOOKS {
      match b
      case Polity => assert ALL_BOOKS[0] == b;
      case Economics => assert ALL_BOOKS[1] == b;
      case Geography => assert ALL_BOOKS[2] == b;
      case Environment => assert ALL_BOOKS[3] == b;
      case Science => assert ALL_BOOKS[4] == b;
      case ModernHistory => assert ALL_BOOKS[5] == b;
      case AncientHistory => assert ALL_BOOKS[6] == b;
      case MedievalHistory => assert ALL_BOOKS[7] == b;
    }
  }

  lemma PackageTypesAreThree()
    ensures forall p: PackageType :: ParsePackage(PackageName(p)) == Some(p)
  {
  }

  /** The complete pack holds all eight books; the other bundle holds the
      seven other than polity. */
  lemma PackageContents()
    ensures PackageBooks(CompletePack) == Some(ALL_BOOKS)
    ensures var w := PackageBooks(WithoutPolity).value;
            |w| == 7 && Distinct(w) && Polity !in w && forall b: BookType :: b != Polity ==> b in w
  {
  }

  /** A purchase document. `bookType` is null for bundles. */
  datatype BookPurchase = BookPurchase(
    userId: Id, userEmail: string, userName: Option<string>,
    packageType: PackageType, bookType: Option<BookType>, booksIncluded: seq<BookType>,
    paymentId: Option<string>, amount: int, status: PurchaseStatus)

  /** Purchases keyed by their (unique) Razorpay order id. */
  type Purchases = map<OrderId, BookPurchase>

  /** Shape of the documents the two create handlers write: a single book
      names its book and includes only it; a bundle names none and includes
      the bundle's books. */
  predicate WellFormed(p: BookPurchase) {
    if p.packageType == Single then p.bookType.Some? && p.booksIncluded == [p.bookType.value]
    else p.bookType.None? && Some(p.booksIncluded) == PackageBooks(p.packageType)
  }

  predicate AllWellFormed(purchases: Purchases) {
    forall o :: o in purchases ==> WellFormed(purchases[o])
  }

  /** The names stored in `booksIncluded`. */
  function Names(bs: seq<BookType>): (r: seq<string>)
    ensures |r| == |bs| && forall i :: 0 <= i < |bs| ==> r[i] == BookName(bs[i])
  {
    if bs == [] then [] else [BookName(bs[0])] + Names(bs[1..])
  }

  /** One purchase matches the access query for `book` (the route
      parameter, which may name no book at all). */
  predicate Grants(p: BookPurchase, uid: Id, book: string) {
    && p.userId == uid
    && p.status == Completed
    && ((p.packageType == Single && p.bookType.Some? && BookName(p.bookType.value) == book)
        || p.packageType == CompletePack
        || (p.packageType == WithoutPolity && book in Names(p.booksIncluded)))
  }

  /** `checkBookAccess`: some purchase matches the query. */
  predicate HasAccess(purchases: Purchases, uid: Id, book: string) {
    exists o :: o in purchases && Grants(purchases[o], uid, book)
  }

  /** The books a purchase is meant to deliver. */
  function BooksOf(p: BookPurchase): set<BookType> {
    if p.packageType == Single then (if p.bookType.Some? then {p.bookType.value} else {})
    else match PackageBooks(p.packageType)
         case Some(bs) => set b | b in bs
         case None => {}
  }

  /** Entitlement stated independently of the query: some completed purchase
      of the user delivers the book. */
  predicate Entitled(purchases: Purchases, uid: Id, b: BookType) {
    exists o :: o in purchases && purchases[o].userId == uid && purchases[o].status == Completed
                && b in BooksOf(purchases[o])
  }

  lemma NamesContain(bs: seq<BookType>, b: BookType)
    ensures BookName(b) in Names(bs) <==> b in bs
  {
    BookTypesAreEight();
    if BookName(b) in Names(bs) {
      var i :| 0 <= i < |bs| && Names(bs)[i] == BookName(b);
      assert bs[i] == b;
    }
    if b in bs {
      var i :| 0 <= i < |bs| && bs[i] == b;
      assert Names(bs)[i] == BookName(b);
    }
  }

  /** For well-formed purchases the query grants exactly the books the
      purchases deliver. */
  lemma AccessIsEntitlement(purchases: Purchases, uid: Id, b: BookType)
    requires AllWellFormed(purchases)
    ensures HasAccess(purchases, uid, BookName(b)) <==> Entitled(purchases, uid, b)
  {
    BookTypesAreEight();
    if HasAccess(purchases, uid, BookName(b)) {
      var o :| o in purchases && Grants(purchases[o], uid, BookName(b));
      NamesContain(purchases[o].booksIncluded, b);
      assert b in BooksOf(purchases[o]);
    }
    if Entitled(purchases, uid, b) {
      var o :| o in purchases && purchases[o].userId == uid && purchases[o].status == Completed
               && b in BooksOf(purchases[o]);
      NamesContain(purchases[o].booksIncluded, b);
      assert Grants(purchases[o], uid, BookName(b));
    }
  }

  /** A without-polity purchase never opens the polity book. */
  lemma WithoutPolityNeverGrantsPolity(p: BookPurchase, uid: Id)
    requires WellFormed(p) && p.packageType == WithoutPolity
    ensures !Grants(p, uid, BookName(Polity))
  {
    NamesContain(p.booksIncluded, Polity);
  }

  /** The query also answers for names that are no book: only a complete
      pack matches them. */
  lemma UnknownBookOnlyByCompletePack(purchases: Purchases, uid: Id, book: string)
    requires AllWellFormed(purchases) && ParseBook(book).None?
    ensures HasAccess(purchases, uid, book) <==>
              exists o :: o in purchases && purchases[o].userId == uid && purchases[o].status == Completed
                          && purchases[o].packageType == CompletePack
  {
    if HasAccess(purchases, uid, book) {
      var o :| o in purchases && Grants(purchases[o], uid, book);
    }
  }

  /** The configured prices: a book's or bundle's environment value when set
      (a decimal integer), and the table's defaults otherwise. */
  datatype PriceEnv = PriceEnv(books: map<BookType, int>, packages: map<PackageType, int>)

  /** `process.env.<BOOK>_BOOK_PRICE || 199`. */
  function BookPrice(env: PriceEnv, b: BookType): int {
    if b in env.books then env.books[b] else 199
  }

  /** The crossed-out price shown next to the book's price. */
  function BookOriginalPrice(env: PriceEnv, b: BookType): int {
    if b in env.books then env.books[b] + 100 else 299
  }

  function PackagePrice(env: PriceEnv, p: PackageType): int
    requires p != Single
  {
    if p in env.packages then env.packages[p] else if p == CompletePack then 999 else 899
  }

  function PackageOriginalPrice(env: PriceEnv, p: PackageType): int
    requires p != Single
  {
    if p in env.packages then env.packages[p] + 200 else if p == CompletePack then 1199 else 1099
  }

  /** The advertised saving is fixed whether or not a price is configured:
      100 on a book, 200 on a bundle. */
  lemma DiscountIsFixed(env: PriceEnv)
    ensures forall b :: BookOriginalPrice(env, b) == BookPrice(env, b) + 100
    ensures forall p :: p != Single ==> PackageOriginalPrice(env, p) == PackagePrice(env, p) + 200
  {
  }

  /** The answer of a create handler: status and the order request sent to
      Razorpay, if one was sent. */
  datatype PurchaseReply = PurchaseReply(code: int, order: Option<OrderRequest>)

  /** The book record requires a user id and a non-empty email; the order id
      is unique. Any failure on save is answered 500. */
  predicate Storable(purchases: Purchases, orderId: OrderId, p: BookPurchase) {
    p.userId != "" && p.userEmail != "" && orderId !in purchases
  }

  function SingleReceipt(b: BookType, now: nat): string {
    "book_" + BookName(b) + "_" + Decimal(now)
  }

  /** `createBookPurchase`. `created` is Razorpay's answer (`None` when
      order creation throws). A name inherited from Object.prototype passes
      the 404 test but has no price: the order is requested with a NaN
      amount, which Razorpay refuses, so the handler answers 500 without a
      well-formed order and without a record. */
  function CreateBookPurchase(purchases: Purchases, user: Auth.User, book: string, env: PriceEnv,
                              now: nat, created: Option<OrderId>): (r: (Purchases, PurchaseReply))
    ensures r.1.code in {OK, BAD_REQUEST, NOT_FOUND, SERVER_ERROR}
    ensures r.1.code != OK ==> r.0 == purchases
    ensures r.1.code == NOT_FOUND <==> BookEntry(book).Missing?
    // a user whose completed purchases already match the name is turned
    // away before any order, whether or not the name is a book
    ensures r.1.code == BAD_REQUEST <==> !BookEntry(book).Missing? && HasAccess(purchases, user.id, book)
    ensures BookEntry(book).Inherited? ==>
              r.1.code == (if HasAccess(purchases, user.id, book) then BAD_REQUEST else SERVER_ERROR)
    ensures r.1.order.Some? ==>
              && BookEntry(book).Entry? && !HasAccess(purchases, user.id, book)
              && var b := BookEntry(book).value;
                 r.1.order.value == OrderRequest(BookPrice(env, b) * 100, "INR", SingleReceipt(b, now))
    ensures BookEntry(book).Entry? && !HasAccess(purchases, user.id, book) ==> r.1.order.Some?
    ensures r.1.code == OK <==>
              && BookEntry(book).Entry? && !HasAccess(purchases, user.id, book) && created.Some?
              && Storable(purchases, created.value, SinglePurchase(user, BookEntry(book).value, env))
    // success records one pending purchase, which opens nothing yet
    ensures r.1.code == OK ==>
              && r.0 == purchases[created.value := SinglePurchase(user, BookEntry(book).value, env)]
              && (forall u, s :: HasAccess(r.0, u, s) <==> HasAccess(purchases, u, s))
  {
    match BookEntry(book)
    case Missing => (purchases, PurchaseReply(NOT_FOUND, None))
    case Inherited =>
      if HasAccess(purchases, user.id, book) then (purchases, PurchaseReply(BAD_REQUEST, None))
      else (purchases, PurchaseReply(SERVER_ERROR, None))
    case Entry(b) =>
      if HasAccess(purchases, user.id, book) then (purchases, PurchaseReply(BAD_REQUEST, None))
      else
        var order := OrderRequest(BookPrice(env, b) * 100, "INR", SingleReceipt(b, now));
        match created
        case None => (purchases, PurchaseReply(SERVER_ERROR, Some(order)))
        case Some(orderId) =>
          var p := SinglePurchase(user, b, env);
          if !Storable(purchases, orderId, p) then (purchases, PurchaseReply(SERVER_ERROR, Some(order)))
          else
            PendingOpensNothing(purchases, orderId, p);
            (purchases[orderId := p], PurchaseReply(OK, Some(order)))
  }

  /** The pending record of a single-book purchase. */
  function SinglePurchase(user: Auth.User, b: BookType, env: PriceEnv): (p: BookPurchase)
    ensures WellFormed(p) && p.status == Pending && p.amount == BookPrice(env, b)
    ensures p.packageType == Single && p.booksIncluded == [b]
  {
    BookPurchase(user.id, user.email.GetOr(""), user.name, Single, Some(b), [b], None, BookPrice(env, b), Pending)
  }

  /** Adding a pending record changes no one's access. */
  lemma PendingOpensNothing(purchases: Purchases, orderId: OrderId, p: BookPurchase)
    requires orderId !in purchases && p.status == Pending
    ensures forall u, s :: HasAccess(purchases[orderId := p], u, s) <==> HasAccess(purchases, u, s)
  {
    var after := purchases[orderId := p];
    forall u, s ensures HasAccess(after, u, s) <==> HasAccess(purchases, u, s) {
      if HasAccess(after, u, s) {
        var o :| o in after && Grants(after[o], u, s);
        assert o != orderId && o in purchases;
      }
      if HasAccess(purchases, u, s) {
        var o :| o in purchases && Grants(purchases[o], u, s);
        assert o in after && after[o] == purchases[o];
      }
    }
  }

  /** The user has a completed purchase of this package type. */
  predicate OwnsPackage(purchases: Purchases, uid: Id, p: PackageType) {
    exists o :: o in purchases && purchases[o].userId == uid && purchases[o].packageType == p
                && purchases[o].status == Completed
  }

  function PackageReceipt(p: PackageType, now: nat): string {
    "package_" + PackageName(p) + "_" + Decimal(now)
  }

  /** The pending record of a bundle purchase. */
  function BundlePurchase(user: Auth.User, p: PackageType, env: PriceEnv): (r: BookPurchase)
    requires p != Single
    ensures WellFormed(r) && r.status == Pending && r.amount == PackagePrice(env, p)
    ensures r.bookType.None? && r.packageType == p
  {
    BookPurchase(user.id, user.email.GetOr(""), user.name, p, None, PackageBooks(p).value, None,
                 PackagePrice(env, p), Pending)
  }

  /** `createPackagePurchase`. A name inherited from Object.prototype
      passes the 404 test and matches no stored purchase, and building the
      order's notes then reads `packageInfo.books.length` from a value with
      no `books`, which throws: 500 before any order is requested. */
  function CreatePackagePurchase(purchases: Purchases, user: Auth.User, package: string, env: PriceEnv,
                                 now: nat, created: Option<OrderId>): (r: (Purchases, PurchaseReply))
    ensures r.1.code in {OK, BAD_REQUEST, NOT_FOUND, SERVER_ERROR}
    ensures r.1.code != OK ==> r.0 == purchases
    // "single" is a package type but not a package
    ensures r.1.code == NOT_FOUND <==> PackageEntry(package).Missing?
    // only an earlier completed purchase of the same bundle blocks; single books do not
    ensures r.1.code == BAD_REQUEST <==>
              PackageEntry(package).Entry? && OwnsPackage(purchases, user.id, PackageEntry(package).value)
    ensures PackageEntry(package).Inherited? ==> r.1.code == SERVER_ERROR && r.1.order.None?
    ensures r.1.order.Some? <==>
              PackageEntry(package).Entry? && !OwnsPackage(purchases, user.id, PackageEntry(package).value)
    ensures r.1.order.Some? ==>
              var p := PackageEntry(package).value;
              r.1.order.value == OrderRequest(PackagePrice(env, p) * 100, "INR", PackageReceipt(p, now))
    ensures r.1.code == OK <==>
              && PackageEntry(package).Entry? && !OwnsPackage(purchases, user.id, PackageEntry(package).value)
              && created.Some?
              && Storable(purchases, created.value, BundlePurchase(user, PackageEntry(package).value, env))
    ensures r.1.code == OK ==>
              var p := PackageEntry(package).value;
              && r.0 == purchases[created.value := BundlePurchase(user, p, env)]
              && (forall u, s :: HasAccess(r.0, u, s) <==> HasAccess(purchases, u, s))
  {
    match PackageEntry(package)
    case Missing => (purchases, PurchaseReply(NOT_FOUND, None))
    case Inherited => (purchases, PurchaseReply(SERVER_ERROR, None))
    case Entry(p) =>
      if OwnsPackage(purchases, user.id, p) then (purchases, PurchaseReply(BAD_REQUEST, None))
      else
        var order := OrderRequest(PackagePrice(env, p) * 100, "INR", PackageReceipt(p, now));
        match created
        case None => (purchases, PurchaseReply(SERVER_ERROR, Some(order)))
        case Some(orderId) =>
          var record := BundlePurchase(user, p, env);
          if !Storable(purchases, orderId, record) then (purchases, PurchaseReply(SERVER_ERROR, Some(order)))
          else
            PendingOpensNothing(purchases, orderId, record);
            (purchases[orderId := record], PurchaseReply(OK, Some(order)))
  }

  /** A name every object inherits is never sold: neither handler records
      anything or succeeds, a complete-pack owner is told the book is
      already theirs, and the bundle handler always fails with 500. */
  lemma InheritedNamesSellNothing(purchases: Purchases, user: Auth.User, name: string, env: PriceEnv,
                                  now: nat, created: Option<OrderId>)
    requires name in INHERITED_NAMES
    ensures var (after, reply) := CreateBookPurchase(purchases, user, name, env, now, created);
            after == purchases && reply.order.None?
            && (reply.code == BAD_REQUEST <==>
                  exists o :: o in purchases && purchases[o].userId == user.id
                              && purchases[o].status == Completed && purchases[o].packageType == CompletePack)
            && (reply.code != BAD_REQUEST ==> reply.code == SERVER_ERROR)
    ensures CreatePackagePurchase(purchases, user, name, env, now, created) ==
              (purchases, PurchaseReply(SERVER_ERROR, None))
  {
    BookTypesAreEight();
    assert ParseBook(name).None?;
    if HasAccess(purchases, user.id, name) {
      var o :| o in purchases && Grants(purchases[o], user.id, name);
      NamesLackInherited(purchases[o].booksIncluded, name);
    }
  }

  /** No stored book name is a name every object inherits. */
  lemma NamesLackInherited(bs: seq<BookType>, name: string)
    requires name in INHERITED_NAMES
    ensures name !in Names(bs)
  {
    if name in Names(bs) {
      var i :| 0 <= i < |bs| && Names(bs)[i] == name;
      BookNameNotInherited(bs[i]);
    }
  }

  lemma BookNameNotInherited(b: BookType)
    ensures BookName(b) !in INHERITED_NAMES
  {
  }

  /** Both create handlers keep every stored document well-formed. */
  lemma CreatesKeepWellFormed(purchases: Purchases, user: Auth.User, name: string, env: PriceEnv,
                              now: nat, created: Option<OrderId>)
    requires AllWellFormed(purchases)
    ensures AllWellFormed(CreateBookPurchase(purchases, user, name, env, now, created).0)
    ensures AllWellFormed(CreatePackagePurchase(purchases, user, name, env, now, created).0)
  {
  }

  /** Razorpay accepts receipts of at most 40 characters; the book and
      bundle receipts carry the full clock and fit only while it has at most
      thirteen digits. */
  lemma ReceiptsFit(b: BookType, p: PackageType, now: nat)
    requires now < Pow10(13)
    ensures |SingleReceipt(b, now)| <= 40
    ensures |PackageReceipt(p, now)| <= 40
  {
    DecimalLength(now, 13);
  }
}

=== FILE: calendar.dfy ===
/** The slot calendar (src/controllers/slotController.js): the public
    listing of free slots and the administrator's batch insert, update and
    delete, with the per-administrator overlap rule on half-open intervals. */
module Calendar {
  import opened Base
  import opened Js
  import opened SlotModel
  import opened Store
  import Auth

  const ADMIN: string := "admin"

  /** `start < end' && end > start'`: the intervals [start, end) and
      [start', end') share an instant. */
  predicate Overlaps(start: int, end: int, start': int, end': int) {
    start < end' && end > start'
  }

  /** Overlap does not depend on which interval is asked about, and slots
      that only touch (one ends where the next starts) do not overlap. */
  lemma OverlapSymmetricAndHalfOpen(a: int, b: int, c: int, d: int)
    ensures Overlaps(a, b, c, d) <==> Overlaps(c, d, a, b)
    ensures b == c ==> !Overlaps(a, b, c, d)
    ensures a < b && c < d ==> (Overlaps(a, b, c, d) <==> !(b <= c || d <= a))
  {
  }

  /** No stored slot of `admin` other than `except` overlaps [start, end);
      the slot's status does not matter. */
  predicate ClashFree(slots: Slots, admin: Id, start: int, end: int, except: Option<SlotId>) {
    forall k :: k in slots && Some(k) != except && slots[k].admin == admin ==>
      !Overlaps(slots[k].start, slots[k].end, start, end)
  }

  /** The calendar invariant the overlap checks aim at: no two slots of one
      administrator overlap. */
  predicate NoOverlap(slots: Slots) {
    forall a, b :: a in slots && b in slots && a != b && slots[a].admin == slots[b].admin ==>
      !Overlaps(slots[a].start, slots[a].end, slots[b].start, slots[b].end)
  }

  // ----- GET /api/slots -----

  /** The listing filter: free, and inside [from, to] when both bounds are
      given. */
  predicate Listed(s: Slot, from: Option<int>, to: Option<int>) {
    s.status == Free && (from.Some? && to.Some? ==> from.value <= s.start && s.end <= to.value)
  }

  predicate SortedByStart(slots: Slots, ids: seq<SlotId>)
    requires forall i :: 0 <= i < |ids| ==> ids[i] in slots
  {
    forall i, j :: 0 <= i < j < |ids| ==> slots[ids[i]].start <= slots[ids[j]].start
  }

  predicate Distinct(ids: seq<SlotId>) {
    forall i, j :: 0 <= i < j < |ids| ==> ids[i] != ids[j]
  }

  /** Inserts `x` into a list sorted by start time. */
  function InsertByStart(slots: Slots, ids: seq<SlotId>, x: SlotId): (r: seq<SlotId>)
    requires x in slots && forall i :: 0 <= i < |ids| ==> ids[i] in slots
    requires SortedByStart(slots, ids)
    ensures forall i :: 0 <= i < |r| ==> r[i] in slots
    ensures SortedByStart(slots, r)
    ensures forall k :: k in r <==> k in ids || k == x
    ensures x !in ids && Distinct(ids) ==> Distinct(r)
  {
    if |ids| == 0 then [x]
    else if slots[x].start <= slots[ids[0]].start then [x] + ids
    else
      var rest := InsertByStart(slots, ids[1..], x);
      assert forall k :: k in ids <==> k == ids[0] || k in ids[1..];
      assert forall i :: 0 <= i < |rest| ==> slots[ids[0]].start <= slots[rest[i]].start by {
        forall i | 0 <= i < |rest|
          ensures slots[ids[0]].start <= slots[rest[i]].start
        {
          if rest[i] != x {
            assert rest[i] in rest;
            var j :| 0 <= j < |ids[1..]| && ids[1..][j] == rest[i];
            assert ids[1 + j] == rest[i];
          }
        }
      }
      assert x !in ids && Distinct(ids) ==> ids[0] !in rest && Distinct(ids[1..]) by {
        if x !in ids && Distinct(ids) {
          assert ids[0] !in ids[1..];
        }
      }
      [ids[0]] + rest
  }

  /** The listed slots among ids below `n`, sorted by start time. */
  function ListBelow(slots: Slots, from: Option<int>, to: Option<int>, n: nat): (r: seq<SlotId>)
    ensures forall i :: 0 <= i < |r| ==> r[i] in slots
    ensures SortedByStart(slots, r)
    ensures forall k :: k in r <==> k < n && k in slots && Listed(slots[k], from, to)
    ensures Distinct(r)
  {
    if n == 0 then []
    else
      var prev := ListBelow(slots, from, to, n - 1);
      if n - 1 in slots && Listed(slots[n - 1], from, to) then
        InsertByStart(slots, prev, n - 1)
      else prev
  }

  /** The listing's bounds: both are applied only when both query values
      are truthy. */
  predicate Bounded(from: DateArg, to: DateArg) {
    !from.Falsy? && !to.Falsy?
  }

  /** `getAvailableSlots`: the free slots (within [from, to] when both
      bounds are given), each once, in start-time order. When both are given
      and either is no date, the query cannot cast it and the error
      middleware answers 500. */
  function AvailableSlots(st: Store, from: DateArg, to: DateArg): (r: (int, seq<SlotId>))
    requires Wf(st)
    ensures r.0 in {OK, SERVER_ERROR}
    ensures r.0 == SERVER_ERROR <==> Bounded(from, to) && (from.Undated? || to.Undated?)
    ensures r.0 == SERVER_ERROR ==> r.1 == []
    ensures forall i :: 0 <= i < |r.1| ==> r.1[i] in st.slots
    ensures r.0 == OK ==>
              forall k :: k in r.1 <==>
                k in st.slots && st.slots[k].status == Free
                && (Bounded(from, to) ==> from.ms <= st.slots[k].start && st.slots[k].end <= to.ms)
    ensures SortedByStart(st.slots, r.1)
    ensures Distinct(r.1)
  {
    if Bounded(from, to) && (from.Undated? || to.Undated?) then (SERVER_ERROR, [])
    else if Bounded(from, to) then (OK, ListBelow(st.slots, Some(from.ms), Some(to.ms), st.nextSlot))
    else (OK, ListBelow(st.slots, None, None, st.nextSlot))
  }

  // ----- POST /api/slots -----

  /** One element of the request's `slots` array: `startTime` is `None` when
      it is not a valid date; `duration` is the text `parseInt` sees. */
  datatype SlotInput = SlotInput(startTime: Option<int>, duration: Option<string>, price: Option<int>)

  /** `parseInt(s.duration) || 30`: a parsed value unless it is NaN or zero;
      with no radix given, a "0x" prefix reads hexadecimal. */
  function BatchDuration(d: Option<string>): (r: int)
    ensures r != 0
    ensures d.Some? && ParseIntAnyRadix(d.value).Some? && ParseIntAnyRadix(d.value).value != 0 ==> r == ParseIntAnyRadix(d.value).value
    ensures d.None? || ParseIntAnyRadix(d.value).None? || ParseIntAnyRadix(d.value) == Some(0) ==> r == DEFAULT_DURATION
  {
    if d.Some? then
      match ParseIntAnyRadix(d.value)
      case Some(v) => if v != 0 then v else DEFAULT_DURATION
      case None => DEFAULT_DURATION
    else DEFAULT_DURATION
  }

  /** A duration written "0x" or "0X" followed by hexadecimal digits is
      that many minutes (thirty when the value is zero), where a decimal
      reading would stop at the 'x'; "0x10", for one, is sixteen minutes. */
  lemma HexDuration(x: char, hs: string, rest: string)
    requires x == 'x' || x == 'X'
    requires hs != "" && AllHexDigits(hs)
    requires |rest| > 0 ==> !IsHexDigit(rest[0])
    ensures BatchDuration(Some(['0', x] + hs + rest)) ==
              (if HexValue(hs) != 0 then HexValue(hs) else DEFAULT_DURATION)
    ensures HexValue("10") == 16
  {
    AnyRadixReadsHex(x, hs, rest);
    HexTen();
  }

  lemma HexTen()
    ensures HexValue("10") == 16
  {
    assert "10"[..1] == "1";
    assert "1"[..0] == "";
  }

  /** "0x" or "0X" with no digit after it is NaN, so the default applies. */
  lemma BareHexPrefixDuration(x: char)
    requires x == 'x' || x == 'X'
    ensures BatchDuration(Some(['0', x])) == DEFAULT_DURATION
  {
    BareHexPrefixIsNaN(x);
  }

  /** `s.price || 500`. */
  function BatchPrice(p: Option<int>): (r: int)
    ensures r != 0
    ensures p.Some? && p.value != 0 ==> r == p.value
    ensures p.None? || p.value == 0 ==> r == DEFAULT_PRICE
  {
    if p.Some? && p.value != 0 then p.value else DEFAULT_PRICE
  }

  /** The document built for one valid input. */
  function Prepared(admin: Id, s: SlotInput, now: int): (r: Slot)
    requires s.startTime.Some?
    ensures r.status == Free && r.bookedBy.None? && r.admin == admin && r.updatedAt == now
    ensures r.start == s.startTime.value && r.duration == BatchDuration(s.duration)
    ensures r.end == r.start + r.duration * 60000
    ensures r.price == BatchPrice(s.price)
  {
    var d := BatchDuration(s.duration);
    NewSlot(admin, s.startTime.value, s.startTime.value + d * MINUTE_MS, Some(d), Some(BatchPrice(s.price)), now)
  }

  /** An input passes validation: a valid date and no clash with any slot
      the administrator already has. */
  predicate Admissible(slots: Slots, admin: Id, s: SlotInput) {
    s.startTime.Some?
    && var d := BatchDuration(s.duration);
       ClashFree(slots, admin, s.startTime.value, s.startTime.value + d * MINUTE_MS, None)
  }

  /** The documents built for a batch whose dates are all valid. */
  function PrepareAll(admin: Id, batch: seq<SlotInput>, now: int): (r: seq<Slot>)
    requires forall i :: 0 <= i < |batch| ==> batch[i].startTime.Some?
    ensures |r| == |batch|
    ensures forall i :: 0 <= i < |batch| ==> r[i] == Prepared(admin, batch[i], now)
  {
    if |batch| == 0 then [] else [Prepared(admin, batch[0], now)] + PrepareAll(admin, batch[1..], now)
  }

  /** `insertMany`: the documents stored at ids next, next + 1, ... */
  function InsertAll(slots: Slots, next: nat, docs: seq<Slot>): (r: Slots)
    requires forall k :: k in slots ==> k < next
    ensures forall k :: k in r <==> k in slots || next <= k < next + |docs|
    ensures forall k :: k in slots ==> r[k] == slots[k]
    ensures forall k :: next <= k < next + |docs| ==> r[k] == docs[k - next]
    decreases |docs|
  {
    if |docs| == 0 then slots
    else InsertAll(slots[next := docs[0]], next + 1, docs[1..])
  }

  /** Every element passes validation. */
  predicate AllAdmissible(slots: Slots, admin: Id, b: seq<SlotInput>) {
    forall i :: 0 <= i < |b| ==> Admissible(slots, admin, b[i])
  }

  /** `createSlots`: administrators only; a non-empty array; every element
      must be a valid date clashing with none of the administrator's stored
      slots, or the whole batch is refused and nothing is inserted. Elements
      are not checked against each other. */
  function CreateSlots(st: Store, user: Auth.User, batch: Option<seq<SlotInput>>, now: int): (r: (Store, int))
    requires Wf(st)
    ensures Wf(r.0)
    ensures r.1 == FORBIDDEN <==> user.role != ADMIN
    ensures r.1 == BAD_REQUEST <==>
              user.role == ADMIN
              && (batch.None? || |batch.value| == 0 || !AllAdmissible(st.slots, user.id, batch.value))
    ensures r.1 != CREATED ==> r.0 == st
    ensures r.1 in {CREATED, BAD_REQUEST, FORBIDDEN}
    ensures r.1 == CREATED ==> batch.Some? && AllAdmissible(st.slots, user.id, batch.value)
    ensures r.1 == CREATED ==> r.0 == st.(slots := r.0.slots, nextSlot := st.nextSlot + |batch.value|)
    // every stored slot is kept, and the i-th element's document (free,
    // defaults applied, clashing with none of the stored slots) is at id
    // nextSlot + i
    ensures r.1 == CREATED ==> BatchStored(st.slots, st.nextSlot, r.0.slots, user.id, batch.value, now)
  {
    if user.role != ADMIN then (st, FORBIDDEN)
    else if batch.None? || |batch.value| == 0 then (st, BAD_REQUEST)
    else if !AllAdmissible(st.slots, user.id, batch.value) then (st, BAD_REQUEST)
    else
      var b := batch.value;
      assert forall i :: 0 <= i < |b| ==> b[i].startTime.Some? by {
        forall i | 0 <= i < |b| ensures b[i].startTime.Some? {
          assert Admissible(st.slots, user.id, b[i]);
        }
      }
      InsertBatch(st.slots, st.nextSlot, user.id, b, now);
      (st.(slots := InsertAll(st.slots, st.nextSlot, PrepareAll(user.id, b, now)), nextSlot := st.nextSlot + |b|), CREATED)
  }

  /** `insertMany` of an admissible batch stores exactly the batch's
      documents at the fresh ids. */
  lemma InsertBatch(slots: Slots, next: nat, admin: Id, b: seq<SlotInput>, now: int)
    requires forall k :: k in slots ==> k < next
    requires forall i :: 0 <= i < |b| ==> b[i].startTime.Some?
    ensures BatchStored(slots, next, InsertAll(slots, next, PrepareAll(admin, b, now)), admin, b, now)
  {
    var docs := PrepareAll(admin, b, now);
    var r := InsertAll(slots, next, docs);
    forall i | 0 <= i < |b| ensures r[next + i] == Prepared(admin, b[i], now) {
      assert next <= next + i < next + |docs|;
      assert r[next + i] == docs[i];
    }
  }

  /** The elements of a batch do not overlap each other. */
  predicate BatchDisjoint(admin: Id, b: seq<SlotInput>, now: int)
    requires forall i :: 0 <= i < |b| ==> b[i].startTime.Some?
  {
    forall i, j :: 0 <= i < |b| && 0 <= j < |b| && i != j ==>
      !Overlaps(Prepared(admin, b[i], now).start, Prepared(admin, b[i], now).end,
                Prepared(admin, b[j], now).start, Prepared(admin, b[j], now).end)
  }

  /** `r` holds the stored slots plus the batch's documents at ids from `n`. */
  ghost predicate BatchStored(slots: Slots, n: nat, r: Slots, admin: Id, b: seq<SlotInput>, now: int)
    requires forall i :: 0 <= i < |b| ==> b[i].startTime.Some?
  {
    && (forall k :: k in r <==> k in slots || n <= k < n + |b|)
    && (forall k :: k in slots ==> r[k] == slots[k])
    && (forall i :: 0 <= i < |b| ==> r[n + i] == Prepared(admin, b[i], now))
  }

  /** A successful batch keeps the calendar free of overlaps exactly when its
      own elements are disjoint: the handler checks each element against the
      stored slots only. */
  lemma CreateSlotsKeepsCalendar(st: Store, user: Auth.User, b: seq<SlotInput>, now: int)
    requires Wf(st) && NoOverlap(st.slots)
    requires CreateSlots(st, user, Some(b), now).1 == CREATED
    ensures forall i :: 0 <= i < |b| ==> b[i].startTime.Some?
    ensures BatchDisjoint(user.id, b, now) <==> NoOverlap(CreateSlots(st, user, Some(b), now).0.slots)
  {
    var r := CreateSlots(st, user, Some(b), now).0.slots;
    assert AllAdmissible(st.slots, user.id, b);
    assert BatchStored(st.slots, st.nextSlot, r, user.id, b, now);
    BatchOverlapIff(st.slots, st.nextSlot, r, user.id, b, now);
  }

  /** The overlap argument on an abstract stored batch. */
  lemma BatchOverlapIff(slots: Slots, n: nat, r: Slots, admin: Id, b: seq<SlotInput>, now: int)
    requires forall k :: k in slots ==> k < n
    requires NoOverlap(slots) && AllAdmissible(slots, admin, b)
    requires BatchStored(slots, n, r, admin, b, now)
    ensures BatchDisjoint(admin, b, now) <==> NoOverlap(r)
  {
    if BatchDisjoint(admin, b, now) {
      forall x, y | x in r && y in r && x != y && r[x].admin == r[y].admin
        ensures !Overlaps(r[x].start, r[x].end, r[y].start, r[y].end)
      {
        NewAgainstAny(slots, n, r, admin, b, now, x, y);
      }
    } else {
      var i, j :| 0 <= i < |b| && 0 <= j < |b| && i != j
                  && Overlaps(Prepared(admin, b[i], now).start, Prepared(admin, b[i], now).end,
                              Prepared(admin, b[j], now).start, Prepared(admin, b[j], now).end);
      assert r[n + i] == Prepared(admin, b[i], now) && r[n + j] == Prepared(admin, b[j], now);
      assert n + i in r && n + j in r && n + i != n + j;
    }
  }

  /** One pair of slots after a disjoint, admissible batch. */
  lemma NewAgainstAny(slots: Slots, n: nat, r: Slots, admin: Id, b: seq<SlotInput>, now: int, x: SlotId, y: SlotId)
    requires forall k :: k in slots ==> k < n
    requires NoOverlap(slots) && AllAdmissible(slots, admin, b) && BatchDisjoint(admin, b, now)
    requires BatchStored(slots, n, r, admin, b, now)
    requires x in r && y in r && x != y && r[x].admin == r[y].admin
    ensures !Overlaps(r[x].start, r[x].end, r[y].start, r[y].end)
  {
    if x in slots && y in slots {
    } else if x in slots {
      assert r[n + (y - n)] == Prepared(admin, b[y - n], now);
      assert Admissible(slots, admin, b[y - n]);
    } else if y in slots {
      assert r[n + (x - n)] == Prepared(admin, b[x - n], now);
      assert Admissible(slots, admin, b[x - n]);
    } else {
      assert r[n + (x - n)] == Prepared(admin, b[x - n], now);
      assert r[n + (y - n)] == Prepared(admin, b[y - n], now);
      assert x - n != y - n;
    }
  }

  /** Two copies of one admissible element are both inserted: a batch can
      create overlapping slots. */
  lemma BatchMayOverlapItself(st: Store, user: Auth.User, s: SlotInput, now: int)
    requires Wf(st) && user.role == ADMIN && Admissible(st.slots, user.id, s)
    ensures CreateSlots(st, user, Some([s, s]), now).1 == CREATED
    ensures var r := CreateSlots(st, user, Some([s, s]), now).0.slots;
            st.nextSlot in r && st.nextSlot + 1 in r && r[st.nextSlot] == r[st.nextSlot + 1]
  {
    assert AllAdmissible(st.slots, user.id, [s, s]);
    var r := CreateSlots(st, user, Some([s, s]), now).0.slots;
    assert r[st.nextSlot] == Prepared(user.id, s, now);
    assert r[st.nextSlot + 1] == Prepared(user.id, [s, s][1], now);
  }

  // ----- PUT /api/slots/:id -----

  /** The update body: `startTime` as its truthiness test and `new Date`
      see it; absent `duration` and `price` are `None`. */
  datatype SlotPatch = SlotPatch(startTime: DateArg, duration: Option<int>, price: Option<int>)

  /** `duration || slot.duration`. */
  function PatchedDuration(patch: SlotPatch, slot: Slot): int {
    if patch.duration.Some? && patch.duration.value != 0 then patch.duration.value else slot.duration
  }

  /** The slot `updateSlot` would save, before the store stamps it. */
  function Patched(slot: Slot, patch: SlotPatch): (r: Slot)
    requires !patch.startTime.Undated?
    ensures r.admin == slot.admin && r.status == slot.status && r.bookedBy == slot.bookedBy
    ensures patch.startTime.Falsy? ==> r.start == slot.start && r.end == slot.end && r.duration == slot.duration
    ensures patch.startTime.Dated? ==>
              r.start == patch.startTime.ms && r.duration == PatchedDuration(patch, slot)
              && r.end == r.start + r.duration * 60000
    ensures r.price == (if patch.price.Some? then patch.price.value else slot.price)
  {
    var moved := if patch.startTime.Dated? then
                   var d := PatchedDuration(patch, slot);
                   slot.(start := patch.startTime.ms, end := patch.startTime.ms + d * MINUTE_MS, duration := d)
                 else slot;
    if patch.price.Some? then moved.(price := patch.price.value) else moved
  }

  /** `updateSlot`: administrators only, on their own slot, while it is
      free; a moved slot must clash with none of the administrator's other
      slots. A truthy `startTime` that is no date reaches the overlap query,
      which cannot cast it: 500, nothing saved. Saving a changed document
      stamps `updatedAt`. */
  function UpdateSlot(st: Store, user: Auth.User, id: SlotId, patch: SlotPatch, now: int): (r: (Store, int))
    ensures r.1 == FORBIDDEN <==> user.role != ADMIN
    ensures r.1 == NOT_FOUND <==> user.role == ADMIN && !(id in st.slots && st.slots[id].admin == user.id)
    ensures r.1 == SERVER_ERROR <==>
              user.role == ADMIN && id in st.slots && st.slots[id].admin == user.id
              && st.slots[id].status == Free && patch.startTime.Undated?
    ensures r.1 == OK ==> id in st.slots && st.slots[id].status == Free && !patch.startTime.Undated?
    ensures r.1 != OK ==> r.0 == st
    ensures r.1 in {OK, BAD_REQUEST, NOT_FOUND, FORBIDDEN, SERVER_ERROR}
    ensures r.0 == st.(slots := r.0.slots) && r.0.slots.Keys == st.slots.Keys
    ensures forall k :: k in st.slots && k != id ==> r.0.slots[k] == st.slots[k]
    ensures r.1 == OK ==>
              var p := Patched(st.slots[id], patch);
              && (patch.startTime.Dated? ==> ClashFree(st.slots, user.id, p.start, p.end, Some(id)))
              && r.0.slots[id] == (if p == st.slots[id] then p else p.(updatedAt := now))
    ensures user.role == ADMIN && id in st.slots && st.slots[id].admin == user.id
            && st.slots[id].status == Free ==>
              (r.1 == OK <==>
                 || patch.startTime.Falsy?
                 || (patch.startTime.Dated? &&
                     var p := Patched(st.slots[id], patch);
                     ClashFree(st.slots, user.id, p.start, p.end, Some(id))))
  {
    if user.role != ADMIN then (st, FORBIDDEN)
    else if !(id in st.slots && st.slots[id].admin == user.id) then (st, NOT_FOUND)
    else
      var slot := st.slots[id];
      if slot.status != Free then (st, BAD_REQUEST)
      else if patch.startTime.Undated? then (st, SERVER_ERROR)
      else
        var p := Patched(slot, patch);
        if patch.startTime.Dated? && !ClashFree(st.slots, user.id, p.start, p.end, Some(id)) then (st, BAD_REQUEST)
        else (st.(slots := st.slots[id := if p == slot then p else p.(updatedAt := now)]), OK)
  }

  /** An update keeps the calendar free of overlaps. */
  lemma UpdateSlotKeepsCalendar(st: Store, user: Auth.User, id: SlotId, patch: SlotPatch, now: int)
    requires NoOverlap(st.slots)
    ensures NoOverlap(UpdateSlot(st, user, id, patch, now).0.slots)
  {
    var r := UpdateSlot(st, user, id, patch, now);
    if r.1 == OK {
      var s := r.0.slots;
      forall x, y | x in s && y in s && x != y && s[x].admin == s[y].admin
        ensures !Overlaps(s[x].start, s[x].end, s[y].start, s[y].end)
      {
        if x == id {
          if patch.startTime.Dated? {
            assert !Overlaps(st.slots[y].start, st.slots[y].end, s[x].start, s[x].end);
          }
        } else if y == id {
          if patch.startTime.Dated? {
            assert !Overlaps(st.slots[x].start, st.slots[x].end, s[y].start, s[y].end);
          }
        }
      }
    }
  }

  // ----- DELETE /api/slots/:id -----

  /** `deleteSlot`: administrators only, on their own slot, while it is free. */
  function DeleteSlot(st: Store, user: Auth.User, id: SlotId): (r: (Store, int))
    ensures r.1 == FORBIDDEN <==> user.role != ADMIN
    ensures r.1 == NOT_FOUND <==> user.role == ADMIN && !(id in st.slots && st.slots[id].admin == user.id)
    ensures r.1 == BAD_REQUEST <==>
              user.role == ADMIN && id in st.slots && st.slots[id].admin == user.id && st.slots[id].status != Free
    ensures r.1 == OK ==> r.0 == st.(slots := st.slots - {id})
    ensures r.1 != OK ==> r.0 == st
  {
    if user.role != ADMIN then (st, FORBIDDEN)
    else if !(id in st.slots && st.slots[id].admin == user.id) then (st, NOT_FOUND)
    else if st.slots[id].status != Free then (st, BAD_REQUEST)
    else (st.(slots := st.slots - {id}), OK)
  }

  /** Only a free slot ever leaves the calendar or changes through these
      handlers: a held or booked slot survives update and delete intact. */
  lemma HeldSlotsAreFrozen(st: Store, user: Auth.User, id: SlotId, patch: SlotPatch, now: int)
    requires id in st.slots && st.slots[id].status != Free
    ensures UpdateSlot(st, user, id, patch, now).0 == st
    ensures DeleteSlot(st, user, id).0 == st
  {
  }
}

=== FILE: js.dfy ===
/** The few JavaScript string and number behaviours the handlers rely on:
    `parseInt(s, 10)` and radix-less `parseInt(s)`, `Number#toString()`, `slice`/`substring` clamping,
    `split(sep)[0]`, and the `a || b || 'User'` fallback chain. */
module Js {
  import opened Base

  /** JavaScript's StrWhiteSpaceChar: WhiteSpace (tab, vertical tab, form
      feed, no-break space, byte-order mark, every Unicode space separator)
      and LineTerminator (LF, CR, U+2028, U+2029). */
  predicate IsWhite(c: char) {
    || c == ' ' || c == '\t' || c == '\n' || c == '\r'
    || c == '\U{000B}' || c == '\U{000C}' || c == '\U{00A0}' || c == '\U{FEFF}'
    || c == '\U{1680}' || ('\U{2000}' <= c <= '\U{200A}')
    || c == '\U{2028}' || c == '\U{2029}' || c == '\U{202F}' || c == '\U{205F}' || c == '\U{3000}'
  }

  predicate IsDigit(c: char) {
    '0' <= c <= '9'
  }

  predicate AllDigits(s: string) {
    forall i :: 0 <= i < |s| ==> IsDigit(s[i])
  }

  /** Drops leading white space, as parseInt does before reading a number. */
  function TrimStart(s: string): (r: string)
    ensures |r| <= |s| && r == s[|s| - |r|..]
    ensures |r| > 0 ==> !IsWhite(r[0])
    ensures forall i :: 0 <= i < |s| - |r| ==> IsWhite(s[i])
  {
    if |s| > 0 && IsWhite(s[0]) then TrimStart(s[1..]) else s
  }

  /** The longest prefix of decimal digits. */
  function DigitPrefix(s: string): (r: string)
    ensures |r| <= |s| && r == s[..|r|]
    ensures AllDigits(r)
    ensures |r| < |s| ==> !IsDigit(s[|r|])
  {
    if |s| > 0 && IsDigit(s[0]) then [s[0]] + DigitPrefix(s[1..]) else ""
  }

  /** The value of a string of decimal digits, most significant first. */
  function DigitsValue(ds: string): nat
    requires AllDigits(ds)
  {
    if |ds| == 0 then 0 else DigitsValue(ds[..|ds| - 1]) * 10 + (ds[|ds| - 1] as int - '0' as int)
  }

  /** `parseInt(s, 10)`: optional white space, an optional sign, then the
      longest run of decimal digits; `None` stands for NaN (no digit). */
  function ParseInt(s: string): Option<int> {
    ParseSigned(TrimStart(s), false)
  }

  /** `parseInt(s)` with no radix: as `parseInt(s, 10)`, except that a
      "0x" or "0X" after the sign makes the rest read as hexadecimal. */
  function ParseIntAnyRadix(s: string): Option<int> {
    ParseSigned(TrimStart(s), true)
  }

  /** The text after an optional leading '+' or '-'. */
  function Unsigned(t: string): (r: string)
    ensures r == t || (|t| > 0 && (t[0] == '-' || t[0] == '+') && r == t[1..])
  {
    if |t| > 0 && (t[0] == '-' || t[0] == '+') then t[1..] else t
  }

  /** parseInt after the white space: an optional '+' or '-', then the
      magnitude; `detectHex` holds when the call gives no radix. */
  function ParseSigned(t: string, detectHex: bool): Option<int> {
    match ParseMagnitude(Unsigned(t), detectHex)
    case Some(v) => if |t| > 0 && t[0] == '-' then Some(0 - v) else Some(v)
    case None => None
  }

  predicate HasHexPrefix(b: string) {
    |b| >= 2 && b[0] == '0' && (b[1] == 'x' || b[1] == 'X')
  }

  function ParseMagnitude(b: string, detectHex: bool): Option<int> {
    if detectHex && HasHexPrefix(b) then ParseHexDigits(b[2..]) else ParseDigits(b)
  }

  /** The value of the leading digits, or NaN when there are none. */
  function ParseDigits(b: string): Option<int> {
    var ds := DigitPrefix(b);
    if ds == "" then None else Some(DigitsValue(ds))
  }

  predicate IsHexDigit(c: char) {
    IsDigit(c) || 'a' <= c <= 'f' || 'A' <= c <= 'F'
  }

  predicate AllHexDigits(s: string) {
    forall i :: 0 <= i < |s| ==> IsHexDigit(s[i])
  }

  function HexDigitValue(c: char): (v: nat)
    requires IsHexDigit(c)
    ensures v < 16
    ensures IsDigit(c) ==> v == c as int - '0' as int
  {
    if IsDigit(c) then c as int - '0' as int
    else if 'a' <= c <= 'f' then c as int - 'a' as int + 10
    else c as int - 'A' as int + 10
  }

  /** The longest prefix of hexadecimal digits. */
  function HexPrefix(s: string): (r: string)
    ensures |r| <= |s| && r == s[..|r|]
    ensures AllHexDigits(r)
    ensures |r| < |s| ==> !IsHexDigit(s[|r|])
  {
    if |s| > 0 && IsHexDigit(s[0]) then [s[0]] + HexPrefix(s[1..]) else ""
  }

  /** The value of a string of hexadecimal digits, most significant first. */
  function HexValue(hs: string): nat
    requires AllHexDigits(hs)
  {
    if |hs| == 0 then 0 else HexValue(hs[..|hs| - 1]) * 16 + HexDigitValue(hs[|hs| - 1])
  }

  /** The value of the leading hexadecimal digits, or NaN when there are none. */
  function ParseHexDigits(b: string): Option<int> {
    var hs := HexPrefix(b);
    if hs == "" then None else Some(HexValue(hs))
  }

  function DigitChar(d: nat): (c: char)
    requires d < 10
    ensures IsDigit(c) && c as int - '0' as int == d
  {
    ('0' as int + d) as char
  }

  /** `n.toString()` for a non-negative integer: its decimal digits. */
  function Decimal(n: nat): (r: string)
    ensures |r| > 0 && AllDigits(r)
    ensures DigitsValue(r) == n
  {
    if n < 10 then [DigitChar(n)]
    else
      var r := Decimal(n / 10) + [DigitChar(n % 10)];
      assert r[..|r| - 1] == Decimal(n / 10);
      r
  }

  function Pow10(k: nat): (r: nat)
    ensures r >= 1
  {
    if k == 0 then 1 else 10 * Pow10(k - 1)
  }

  /** A number below 10^k prints in at most k digits (a clock below 10^13
      milliseconds, i.e. before the year 2286, prints in thirteen). */
  lemma {:induction false} DecimalLength(n: nat, k: nat)
    requires 1 <= k && n < Pow10(k)
    ensures |Decimal(n)| <= k
  {
    if n >= 10 {
      DecimalLength(n / 10, k - 1);
    }
  }

  /** The price rule shared by the typing, polity and PDF controllers: the
      environment value when it is set, non-empty and parses to a positive
      integer, the default otherwise. */
  function PositiveOr(env: Option<string>, default: int): (r: int)
    ensures default > 0 ==> r > 0
    ensures r != default ==> Truthy(env) && ParseInt(env.value) == Some(r) && r > 0
    ensures Truthy(env) && ParseInt(env.value).Some? && ParseInt(env.value).value > 0
            ==> r == ParseInt(env.value).value
  {
    if Truthy(env) then
      match ParseInt(env.value)
      case Some(p) => if p > 0 then p else default
      case None => default
    else default
  }

  /** `s.slice(-n)`: the last n characters, or all of s when it is shorter. */
  function Last(s: string, n: nat): (r: string)
    ensures |r| == if |s| <= n then |s| else n
    ensures r == s[|s| - |r|..]
  {
    if |s| <= n then s else s[|s| - n..]
  }

  /** `s.substring(0, n)`: the first n characters, or all of s. */
  function First(s: string, n: nat): (r: string)
    ensures |r| == if |s| <= n then |s| else n
    ensures r == s[..|r|]
  {
    if |s| <= n then s else s[..n]
  }

  /** `Date.now().toString().slice(-10)`: at most ten trailing digits of the clock. */
  function Stamp(now: nat): (r: string)
    ensures 0 < |r| <= 10 && |r| <= |Decimal(now)|
    ensures r == Decimal(now)[|Decimal(now)| - |r|..]
  {
    Last(Decimal(now), 10)
  }

  /** `prefix + Date.now().toString().slice(-10) + "_" + uid.substring(0, 8)`:
      the shortened Razorpay receipt of the mentorship, polity and PDF flows. */
  function Receipt(prefix: string, now: nat, uid: string): (r: string)
    ensures |prefix| + 2 + |First(uid, 8)| <= |r| <= |prefix| + 19
    ensures r[..|prefix|] == prefix
    ensures r[|r| - |First(uid, 8)| - 1..] == "_" + uid[..|First(uid, 8)|]
  {
    var stamp := Stamp(now);
    var tail := First(uid, 8);
    var r := prefix + (stamp + ("_" + tail));
    assert r[|r| - |tail| - 1..] == "_" + tail;
    r
  }

  /** A request value the handlers read as a date only when it is truthy:
      falsy (absent, null, "", the number 0, false), truthy and turned by
      `new Date` into an instant (in milliseconds), or truthy and turned into
      Invalid Date. */
  datatype DateArg = Falsy | Dated(ms: int) | Undated

  /** The properties every plain object inherits from Object.prototype:
      looking one of these names up in an object literal finds a truthy
      value (a function, or the prototype itself for "__proto__") that has
      none of the literal's own fields. */
  const INHERITED_NAMES: set<string> := {
    "constructor", "__proto__", "toString", "toLocaleString", "valueOf", "hasOwnProperty",
    "isPrototypeOf", "propertyIsEnumerable", "__defineGetter__", "__defineSetter__",
    "__lookupGetter__", "__lookupSetter__"}

  /** What `table[key]` yields for an object literal `table`: one of its
      own entries, an inherited property, or `undefined`. */
  datatype Lookup<T> = Entry(value: T) | Inherited | Missing

  /** `s.split(sep)[0]`: the text before the first `sep`, or all of it. */
  function FirstField(s: string, sep: char): (r: string)
    ensures |r| <= |s| && r == s[..|r|]
    ensures sep !in r
    ensures |r| < |s| ==> s[|r|] == sep
  {
    if |s| == 0 || s[0] == sep then "" else [s[0]] + FirstField(s[1..], sep)
  }

  /** A field followed by nothing or by the separator splits back to that
      field, whatever comes after the separator. */
  lemma {:induction false} FirstFieldOf(field: string, rest: string, sep: char)
    requires sep !in field
    requires rest == "" || rest[0] == sep
    ensures FirstField(field + rest, sep) == field
    decreases |field|
  {
    if field == "" {
      assert field + rest == rest;
    } else {
      assert (field + rest)[1..] == field[1..] + rest;
      FirstFieldOf(field[1..], rest, sep);
      assert [field[0]] + field[1..] == field;
    }
  }

  /** `name || email?.split('@')[0] || 'User'`: the display name the
      controllers store when a record needs one; never empty. */
  function NameOrFallback(name: Option<string>, email: Option<string>): (r: string)
    ensures r != ""
    ensures Truthy(name) ==> r == name.value
    ensures !Truthy(name) && email.Some? && FirstField(email.value, '@') != "" ==> r == FirstField(email.value, '@')
    ensures r == "User" || (Truthy(name) && r == name.value)
            || (email.Some? && r == FirstField(email.value, '@'))
  {
    if Truthy(name) then name.value
    else if email.Some? && FirstField(email.value, '@') != "" then FirstField(email.value, '@')
    else "User"
  }

  lemma {:induction false} DigitPrefixOfDigits(s: string, rest: string)
    requires AllDigits(s)
    requires |rest| > 0 ==> !IsDigit(rest[0])
    ensures DigitPrefix(s + rest) == s
    decreases |s|
  {
    if |s| > 0 {
      assert (s + rest)[1..] == s[1..] + rest;
      DigitPrefixOfDigits(s[1..], rest);
      assert [s[0]] + s[1..] == s;
    } else {
      assert s + rest == rest;
    }
  }

  /** parseInt reads back what toString wrote, and stops at the first
      non-digit that follows. */
  lemma ParseIntDecimal(n: nat, rest: string)
    requires |rest| > 0 ==> !IsDigit(rest[0])
    ensures ParseInt(Decimal(n) + rest) == Some(n)
  {
    var d := Decimal(n);
    DigitPrefixOfDigits(d, rest);
    ParseIntOfDigitLed(d + rest, d, n);
  }

  lemma ParseIntOfDigitLed(s: string, d: string, n: nat)
    requires |s| > 0 && IsDigit(s[0])
    requires DigitPrefix(s) == d && d != "" && DigitsValue(d) == n
    ensures ParseInt(s) == Some(n)
  {
    assert !IsWhite(s[0]);
    assert TrimStart(s) == s;
    assert ParseDigits(s) == Some(n);
  }

  /** A leading minus sign negates; leading white space is skipped. */
  lemma ParseIntSignedPadded(ws: string, n: nat)
    requires forall i :: 0 <= i < |ws| ==> IsWhite(ws[i])
    ensures ParseInt(ws + "-" + Decimal(n)) == Some(0 - n)
  {
    ParseIntNegativeDigits(ws, Decimal(n), n);
  }

  lemma ParseIntNegativeDigits(ws: string, d: string, n: nat)
    requires forall i :: 0 <= i < |ws| ==> IsWhite(ws[i])
    requires d != "" && AllDigits(d) && DigitsValue(d) == n
    ensures ParseInt(ws + "-" + d) == Some(0 - n)
  {
    var t := "-" + d;
    assert ws + "-" + d == ws + t;
    TrimWhitePrefix(ws, t);
    ParseSignedNegative(d, n);
  }

  lemma ParseSignedNegative(d: string, n: nat)
    requires d != "" && AllDigits(d) && DigitsValue(d) == n
    ensures ParseSigned("-" + d, false) == Some(0 - n)
  {
    var t := "-" + d;
    assert t[1..] == d + "";
    DigitPrefixOfDigits(d, "");
    assert Unsigned(t) == d;
    assert ParseMagnitude(d, false) == Some(n);
  }

  lemma {:induction false} TrimWhitePrefix(ws: string, s: string)
    requires forall i :: 0 <= i < |ws| ==> IsWhite(ws[i])
    requires |s| > 0 && !IsWhite(s[0])
    ensures TrimStart(ws + s) == s
    decreases |ws|
  {
    if |ws| > 0 {
      assert (ws + s)[1..] == ws[1..] + s;
      TrimWhitePrefix(ws[1..], s);
    } else {
      assert ws + s == s;
    }
  }

  /** Without a hexadecimal prefix after the sign, the radix-less parse
      and `parseInt(s, 10)` agree. */
  lemma AnyRadixAgreesWithDecimal(s: string)
    requires !HasHexPrefix(Unsigned(TrimStart(s)))
    ensures ParseIntAnyRadix(s) == ParseInt(s)
  {
  }

  lemma {:induction false} HexPrefixOfHex(hs: string, rest: string)
    requires AllHexDigits(hs)
    requires |rest| > 0 ==> !IsHexDigit(rest[0])
    ensures HexPrefix(hs + rest) == hs
    decreases |hs|
  {
    if |hs| > 0 {
      assert (hs + rest)[1..] == hs[1..] + rest;
      HexPrefixOfHex(hs[1..], rest);
      assert [hs[0]] + hs[1..] == hs;
    } else {
      assert hs + rest == rest;
    }
  }

  /** "0x" followed by hexadecimal digits reads as that hexadecimal number
      without a radix, and as 0 with radix 10 (which stops at the 'x'). */
  lemma AnyRadixReadsHex(x: char, hs: string, rest: string)
    requires x == 'x' || x == 'X'
    requires hs != "" && AllHexDigits(hs)
    requires |rest| > 0 ==> !IsHexDigit(rest[0])
    ensures ParseIntAnyRadix(['0', x] + hs + rest) == Some(HexValue(hs))
    ensures ParseInt(['0', x] + hs + rest) == Some(0)
  {
    var t := ['0', x] + hs + rest;
    assert t[0] == '0' && t[1] == x && t[2..] == hs + rest;
    assert TrimStart(t) == t by { assert !IsWhite(t[0]); }
    assert Unsigned(t) == t;
    HexPrefixOfHex(hs, rest);
    assert ParseMagnitude(t, true) == Some(HexValue(hs)) by {
      assert HasHexPrefix(t);
      assert ParseHexDigits(t[2..]) == Some(HexValue(hs));
    }
    assert ParseMagnitude(t, false) == Some(0) by {
      assert DigitPrefix(t[1..]) == "" by { assert !IsDigit(t[1..][0]); }
      assert DigitPrefix(t) == "0";
      assert DigitsValue("0") == 0;
    }
  }

  /** A bare "0x" or "0X" has no digit after the prefix, so without a radix
      it is NaN. */
  lemma BareHexPrefixIsNaN(x: char)
    requires x == 'x' || x == 'X'
    ensures ParseIntAnyRadix(['0', x]) == None
  {
    var t := ['0', x];
    NoWhiteToTrim(t);
    BarePrefixHasNoMagnitude(t);
    assert Unsigned(t) == t;
  }

  lemma NoWhiteToTrim(s: string)
    requires |s| > 0 && !IsWhite(s[0])
    ensures TrimStart(s) == s
  {
  }

  lemma BarePrefixHasNoMagnitude(b: string)
    requires HasHexPrefix(b) && |b| == 2
    ensures ParseMagnitude(b, true) == None
  {
    assert |b[2..]| == 0;
  }

  /** Text with no digit after the optional sign is NaN, so the price rule
      falls back to its default. */
  lemma NoDigitsIsNaN(s: string)
    requires |s| > 0 && !IsWhite(s[0]) && !IsDigit(s[0]) && s[0] != '-' && s[0] != '+'
    ensures ParseInt(s) == None
    ensures PositiveOr(Some(s), 499) == 499
  {
    assert TrimStart(s) == s;
  }
}

=== FILE: lifecycle.dfy ===
/** The status lifecycle shared by the Booking and MentorshipEnrollment
    documents (src/models/Booking.js, src/models/MentorshipEnrollment.js). */
module Lifecycle {
  import opened Base

  /** The `status` enum the Booking and MentorshipEnrollment schemas both
      declare, with the same four values and the same default. */
  datatype Status = Pending | Confirmed | Cancelled | Completed

  function StatusName(s: Status): string {
    match s
    case Pending => "pending"
    case Confirmed => "confirmed"
    case Cancelled => "cancelled"
    case Completed => "completed"
  }

  /** Schema validation of a stored status: any other text is refused. */
  function ParseStatus(t: string): (r: Option<Status>)
    ensures r.Some? <==> t in {"pending", "confirmed", "cancelled", "completed"}
  {
    if t == "pending" then Some(Pending)
    else if t == "confirmed" then Some(Confirmed)
    else if t == "cancelled" then Some(Cancelled)
    else if t == "completed" then Some(Completed)
    else None
  }

  /** The status a record gets when none is given. */
  const DEFAULT_STATUS: Status := Pending

  /** The stored spelling and the enum agree in both directions, and the
      default is "pending". */
  lemma StatusNamesRoundTrip(s: Status, t: string)
    ensures ParseStatus(StatusName(s)) == Some(s)
    ensures ParseStatus(t).Some? ==> StatusName(ParseStatus(t).value) == t
    ensures StatusName(DEFAULT_STATUS) == "pending"
  {
  }
}

=== FILE: mentorship.dfy ===
/** The mentorship handlers (src/controllers/mentorshipController.js): the
    program view, enrollment creation with its guards and Razorpay order, and
    the administrator's program update with its seat validation. */
module Mentorship {
  import opened Base
  import opened Js
  import opened MentorshipModel
  import opened Store
  import Auth

  const RECEIPT_PREFIX: string := "ment_"

  /** The program as `getProgram` reports it. */
  datatype ProgramView = ProgramView(price: int, totalSeats: int, enrolledCount: int,
                                     availableSeats: int, isActive: bool)

  /** `getProgram`: creates the program on first use, reports the seats left. */
  function ViewProgram(st: Store): (r: (Store, ProgramView))
    ensures r.0 == WithProgram(st).0
    ensures r.1.availableSeats == r.1.totalSeats - r.1.enrolledCount
    ensures st.program.None? ==> r.1 == ProgramView(14999, 6, 0, 6, true)
    ensures st.program.Some? ==> r.1.price == st.program.value.price && r.1.isActive == st.program.value.isActive
                                 && r.1.totalSeats == st.program.value.totalSeats
                                 && r.1.enrolledCount == st.program.value.enrolledCount
  {
    var (st1, p) := WithProgram(st);
    (st1, ProgramView(p.price, p.totalSeats, p.enrolledCount, AvailableSeats(p), p.isActive))
  }

  /** The user already has an enrollment that is pending or confirmed. */
  predicate HasActiveEnrollment(st: Store, holder: Id) {
    exists o :: o in st.enrollments && st.enrollments[o].holder == holder
                && st.enrollments[o].status in {EnrollmentStatus.Pending, EnrollmentStatus.Confirmed}
  }

  /** The answer: HTTP status, the order request sent to Razorpay with its
      notes (if one was sent). */
  datatype EnrollReply = EnrollReply(code: int, order: Option<OrderRequest>, notes: Option<OrderNotes>)

  /** The pending enrollment written for a created order. */
  function PendingEnrollment(user: Auth.User, price: int, now: int): Enrollment {
    Enrollment(user.id, NameOrFallback(user.name, user.email), user.email.GetOr(""), price,
               EnrollmentStatus.Pending, None, HoldExpiry(now))
  }

  /** Schema validation: the three required strings must be non-empty. */
  predicate EnrollmentValid(e: Enrollment) {
    e.holder != "" && e.userName != "" && e.userEmail != ""
  }

  /** `createEnrollment`. `credentials` says whether the
      Razorpay keys are configured; `created` is Razorpay's answer to
      orders.create (`None` when it throws). */
  function CreateEnrollment(st: Store, user: Auth.User, credentials: bool, now: nat,
                            created: Option<OrderId>): (r: (Store, EnrollReply))
    ensures r.0 == WithProgram(st).0 || r.1.code == OK
    ensures r.0.slots == st.slots && r.0.bookings == st.bookings && r.0.program == WithProgram(st).0.program
    ensures r.1.code in {OK, BAD_REQUEST, SERVER_ERROR}
    // the guards, in order: inactive, full, already enrolled, then configuration
    ensures var p := WithProgram(st).1;
            && (!p.isActive || AvailableSeats(p) <= 0 || HasActiveEnrollment(st, user.id) ==>
                  r.1.code == BAD_REQUEST && r.1.order.None?)
            && (p.isActive && AvailableSeats(p) > 0 && !HasActiveEnrollment(st, user.id) && !credentials ==>
                  r.1.code == SERVER_ERROR && r.1.order.None?)
            // a Razorpay failure is a 500
            && (p.isActive && AvailableSeats(p) > 0 && !HasActiveEnrollment(st, user.id) && credentials && created.None? ==>
                  r.1.code == SERVER_ERROR && r.1.order.Some?)
    // 400 comes only from the guards or from the schema's required fields at save
    ensures r.1.code == BAD_REQUEST <==>
              var p := WithProgram(st).1;
              || !p.isActive || AvailableSeats(p) <= 0 || HasActiveEnrollment(st, user.id)
              || (credentials && created.Some? && !EnrollmentValid(PendingEnrollment(user, p.price, now)))
    // an order that was requested: price in paise, receipt within Razorpay's 40 characters
    ensures r.1.order.Some? ==>
              && r.1.order.value.amountPaise == WithProgram(st).1.price * 100
              && r.1.order.value.currency == "INR"
              && r.1.order.value.receipt == Receipt(RECEIPT_PREFIX, now, user.id)
              && |r.1.order.value.receipt| <= 24 < 40
              && r.1.notes == Some(OrderNotes(Some(MENTORSHIP_NOTE), Some(user.id),
                                              Some(NameOrFallback(user.name, user.email)), user.email))
    // success: one pending enrollment under the new order id; no seat is taken yet
    ensures r.1.code == OK <==>
              var p := WithProgram(st).1;
              && p.isActive && AvailableSeats(p) > 0 && !HasActiveEnrollment(st, user.id) && credentials
              && created.Some? && created.value !in st.enrollments
              && EnrollmentValid(PendingEnrollment(user, p.price, now))
    ensures r.1.code == OK ==>
              r.0.enrollments == st.enrollments[created.value := PendingEnrollment(user, WithProgram(st).1.price, now)]
  {
    var (st1, p) := WithProgram(st);
    if !p.isActive || AvailableSeats(p) <= 0 || HasActiveEnrollment(st1, user.id) then
      (st1, EnrollReply(BAD_REQUEST, None, None))
    else if !credentials then (st1, EnrollReply(SERVER_ERROR, None, None))
    else
      var receipt := Receipt(RECEIPT_PREFIX, now, user.id);
      var order := OrderRequest(p.price * 100, "INR", receipt);
      var notes := OrderNotes(Some(MENTORSHIP_NOTE), Some(user.id), Some(NameOrFallback(user.name, user.email)),
                              user.email);
      match created
      case None => (st1, EnrollReply(SERVER_ERROR, Some(order), Some(notes)))
      case Some(orderId) =>
        var e := PendingEnrollment(user, p.price, now);
        // a missing required field is a ValidationError (400); a reused
        // order id breaks the unique index (a database error, 500)
        if !EnrollmentValid(e) then (st1, EnrollReply(BAD_REQUEST, Some(order), Some(notes)))
        else if orderId in st1.enrollments then (st1, EnrollReply(SERVER_ERROR, Some(order), Some(notes)))
        else (st1.(enrollments := st1.enrollments[orderId := e]), EnrollReply(OK, Some(order), Some(notes)))
  }

  /** The fields of the update body; absent fields are `None`. */
  datatype ProgramPatch = ProgramPatch(name: Option<string>, description: Option<string>,
                                       price: Option<int>, totalSeats: Option<int>,
                                       isActive: Option<bool>, features: Option<seq<string>>)

  /** The program with the supplied fields replaced. */
  function Apply(p: Program, patch: ProgramPatch): Program {
    p.(name := patch.name.GetOr(p.name), description := patch.description.GetOr(p.description),
       price := patch.price.GetOr(p.price), totalSeats := patch.totalSeats.GetOr(p.totalSeats),
       isActive := patch.isActive.GetOr(p.isActive), features := patch.features.GetOr(p.features))
  }

  /** Seats are never oversold: no more enrolled than there are seats. */
  predicate SeatsConsistent(p: Program) {
    0 <= p.enrolledCount <= p.totalSeats
  }

  /** `updateProgram`. `storedRole` is the role on the caller's
      user document (absent when there is none). */
  function UpdateProgram(st: Store, storedRole: Option<string>, patch: ProgramPatch): (r: (Store, int))
    ensures r.0.slots == st.slots && r.0.bookings == st.bookings && r.0.enrollments == st.enrollments
    ensures r.1 == FORBIDDEN <==> storedRole != Some("admin")
    ensures r.1 == FORBIDDEN ==> r.0 == st
    ensures r.1 == BAD_REQUEST <==>
              storedRole == Some("admin") && patch.totalSeats.Some?
              && patch.totalSeats.value < WithProgram(st).1.enrolledCount
    ensures r.1 == BAD_REQUEST ==> r.0 == WithProgram(st).0
    ensures r.1 == OK ==> r.0.program.Some?
    ensures r.1 == OK ==>
              var p := WithProgram(st).1;
              var q := r.0.program.value;
              && q.enrolledCount == p.enrolledCount
              && (patch.name.None? ==> q.name == p.name) && (patch.name.Some? ==> q.name == patch.name.value)
              && (patch.price.None? ==> q.price == p.price) && (patch.price.Some? ==> q.price == patch.price.value)
              && (patch.totalSeats.None? ==> q.totalSeats == p.totalSeats)
              && (patch.totalSeats.Some? ==> q.totalSeats == patch.totalSeats.value >= p.enrolledCount)
              && (patch.isActive.None? ==> q.isActive == p.isActive)
              && (patch.isActive.Some? ==> q.isActive == patch.isActive.value)
              && (patch.description.None? ==> q.description == p.description)
              && (patch.description.Some? ==> q.description == patch.description.value)
              && (patch.features.None? ==> q.features == p.features)
              && (patch.features.Some? ==> q.features == patch.features.value)
    ensures r.1 in {OK, BAD_REQUEST, FORBIDDEN}
  {
    if storedRole != Some("admin") then (st, FORBIDDEN)
    else
      var (st1, p) := WithProgram(st);
      if patch.totalSeats.Some? && patch.totalSeats.value < p.enrolledCount then (st1, BAD_REQUEST)
      else (st1.(program := Some(Apply(p, patch))), OK)
  }

  /** Neither enrollment creation nor a program update can oversell seats:
      both keep `enrolledCount <= totalSeats`. */
  lemma HandlersKeepSeatsConsistent(st: Store, user: Auth.User, credentials: bool, now: nat,
                                    created: Option<OrderId>, storedRole: Option<string>, patch: ProgramPatch)
    requires st.program.Some? ==> SeatsConsistent(st.program.value)
    ensures SeatsConsistent(CreateEnrollment(st, user, credentials, now, created).0.program.value)
    ensures UpdateProgram(st, storedRole, patch).0.program.Some? ==>
              SeatsConsistent(UpdateProgram(st, storedRole, patch).0.program.value)
  {
  }

  /** A user with a pending or confirmed enrollment cannot open another one. */
  lemma OneActiveEnrollmentPerUser(st: Store, user: Auth.User, credentials: bool, now: nat,
                                   created: Option<OrderId>)
    requires CreateEnrollment(st, user, credentials, now, created).1.code == OK
    ensures var st' := CreateEnrollment(st, user, credentials, now, created).0;
            forall created' :: CreateEnrollment(st', user, credentials, now, created').1.code == BAD_REQUEST
  {
    var st' := CreateEnrollment(st, user, credentials, now, created).0;
    assert st'.enrollments[created.value].holder == user.id;
    assert HasActiveEnrollment(st', user.id);
  }
}

=== FILE: mentorship_model.dfy ===
/** The mentorship documents: MentorshipEnrollment
    (src/models/MentorshipEnrollment.js) and the singleton MentorshipProgram
    (src/models/MentorshipProgram.js). */
module MentorshipModel {
  import opened Base
  import Lifecycle

  /** MentorshipEnrollment.js's `status` enum: the same four values and
      default as a booking's. */
  type EnrollmentStatus = Lifecycle.Status

  /** An enrollment; its razorpayOrderId is the key of the enrollments map,
      which makes the unique index hold by construction. */
  datatype Enrollment = Enrollment(holder: Id, userName: string, userEmail: string, amount: int,
                                   status: EnrollmentStatus, paymentId: Option<string>,
                                   expiresAt: int)

  /** The enrollment TTL index: only pending enrollments past their expiry
      may vanish. */
  predicate EnrollmentTtlMayDelete(e: Enrollment, now: int) {
    e.status == Lifecycle.Pending && e.expiresAt < now
  }

  lemma EnrollmentTtlSparesSettled(e: Enrollment, now: int)
    ensures e.status != Lifecycle.Pending ==> !EnrollmentTtlMayDelete(e, now)
    ensures now <= e.expiresAt ==> !EnrollmentTtlMayDelete(e, now)
  {
  }

  /** The notes attached to a Razorpay order, as `orders.fetch` returns
      them; every field may be absent. createEnrollment writes them and the
      webhook reads them back. */
  datatype OrderNotes = OrderNotes(kind: Option<string>, uid: Option<string>,
                                   userName: Option<string>, userEmail: Option<string>)

  /** The `type` note that marks a mentorship order. */
  const MENTORSHIP_NOTE: string := "mentorship_enrollment"

  datatype Program = Program(name: string, description: string, price: int, totalSeats: int,
                             enrolledCount: int, isActive: bool, features: seq<string>)

  /** `program.totalSeats - program.enrolledCount`, as the handlers report
      and test it. */
  function AvailableSeats(p: Program): int {
    p.totalSeats - p.enrolledCount
  }

  /** The document `MentorshipProgram.create({})` produces: every field at
      its schema default. */
  const DEFAULT_PROGRAM: Program := Program(
    "6-Month Full Mentor Guidance Program",
    "Get comprehensive mentorship with Happy, regular feedback, sessions, and 6-month commitment",
    14999, 6, 0, true,
    ["6-month full mentor guidance with Happy", "Regular feedback and guidance",
     "Personalized sessions", "6-month commitment", "Dedicated support"])

  /** A fresh program sells at 14999 with six seats, all of them available. */
  lemma DefaultProgramSeats()
    ensures DEFAULT_PROGRAM.price == 14999 && DEFAULT_PROGRAM.isActive
    ensures DEFAULT_PROGRAM.totalSeats == 6 && DEFAULT_PROGRAM.enrolledCount == 0
    ensures AvailableSeats(DEFAULT_PROGRAM) == DEFAULT_PROGRAM.totalSeats
  {
  }

  /** `MentorshipProgram.getProgram()`: the stored program, created with the
      defaults only when none exists. Returns the new stored value and the
      program. */
  function GetProgram(stored: Option<Program>): (r: (Option<Program>, Program))
    ensures r.0 == Some(r.1)
    ensures stored.Some? ==> r.1 == stored.value
    ensures stored.None? ==> r.1 == DEFAULT_PROGRAM
  {
    match stored
    case Some(p) => (stored, p)
    case None => (Some(DEFAULT_PROGRAM), DEFAULT_PROGRAM)
  }

  /** getProgram is idempotent: a second call creates nothing and returns
      the same program. */
  lemma GetProgramIdempotent(stored: Option<Program>)
    ensures var (s1, p1) := GetProgram(stored);
            var (s2, p2) := GetProgram(s1);
            s2 == s1 && p2 == p1
  {
  }
}

=== FILE: payment.dfy ===
/** Razorpay's client-side signature check and the generic order endpoint
    (src/controllers/paymentController.js). HMAC-SHA256 is a parameter
    `hmac(secret, message)`; hex digests are compared as strings. */
module Payment {
  import opened Base
  import opened Js

  /** The message Razorpay signs for a completed checkout:
      `order_id + "|" + payment_id`. */
  function SignedMessage(orderId: string, paymentId: string): (m: string)
    ensures |m| == |orderId| + 1 + |paymentId|
    ensures m[..|orderId|] == orderId && m[|orderId|] == '|' && m[|orderId| + 1..] == paymentId
  {
    orderId + "|" + paymentId
  }

  /** The index of the first '|' in s, or |s| when there is none. */
  function FirstBar(s: string): (i: nat)
    ensures i <= |s|
    ensures forall j :: 0 <= j < i ==> s[j] != '|'
    ensures i < |s| ==> s[i] == '|'
  {
    if |s| == 0 || s[0] == '|' then 0 else 1 + FirstBar(s[1..])
  }

  /** Reads a signed message back into its order and payment ids. */
  function SplitMessage(m: string): (string, string) {
    var i := FirstBar(m);
    if i < |m| then (m[..i], m[i + 1..]) else (m, "")
  }

  /** Razorpay order ids contain no '|', so the signed message determines
      both ids: two different (order, payment) pairs never share a message,
      and hence never share a valid signature's preimage. */
  lemma SignedMessageRoundTrip(orderId: string, paymentId: string)
    requires '|' !in orderId
    ensures SplitMessage(SignedMessage(orderId, paymentId)) == (orderId, paymentId)
  {
    var m := SignedMessage(orderId, paymentId);
    FirstBarAt(m, |orderId|);
  }

  lemma {:induction false} FirstBarAt(s: string, k: nat)
    requires k < |s| && s[k] == '|'
    requires forall j :: 0 <= j < k ==> s[j] != '|'
    ensures FirstBar(s) == k
    decreases k
  {
    if k > 0 {
      FirstBarAt(s[1..], k - 1);
    }
  }

  /** `razorpay_signature === expectedSign`; a missing secret makes
      createHmac throw. */
  function CheckSignature(hmac: (string, string) -> string, secret: Option<string>,
                          orderId: string, paymentId: string, signature: Option<string>): (code: int)
    ensures code == OK <==> secret.Some? && signature == Some(hmac(secret.value, SignedMessage(orderId, paymentId)))
    ensures code == SERVER_ERROR <==> secret.None?
    ensures code == OK || code == BAD_REQUEST || code == SERVER_ERROR
  {
    match secret
    case None => SERVER_ERROR
    case Some(key) =>
      if signature == Some(hmac(key, SignedMessage(orderId, paymentId))) then OK else BAD_REQUEST
  }

  /** `createOrder` (paymentController.js): the request sent to Razorpay and the
      HTTP answer; `created` is Razorpay's answer (None when it throws). */
  function CreateOrder(amount: int, currency: Option<string>, now: nat,
                       created: Option<OrderId>): (r: (OrderRequest, int))
    ensures r.0.amountPaise == amount * 100
    ensures currency.None? ==> r.0.currency == "INR"
    ensures currency.Some? ==> r.0.currency == currency.value
    ensures r.1 == OK <==> created.Some?
    ensures r.1 == OK || r.1 == SERVER_ERROR
  {
    var request := OrderRequest(amount * 100, currency.GetOr("INR"), "order_" + Decimal(now));
    (request, if created.Some? then OK else SERVER_ERROR)
  }
}

=== FILE: products.dfy ===
/** The polity book and the PDF magazine (src/controllers/polityController.js
    and src/controllers/pdfController.js): the two controllers are the same
    apart from the receipt prefix and the default price. Creating a purchase
    only asks Razorpay for an order; no purchase document is written. */
module Products {
  import opened Base
  import opened Js
  import Auth

  datatype Product = PolityBook | Magazine

  /** The price when the environment gives none: 199 and 99. */
  function DefaultPrice(p: Product): int {
    match p
    case PolityBook => 199
    case Magazine => 99
  }

  function ReceiptPrefix(p: Product): string {
    match p
    case PolityBook => "polity_"
    case Magazine => "pdf_"
  }

  /** `getPolityPrice()` / `getPDFPrice()`. */
  function ProductPrice(p: Product, env: Option<string>): (r: int)
    ensures r >= 1
    ensures Truthy(env) && ParseInt(env.value).Some? && ParseInt(env.value).value > 0 ==>
              r == ParseInt(env.value).value
    ensures !(Truthy(env) && ParseInt(env.value).Some? && ParseInt(env.value).value > 0) ==>
              r == DefaultPrice(p)
  {
    PositiveOr(env, DefaultPrice(p))
  }

  datatype ProductReply = ProductReply(code: int, order: Option<OrderRequest>)

  /** `createPurchase` of the polity and of the PDF controller.
      `credentials` says whether both Razorpay keys are configured;
      `created` is Razorpay's answer. */
  function CreateProductPurchase(p: Product, user: Auth.User, credentials: bool, env: Option<string>,
                                 now: nat, created: Option<OrderId>): (r: ProductReply)
    ensures r.code == OK <==> credentials && created.Some?
    ensures r.code != OK ==> r.code == SERVER_ERROR
    // missing keys stop the handler before any order is requested
    ensures r.order.None? <==> !credentials
    ensures r.order.Some? ==>
              && r.order.value.amountPaise == ProductPrice(p, env) * 100
              && r.order.value.currency == "INR"
              && r.order.value.receipt == Receipt(ReceiptPrefix(p), now, user.id)
              && |r.order.value.receipt| <= |ReceiptPrefix(p)| + 19
              && |r.order.value.receipt| <= 40
  {
    if !credentials then ProductReply(SERVER_ERROR, None)
    else
      var order := OrderRequest(ProductPrice(p, env) * 100, "INR", Receipt(ReceiptPrefix(p), now, user.id));
      ProductReply(if created.Some? then OK else SERVER_ERROR, Some(order))
  }

  /** The bounds the receipts keep: 26 characters for the polity book and 23
      for the magazine. */
  lemma ReceiptBounds(user: Auth.User, now: nat)
    ensures |Receipt(ReceiptPrefix(PolityBook), now, user.id)| <= 26
    ensures |Receipt(ReceiptPrefix(Magazine), now, user.id)| <= 23
  {
  }

  datatype ProductStatus = Pending | Confirmed | Cancelled

  /** A stored purchase document (written elsewhere). */
  datatype ProductPurchase = ProductPurchase(holder: Id, userName: string, userEmail: string, amount: int,
                                             status: ProductStatus)

  /** `getMyPurchases`: the caller's confirmed purchases. */
  function MyPurchases(purchases: map<OrderId, ProductPurchase>, uid: Id): (r: map<OrderId, ProductPurchase>)
    ensures r.Keys <= purchases.Keys
    ensures forall o :: o in r ==> r[o] == purchases[o] && r[o].holder == uid && r[o].status == Confirmed
    ensures forall o :: o in purchases && purchases[o].holder == uid && purchases[o].status == Confirmed ==> o in r
  {
    map o | o in purchases && purchases[o].holder == uid && purchases[o].status == Confirmed :: purchases[o]
  }

  /** Two users' lists never share a purchase, and a list is stable under
      filtering again: what a user sees is exactly their confirmed part of the
      collection. */
  lemma MyPurchasesPartition(purchases: map<OrderId, ProductPurchase>, u: Id, v: Id)
    requires u != v
    ensures MyPurchases(purchases, u).Keys !! MyPurchases(purchases, v).Keys
    ensures MyPurchases(MyPurchases(purchases, u), u) == MyPurchases(purchases, u)
    ensures MyPurchases(MyPurchases(purchases, u), v) == map[]
  {
  }
}

=== FILE: reconcile.dfy ===
/** The reconciliation pass (src/utils/fixConfirmedBookings.js): every
    confirmed booking whose slot, as loaded by the initial query, is not
    booked gets that slot forced to booked for its holder. It repairs the
    drift left when a confirmation finds its slot already released. */
module Reconcile {
  import opened Base
  import opened SlotModel
  import opened BookingModel
  import opened Store

  /** `{totalConfirmedBookings, fixed, alreadyCorrect, errors}`. */
  datatype Report = Report(total: nat, fixed: nat, alreadyCorrect: nat, errors: nat)

  predicate IsConfirmed(st: Store, j: BookingId) {
    j in st.bookings && st.bookings[j].status == BookingStatus.Confirmed
  }

  function ConfirmedIds(st: Store): set<BookingId> {
    set j | j in st.bookings && IsConfirmed(st, j)
  }

  /** Confirmed bookings whose slot no longer exists: skipped, counted
      nowhere. */
  function SkippedIds(st: Store): set<BookingId> {
    set j | j in st.bookings && IsConfirmed(st, j) && st.bookings[j].slot !in st.slots
  }

  /** Confirmed bookings whose slot is already booked. */
  function CorrectIds(st: Store): set<BookingId> {
    set j | j in st.bookings && IsConfirmed(st, j) && st.bookings[j].slot in st.slots
                             && st.slots[st.bookings[j].slot].status == Booked
  }

  /** Confirmed bookings whose slot exists and is not booked. */
  function BrokenIds(st: Store): set<BookingId> {
    set j | j in st.bookings && IsConfirmed(st, j) && st.bookings[j].slot in st.slots
                             && st.slots[st.bookings[j].slot].status != Booked
  }

  /** The members of `ids` below `n`: the part of the list already visited. */
  function Below(ids: set<BookingId>, n: nat): set<BookingId> {
    set j | j in ids && j < n
  }

  /** Slot `k` is written by some repaired booking among `ids`. */
  predicate RepairedBy(st: Store, ids: set<BookingId>, k: SlotId) {
    exists j :: j in ids && j in st.bookings && st.bookings[j].slot == k
  }

  /** What `slots` looks like once the repairs `ids` have been written: slots
      nobody repaired are as they were, and a repaired slot is booked for the
      holder of one of the bookings that repaired it. */
  predicate Repaired(st: Store, ids: set<BookingId>, slots: Slots, now: int) {
    && slots.Keys == st.slots.Keys
    && (forall k :: k in st.slots && !RepairedBy(st, ids, k) ==> slots[k] == st.slots[k])
    && (forall k :: k in st.slots && RepairedBy(st, ids, k) ==>
          exists j :: j in ids && j in st.bookings && st.bookings[j].slot == k
                      && slots[k] == st.slots[k].(status := Booked, bookedBy := Some(st.bookings[j].holder),
                                                  updatedAt := now))
  }

  /** How the pass treats the booking with id `i`. */
  datatype Visit = Ignore | Skip | Error | Fix | Correct

  function Classify(st: Store, fails: set<BookingId>, i: BookingId): Visit {
    if !IsConfirmed(st, i) then Ignore
    else if st.bookings[i].slot !in st.slots then Skip
    else if st.slots[st.bookings[i].slot].status == Booked then Correct
    else if i in fails then Error
    else Fix
  }

  /** The counters after visiting the ids below `n`. */
  ghost predicate Counted(st: Store, fails: set<BookingId>, n: nat,
                          fixed: nat, correct: nat, errors: nat, skipped: nat) {
    && fixed == |Below(BrokenIds(st) - fails, n)|
    && correct == |Below(CorrectIds(st), n)|
    && errors == |Below(BrokenIds(st) * fails, n)|
    && skipped == |Below(SkippedIds(st), n)|
    && fixed + correct + errors + skipped == |Below(ConfirmedIds(st), n)|
  }

  /** `fixConfirmedBookings()`. `fails` are the bookings whose slot write
      throws; such a booking lands in the error list and writes nothing. */
  method FixConfirmed(st: Store, fails: set<BookingId>, now: int) returns (st': Store, rep: Report)
    requires Wf(st)
    ensures st' == st.(slots := st'.slots) && Wf(st')
    ensures Repaired(st, BrokenIds(st) - fails, st'.slots, now)
    ensures rep.total == |ConfirmedIds(st)|
    ensures rep.fixed == |BrokenIds(st) - fails|
    ensures rep.alreadyCorrect == |CorrectIds(st)|
    ensures rep.errors == |BrokenIds(st) * fails|
    ensures rep.fixed + rep.alreadyCorrect + rep.errors + |SkippedIds(st)| == rep.total
    // every confirmed booking whose repair did not fail ends with a booked slot
    ensures forall j :: (j in st.bookings && IsConfirmed(st, j) && j !in fails
                         && st.bookings[j].slot in st.slots) ==> st'.slots[st.bookings[j].slot].status == Booked
  {
    var slots := st.slots;
    var fixed: nat, correct: nat, errors: nat := 0, 0, 0;
    ghost var skipped: nat := 0;
    var i: nat := 0;
    while i < st.nextBooking
      invariant i <= st.nextBooking
      invariant Repaired(st, Below(BrokenIds(st) - fails, i), slots, now)
      invariant Counted(st, fails, i, fixed, correct, errors, skipped)
    {
      var visit := Classify(st, fails, i);
      RepairVisit(st, fails, slots, now, i);
      if visit == Fix {
        slots := ForceBooked(slots, st.bookings[i].slot, st.bookings[i].holder, now);
      }
      ghost var (f0, c0, e0, s0) := (fixed, correct, errors, skipped);
      fixed := fixed + (if visit == Fix then 1 else 0);
      correct := correct + (if visit == Correct then 1 else 0);
      errors := errors + (if visit == Error then 1 else 0);
      skipped := skipped + (if visit == Skip then 1 else 0);
      CountedStep(st, fails, i, f0, c0, e0, s0, fixed, correct, errors, skipped);
      i := i + 1;
    }
    CountedAll(st, fails, fixed, correct, errors, skipped);
    RepairedAllBooked(st, fails, slots, now);
    st' := st.(slots := slots);
    rep := Report(|ConfirmedIds(st)|, fixed, correct, errors);
  }

  /** Visiting id `i` writes its repair when it is one. */
  lemma RepairVisit(st: Store, fails: set<BookingId>, slots: Slots, now: int, i: nat)
    requires Repaired(st, Below(BrokenIds(st) - fails, i), slots, now)
    ensures Classify(st, fails, i) == Fix ==>
              Repaired(st, Below(BrokenIds(st) - fails, i + 1),
                       ForceBooked(slots, st.bookings[i].slot, st.bookings[i].holder, now), now)
    ensures Classify(st, fails, i) != Fix ==> Repaired(st, Below(BrokenIds(st) - fails, i + 1), slots, now)
  {
    if Classify(st, fails, i) == Fix {
      RepairStep(st, Below(BrokenIds(st) - fails, i), slots, now, i);
      assert Below(BrokenIds(st) - fails, i + 1) == Below(BrokenIds(st) - fails, i) + {i};
    } else {
      assert Below(BrokenIds(st) - fails, i + 1) == Below(BrokenIds(st) - fails, i);
    }
  }

  /** Visiting id `i` bumps exactly the counter of its class. */
  lemma CountedStep(st: Store, fails: set<BookingId>, i: nat, fixed: nat, correct: nat, errors: nat, skipped: nat,
                    fixed': nat, correct': nat, errors': nat, skipped': nat)
    requires Counted(st, fails, i, fixed, correct, errors, skipped)
    requires var v := Classify(st, fails, i);
             && fixed' == fixed + (if v == Fix then 1 else 0) && correct' == correct + (if v == Correct then 1 else 0)
             && errors' == errors + (if v == Error then 1 else 0) && skipped' == skipped + (if v == Skip then 1 else 0)
    ensures Counted(st, fails, i + 1, fixed', correct', errors', skipped')
  {
    CountStep(BrokenIds(st) - fails, i);
    CountStep(CorrectIds(st), i);
    CountStep(BrokenIds(st) * fails, i);
    CountStep(SkippedIds(st), i);
    CountStep(ConfirmedIds(st), i);
  }

  /** After the last id the counters count whole sets. */
  lemma CountedAll(st: Store, fails: set<BookingId>, fixed: nat, correct: nat, errors: nat, skipped: nat)
    requires Wf(st) && Counted(st, fails, st.nextBooking, fixed, correct, errors, skipped)
    ensures fixed == |BrokenIds(st) - fails| && correct == |CorrectIds(st)|
    ensures errors == |BrokenIds(st) * fails| && skipped == |SkippedIds(st)|
    ensures fixed + correct + errors + skipped == |ConfirmedIds(st)|
  {
    AllBelow(st, BrokenIds(st) - fails);
    AllBelow(st, CorrectIds(st));
    AllBelow(st, BrokenIds(st) * fails);
    AllBelow(st, SkippedIds(st));
    AllBelow(st, ConfirmedIds(st));
  }

  /** With every unfailed repair written, their slots are all booked. */
  lemma RepairedAllBooked(st: Store, fails: set<BookingId>, slots: Slots, now: int)
    requires Wf(st) && Repaired(st, Below(BrokenIds(st) - fails, st.nextBooking), slots, now)
    ensures Repaired(st, BrokenIds(st) - fails, slots, now)
    ensures forall j :: (j in st.bookings && IsConfirmed(st, j) && j !in fails
                         && st.bookings[j].slot in st.slots) ==> slots[st.bookings[j].slot].status == Booked
  {
    AllBelow(st, BrokenIds(st) - fails);
    forall j | j in st.bookings && IsConfirmed(st, j) && j !in fails && st.bookings[j].slot in st.slots
      ensures slots[st.bookings[j].slot].status == Booked
    {
      var k := st.bookings[j].slot;
      if st.slots[k].status != Booked {
        assert j in BrokenIds(st) - fails;
        assert RepairedBy(st, BrokenIds(st) - fails, k);
      }
    }
  }

  /** Visiting one more id adds it to exactly the sets it belongs to. */
  lemma CountStep(ids: set<BookingId>, i: nat)
    ensures i in ids ==> |Below(ids, i + 1)| == |Below(ids, i)| + 1
    ensures i !in ids ==> Below(ids, i + 1) == Below(ids, i)
  {
    if i in ids {
      assert Below(ids, i + 1) == Below(ids, i) + {i};
    } else {
      assert Below(ids, i + 1) == Below(ids, i);
    }
  }

  /** Once every allocated id is visited, the visited part is everything. */
  lemma AllBelow(st: Store, ids: set<BookingId>)
    requires Wf(st) && ids <= st.bookings.Keys
    ensures Below(ids, st.nextBooking) == ids
  {
  }

  /** Writing one more repair keeps the repaired-slots description. */
  lemma RepairStep(st: Store, done: set<BookingId>, slots: Slots, now: int, i: BookingId)
    requires Repaired(st, done, slots, now)
    requires i in st.bookings && st.bookings[i].slot in st.slots
    ensures Repaired(st, done + {i}, ForceBooked(slots, st.bookings[i].slot, st.bookings[i].holder, now), now)
  {
    var b := st.bookings[i];
    var slots' := ForceBooked(slots, b.slot, b.holder, now);
    forall k | k in st.slots && !RepairedBy(st, done + {i}, k)
      ensures slots'[k] == st.slots[k]
    {
      assert !RepairedBy(st, done, k);
    }
    forall k | k in st.slots && RepairedBy(st, done + {i}, k)
      ensures exists j :: j in done + {i} && j in st.bookings && st.bookings[j].slot == k
                          && slots'[k] == st.slots[k].(status := Booked, bookedBy := Some(st.bookings[j].holder),
                                                       updatedAt := now)
    {
      if k == b.slot {
        assert slots'[k] == st.slots[k].(status := Booked, bookedBy := Some(b.holder), updatedAt := now);
      } else {
        var j :| j in done + {i} && j in st.bookings && st.bookings[j].slot == k;
        assert j in done;
        assert RepairedBy(st, done, k);
      }
    }
  }

  /** Run twice, the pass finds nothing to repair the second time once its
      first run had no write errors: whichever writes the second run would
      fail, it fixes nothing, reports no error and leaves the store as the
      first run left it. */
  method FixTwice(st: Store, now1: int, now2: int, fails2: set<BookingId>)
    returns (st1: Store, second: Report, st2: Store)
    requires Wf(st)
    ensures second.fixed == 0 && second.errors == 0
    ensures second.total == |ConfirmedIds(st)| && second.alreadyCorrect + |SkippedIds(st)| == second.total
    ensures st2 == st1
  {
    var first;
    st1, first := FixConfirmed(st, {}, now1);
    SettledAfterRepair(st, st1);
    st2, second := FixConfirmed(st1, fails2, now2);
    assert BrokenIds(st1) - fails2 == {};
    NothingToRepair(st1, st2.slots, now2);
  }

  /** After a run without write errors no confirmed booking is broken, and
      the confirmed and skipped bookings are the ones before the run. */
  lemma SettledAfterRepair(st: Store, st1: Store)
    requires st1 == st.(slots := st1.slots) && st1.slots.Keys == st.slots.Keys
    requires forall j :: (j in st.bookings && IsConfirmed(st, j) && st.bookings[j].slot in st.slots) ==>
                           st1.slots[st.bookings[j].slot].status == Booked
    ensures BrokenIds(st1) == {}
    ensures ConfirmedIds(st1) == ConfirmedIds(st) && SkippedIds(st1) == SkippedIds(st)
  {
    forall j | j in st1.bookings && IsConfirmed(st1, j) && st1.bookings[j].slot in st1.slots
      ensures st1.slots[st1.bookings[j].slot].status == Booked
    {
      assert IsConfirmed(st, j);
    }
  }

  /** Writing no repairs leaves every slot as it was. */
  lemma NothingToRepair(st: Store, slots: Slots, now: int)
    requires Repaired(st, {}, slots, now)
    ensures slots == st.slots
  {
    forall k | k in st.slots ensures slots[k] == st.slots[k] {
      assert !RepairedBy(st, {}, k);
    }
  }
}

=== FILE: slot_model.dfy ===
/** The Slot document (src/models/Slot.js) and the single-document atomic
    writes the handlers perform on the slots collection. Every write stamps
    `updatedAt` (the schema has `timestamps: true`), which is the field the
    expiry sweeper compares with its cutoff. */
module SlotModel {
  import opened Base

  /** The status enum; the datatype admits no other value. */
  datatype SlotStatus = Free | Pending | Booked | Completed | Cancelled

  function SlotStatusName(s: SlotStatus): string {
    match s
    case Free => "free"
    case Pending => "pending"
    case Booked => "booked"
    case Completed => "completed"
    case Cancelled => "cancelled"
  }

  /** Mongoose's enum validator: only the five names are accepted. */
  function ParseSlotStatus(t: string): (r: Option<SlotStatus>)
    ensures r.Some? <==> t in {"free", "pending", "booked", "completed", "cancelled"}
  {
    if t == "free" then Some(Free)
    else if t == "pending" then Some(Pending)
    else if t == "booked" then Some(Booked)
    else if t == "completed" then Some(Completed)
    else if t == "cancelled" then Some(Cancelled)
    else None
  }

  /** The stored spelling and the enum agree in both directions. */
  lemma SlotStatusNamesRoundTrip(s: SlotStatus, t: string)
    ensures ParseSlotStatus(SlotStatusName(s)) == Some(s)
    ensures ParseSlotStatus(t).Some? ==> SlotStatusName(ParseSlotStatus(t).value) == t
  {
  }

  /** One slot. `admin` is the owning administrator, `bookedBy` the holder
      (absent until set), times are epoch milliseconds, `duration` minutes
      and `price` rupees. */
  datatype Slot = Slot(admin: Id, start: int, end: int, duration: int, price: int,
                       status: SlotStatus, bookedBy: Option<Id>, updatedAt: int)

  const DEFAULT_DURATION: int := 30
  const DEFAULT_PRICE: int := 500

  /** A slot document as inserted: the schema defaults fill an omitted
      duration or price; a new slot is free with no holder. */
  function NewSlot(admin: Id, start: int, end: int, duration: Option<int>, price: Option<int>,
                   now: int): (s: Slot)
    ensures s.status == Free && s.bookedBy == None && s.updatedAt == now
    ensures s.duration == (if duration.Some? then duration.value else DEFAULT_DURATION)
    ensures s.price == (if price.Some? then price.value else DEFAULT_PRICE)
    ensures s.admin == admin && s.start == start && s.end == end
  {
    Slot(admin, start, end, duration.GetOr(DEFAULT_DURATION), price.GetOr(DEFAULT_PRICE), Free, None, now)
  }

  type Slots = map<SlotId, Slot>

  /** `findOneAndUpdate({_id, status: "free"}, {status: "pending", updatedAt})`:
      the compare-and-set that claims a slot. The flag says whether it
      matched. */
  function Claim(slots: Slots, id: SlotId, now: int): (Slots, bool) {
    if id in slots && slots[id].status == Free then
      (slots[id := slots[id].(status := Pending, updatedAt := now)], true)
    else (slots, false)
  }

  /** `findOneAndUpdate({_id, status: "pending"}, {status: "booked", bookedBy})`. */
  function BookIfPending(slots: Slots, id: SlotId, holder: Id, now: int): (Slots, bool) {
    if id in slots && slots[id].status == Pending then
      (slots[id := slots[id].(status := Booked, bookedBy := Some(holder), updatedAt := now)], true)
    else (slots, false)
  }

  /** `findOneAndUpdate({_id, status: "pending"}, {status: "free", bookedBy: null})`. */
  function ReleaseIfPending(slots: Slots, id: SlotId, now: int): Slots {
    if id in slots && slots[id].status == Pending then
      slots[id := slots[id].(status := Free, bookedBy := None, updatedAt := now)]
    else slots
  }

  /** `findByIdAndUpdate(id, {status: "free"})`, clearing the holder when the
      update also says `bookedBy: null`; no status guard. */
  function ForceFree(slots: Slots, id: SlotId, clearHolder: bool, now: int): Slots {
    if id in slots then
      slots[id := slots[id].(status := Free,
                             bookedBy := if clearHolder then None else slots[id].bookedBy,
                             updatedAt := now)]
    else slots
  }

  /** `findByIdAndUpdate(id, {status: "booked", bookedBy})`; no status guard. */
  function ForceBooked(slots: Slots, id: SlotId, holder: Id, now: int): Slots {
    if id in slots then
      slots[id := slots[id].(status := Booked, bookedBy := Some(holder), updatedAt := now)]
    else slots
  }

  /** Of two claims on one slot, the second fails and changes nothing,
      whatever the times. */
  lemma ClaimExcludesSecondClaim(slots: Slots, id: SlotId, t1: int, t2: int)
    requires Claim(slots, id, t1).1
    ensures var after := Claim(slots, id, t1).0;
            !Claim(after, id, t2).1 && Claim(after, id, t2).0 == after
    ensures Claim(slots, id, t1).0[id].status == Pending
    ensures Claim(slots, id, t1).0[id].updatedAt == t1
  {
  }

  /** Every conditional write either touches exactly its own slot, stamping
      it with the write time, or nothing at all. */
  lemma WritesAreLocal(slots: Slots, id: SlotId, holder: Id, now: int, k: SlotId)
    requires k in slots && k != id
    ensures Claim(slots, id, now).0.Keys == slots.Keys && Claim(slots, id, now).0[k] == slots[k]
    ensures BookIfPending(slots, id, holder, now).0.Keys == slots.Keys
    ensures BookIfPending(slots, id, holder, now).0[k] == slots[k]
    ensures ReleaseIfPending(slots, id, now).Keys == slots.Keys && ReleaseIfPending(slots, id, now)[k] == slots[k]
    ensures id in slots ==> Claim(slots, id, now).1 ==> Claim(slots, id, now).0[id].updatedAt == now
    ensures id in slots && slots[id].status == Pending ==>
              BookIfPending(slots, id, holder, now).0[id].updatedAt == now
              && ReleaseIfPending(slots, id, now)[id].updatedAt == now
  {
  }
}

=== FILE: store.dfy ===
/** The document store the reservation core runs against: slots and
    bookings keyed by store-assigned ids (allocated in insertion order),
    enrollments keyed by their unique Razorpay order id, and the singleton
    mentorship program. */
module Store {
  import opened Base
  import opened SlotModel
  import opened BookingModel
  import opened MentorshipModel

  datatype Store = Store(slots: map<SlotId, Slot>, nextSlot: nat,
                         bookings: map<BookingId, Booking>, nextBooking: nat,
                         enrollments: map<OrderId, Enrollment>,
                         program: Option<Program>)

  /** Ids already handed out are below the allocation counters. */
  ghost predicate Wf(st: Store) {
    && (forall k :: k in st.slots ==> k < st.nextSlot)
    && (forall k :: k in st.bookings ==> k < st.nextBooking)
  }

  predicate HasOrder(bookings: map<BookingId, Booking>, k: BookingId, order: OrderId) {
    k in bookings && bookings[k].orderId == order
  }

  /** `Booking.findOne({razorpayOrderId})` with no sort: the first booking in
      natural (insertion) order, searched among ids i .. n-1. */
  function FindFrom(bookings: map<BookingId, Booking>, order: OrderId, i: nat, n: nat): (r: Option<BookingId>)
    requires i <= n
    ensures r.Some? ==> i <= r.value < n && HasOrder(bookings, r.value, order)
    ensures r.Some? ==> forall j :: i <= j < r.value ==> !HasOrder(bookings, j, order)
    ensures r.None? ==> forall j :: i <= j < n ==> !HasOrder(bookings, j, order)
    decreases n - i
  {
    if i == n then None
    else if HasOrder(bookings, i, order) then Some(i)
    else FindFrom(bookings, order, i + 1, n)
  }

  /** The booking a lookup by order id resolves to: the oldest one. */
  function FindByOrder(st: Store, order: OrderId): (r: Option<BookingId>)
    requires Wf(st)
    ensures r.Some? ==> HasOrder(st.bookings, r.value, order)
    ensures r.Some? ==> forall j: nat :: j < r.value ==> !HasOrder(st.bookings, j, order)
    ensures r.None? <==> forall j: nat :: !HasOrder(st.bookings, j, order)
  {
    FindFrom(st.bookings, order, 0, st.nextBooking)
  }

  /** The lookup only reads which ids carry the order: two booking maps
      that agree on that agree on the answer. */
  lemma {:induction false} FindFromStable(b1: map<BookingId, Booking>, b2: map<BookingId, Booking>,
                                          order: OrderId, i: nat, n: nat)
    requires i <= n
    requires forall k :: i <= k < n ==> (HasOrder(b1, k, order) <==> HasOrder(b2, k, order))
    ensures FindFrom(b1, order, i, n) == FindFrom(b2, order, i, n)
    decreases n - i
  {
    if i < n {
      FindFromStable(b1, b2, order, i + 1, n);
    }
  }

  /** Rewriting bookings in place (same ids, same order ids) does not move
      the lookup by order id. */
  lemma FindByOrderStable(st: Store, st': Store, order: OrderId)
    requires Wf(st) && Wf(st') && st'.nextBooking == st.nextBooking
    requires st'.bookings.Keys == st.bookings.Keys
    requires forall k :: k in st.bookings ==> st'.bookings[k].orderId == st.bookings[k].orderId
    ensures FindByOrder(st', order) == FindByOrder(st, order)
  {
    FindFromStable(st.bookings, st'.bookings, order, 0, st.nextBooking);
  }

  /** The store's TTL monitor removing one booking: enabled only for a
      pending booking past its expiry; `None` when the step is not enabled. */
  function TtlDeleteBooking(st: Store, id: BookingId, now: int): (r: Option<Store>)
    ensures r.Some? <==> id in st.bookings && TtlMayDelete(st.bookings[id], now)
    ensures r.Some? ==> r.value == st.(bookings := st.bookings - {id})
  {
    if id in st.bookings && TtlMayDelete(st.bookings[id], now) then
      Some(st.(bookings := st.bookings - {id}))
    else None
  }

  /** The TTL monitor removing one enrollment. */
  function TtlDeleteEnrollment(st: Store, order: OrderId, now: int): (r: Option<Store>)
    ensures r.Some? <==> order in st.enrollments && EnrollmentTtlMayDelete(st.enrollments[order], now)
    ensures r.Some? ==> r.value == st.(enrollments := st.enrollments - {order})
  {
    if order in st.enrollments && EnrollmentTtlMayDelete(st.enrollments[order], now) then
      Some(st.(enrollments := st.enrollments - {order}))
    else None
  }

  /** A TTL deletion keeps the store well formed and never removes a
      confirmed, cancelled or completed booking: those survive it with their
      contents intact. */
  lemma TtlKeepsSettledBookings(st: Store, id: BookingId, now: int, k: BookingId)
    requires Wf(st)
    requires TtlDeleteBooking(st, id, now).Some?
    requires k in st.bookings && st.bookings[k].status != BookingStatus.Pending
    ensures Wf(TtlDeleteBooking(st, id, now).value)
    ensures k in TtlDeleteBooking(st, id, now).value.bookings
    ensures TtlDeleteBooking(st, id, now).value.bookings[k] == st.bookings[k]
  {
  }

  /** Getting the program through the store. */
  function WithProgram(st: Store): (r: (Store, Program))
    ensures r.0 == st.(program := Some(r.1))
    ensures st.program.Some? ==> r.0 == st && r.1 == st.program.value
    ensures st.program.None? ==> r.1 == DEFAULT_PROGRAM
  {
    var (stored, p) := GetProgram(st.program);
    (st.(program := stored), p)
  }
}

=== FILE: sweeper.dfy ===
/** The expiry sweeper (src/utils/cleanupExpiredSlots.js), which index.js
    schedules every two minutes. Pass one releases every slot held pending
    for fifteen minutes; pass two cancels every pending booking past its expiry and releases its
    slot if that slot is still pending. */
module Sweeper {
  import opened Base
  import opened SlotModel
  import opened BookingModel
  import opened Store

  /** Slots last written at or before the cutoff count as abandoned holds. */
  function Cutoff(now: int): (c: int)
    ensures now - c == 15 * 60 * 1000
  {
    now - HOLD_MS
  }

  predicate StaleHold(s: Slot, now: int) {
    s.status == SlotStatus.Pending && s.updatedAt <= Cutoff(now)
  }

  /** The pass-two query: pending and `expiresAt <= now`. */
  predicate Expired(b: Booking, now: int) {
    b.status == BookingStatus.Pending && b.expiresAt <= now
  }

  /** `{status: "free", bookedBy: null}` written at `now`. */
  function Freed(s: Slot, now: int): Slot {
    s.(status := Free, bookedBy := None, updatedAt := now)
  }

  function StaleIds(slots: Slots, now: int): set<SlotId> {
    set k | k in slots && StaleHold(slots[k], now)
  }

  function ExpiredIds(bookings: map<BookingId, Booking>, now: int): set<BookingId> {
    set k | k in bookings && Expired(bookings[k], now)
  }

  /** Pass one: the `updateMany` over stale holds. */
  function ReleaseStale(slots: Slots, now: int): Slots {
    map k | k in slots :: if StaleHold(slots[k], now) then Freed(slots[k], now) else slots[k]
  }

  /** Some expired booking among ids below `n` holds slot `k`. */
  predicate ExpiredHolderBelow(bookings: map<BookingId, Booking>, k: SlotId, now: int, n: nat) {
    exists j :: 0 <= j < n && j in bookings && Expired(bookings[j], now) && bookings[j].slot == k
  }

  /** Some expired booking holds slot `k`. */
  predicate ExpiredHolder(bookings: map<BookingId, Booking>, k: SlotId, now: int) {
    exists j :: j in bookings && Expired(bookings[j], now) && bookings[j].slot == k
  }

  /** The bookings after pass two has processed ids below `n`. */
  function CancelBelow(bookings: map<BookingId, Booking>, now: int, n: nat): map<BookingId, Booking> {
    map k | k in bookings :: if k < n && Expired(bookings[k], now)
                             then bookings[k].(status := BookingStatus.Cancelled) else bookings[k]
  }

  /** The slots after pass two has processed ids below `n`. */
  function ReleaseBelow(slots: Slots, bookings: map<BookingId, Booking>, now: int, n: nat): Slots {
    map k | k in slots :: if slots[k].status == SlotStatus.Pending && ExpiredHolderBelow(bookings, k, now, n)
                          then Freed(slots[k], now) else slots[k]
  }

  /** The reference result of one sweep, stated without the loop: every
      expired booking cancelled; a slot freed when it was a stale hold, or
      when it is still pending after pass one and an expired booking holds
      it. */
  function SweepResult(st: Store, now: int): Store {
    var pass1 := ReleaseStale(st.slots, now);
    st.(bookings := map k | k in st.bookings :: if Expired(st.bookings[k], now)
                                                then st.bookings[k].(status := BookingStatus.Cancelled)
                                                else st.bookings[k],
        slots := map k | k in pass1 :: if pass1[k].status == SlotStatus.Pending
                                           && ExpiredHolder(st.bookings, k, now)
                                        then Freed(pass1[k], now) else pass1[k])
  }

  /** `cleanupExpiredSlots()`: the two passes, returning the store and
      `{slotsReleased, bookingsCancelled}`. */
  method Sweep(st: Store, now: int) returns (st': Store, released: nat, cancelled: nat)
    requires Wf(st)
    ensures st' == SweepResult(st, now)
    ensures released == |StaleIds(st.slots, now)|
    ensures cancelled == |ExpiredIds(st.bookings, now)|
  {
    var pass1 := ReleaseStale(st.slots, now);
    released := |StaleIds(st.slots, now)|;
    var slots := pass1;
    var bookings := st.bookings;
    cancelled := 0;
    var i: nat := 0;
    while i < st.nextBooking
      invariant i <= st.nextBooking
      invariant bookings == CancelBelow(st.bookings, now, i)
      invariant slots == ReleaseBelow(pass1, st.bookings, now, i)
      invariant cancelled == |ExpiredBelow(st.bookings, now, i)|
    {
      SweepStep(pass1, st.bookings, now, i);
      if i in st.bookings && Expired(st.bookings[i], now) {
        var b := st.bookings[i];
        bookings := bookings[i := b.(status := BookingStatus.Cancelled)];
        slots := ReleaseIfPending(slots, b.slot, now);
        cancelled := cancelled + 1;
      }
      i := i + 1;
    }
    SweepDone(pass1, st, now);
    st' := st.(bookings := bookings, slots := slots);
  }

  /** The expired bookings among ids below `n`. */
  function ExpiredBelow(bookings: map<BookingId, Booking>, now: int, n: nat): set<BookingId> {
    set k | k in bookings && k < n && Expired(bookings[k], now)
  }

  /** One iteration of pass two, on id `i`: an expired booking is cancelled,
      counted, and its slot released if still pending; any other id changes
      nothing. */
  lemma SweepStep(slots: Slots, bookings: map<BookingId, Booking>, now: int, i: nat)
    ensures i in bookings && Expired(bookings[i], now) ==>
              && CancelBelow(bookings, now, i + 1)
                 == CancelBelow(bookings, now, i)[i := bookings[i].(status := BookingStatus.Cancelled)]
              && ReleaseBelow(slots, bookings, now, i + 1)
                 == ReleaseIfPending(ReleaseBelow(slots, bookings, now, i), bookings[i].slot, now)
              && |ExpiredBelow(bookings, now, i + 1)| == |ExpiredBelow(bookings, now, i)| + 1
    ensures !(i in bookings && Expired(bookings[i], now)) ==>
              && CancelBelow(bookings, now, i + 1) == CancelBelow(bookings, now, i)
              && ReleaseBelow(slots, bookings, now, i + 1) == ReleaseBelow(slots, bookings, now, i)
              && ExpiredBelow(bookings, now, i + 1) == ExpiredBelow(bookings, now, i)
  {
    if i in bookings && Expired(bookings[i], now) {
      assert ExpiredBelow(bookings, now, i + 1) == ExpiredBelow(bookings, now, i) + {i};
      ReleaseStep(slots, bookings, now, i);
    } else {
      assert ExpiredBelow(bookings, now, i + 1) == ExpiredBelow(bookings, now, i);
      ReleaseSkip(slots, bookings, now, i);
    }
  }

  /** At the end of pass two the loop state is the reference result. */
  lemma SweepDone(pass1: Slots, st: Store, now: int)
    requires Wf(st) && pass1 == ReleaseStale(st.slots, now)
    ensures ExpiredBelow(st.bookings, now, st.nextBooking) == ExpiredIds(st.bookings, now)
    ensures st.(bookings := CancelBelow(st.bookings, now, st.nextBooking),
                slots := ReleaseBelow(pass1, st.bookings, now, st.nextBooking)) == SweepResult(st, now)
  {
    ReleaseAll(pass1, st.bookings, now, st.nextBooking);
  }

  /** Processing an expired booking at id `i` releases its slot if pending. */
  lemma ReleaseStep(slots: Slots, bookings: map<BookingId, Booking>, now: int, i: nat)
    requires i in bookings && Expired(bookings[i], now)
    ensures ReleaseBelow(slots, bookings, now, i + 1)
            == ReleaseIfPending(ReleaseBelow(slots, bookings, now, i), bookings[i].slot, now)
  {
    var lhs := ReleaseBelow(slots, bookings, now, i + 1);
    var rhs := ReleaseIfPending(ReleaseBelow(slots, bookings, now, i), bookings[i].slot, now);
    forall k | k in slots
      ensures lhs[k] == rhs[k]
    {
      if k == bookings[i].slot {
        assert ExpiredHolderBelow(bookings, k, now, i + 1);
      } else {
        if ExpiredHolderBelow(bookings, k, now, i + 1) {
          var j :| 0 <= j < i + 1 && j in bookings && Expired(bookings[j], now) && bookings[j].slot == k;
          assert ExpiredHolderBelow(bookings, k, now, i);
        }
      }
    }
  }

  /** An id that is not an expired booking releases nothing. */
  lemma ReleaseSkip(slots: Slots, bookings: map<BookingId, Booking>, now: int, i: nat)
    requires !(i in bookings && Expired(bookings[i], now))
    ensures ReleaseBelow(slots, bookings, now, i + 1) == ReleaseBelow(slots, bookings, now, i)
  {
    forall k | k in slots
      ensures ExpiredHolderBelow(bookings, k, now, i + 1) == ExpiredHolderBelow(bookings, k, now, i)
    {
      if ExpiredHolderBelow(bookings, k, now, i + 1) {
        var j :| 0 <= j < i + 1 && j in bookings && Expired(bookings[j], now) && bookings[j].slot == k;
        assert ExpiredHolderBelow(bookings, k, now, i);
      }
    }
  }

  /** Once every allocated id is processed, "below n" is "any". */
  lemma ReleaseAll(slots: Slots, bookings: map<BookingId, Booking>, now: int, n: nat)
    requires forall k :: k in bookings ==> k < n
    ensures forall k :: ExpiredHolderBelow(bookings, k, now, n) == ExpiredHolder(bookings, k, now)
  {
    forall k
      ensures ExpiredHolderBelow(bookings, k, now, n) == ExpiredHolder(bookings, k, now)
    {
      if ExpiredHolder(bookings, k, now) {
        var j :| j in bookings && Expired(bookings[j], now) && bookings[j].slot == k;
        assert ExpiredHolderBelow(bookings, k, now, n);
      }
    }
  }

  /** After a sweep no pending booking past its expiry remains; confirmed,
      cancelled and completed bookings are untouched; no booking vanishes. */
  lemma SweepSettlesBookings(st: Store, now: int)
    ensures var r := SweepResult(st, now);
            && r.bookings.Keys == st.bookings.Keys
            && (forall k :: k in r.bookings ==> !Expired(r.bookings[k], now))
            && (forall k :: k in st.bookings && st.bookings[k].status != BookingStatus.Pending ==>
                  r.bookings[k] == st.bookings[k])
            && (forall k :: k in st.bookings && Expired(st.bookings[k], now) ==>
                  r.bookings[k].status == BookingStatus.Cancelled)
  {
  }

  /** The sweeper writes only pending slots: free, booked, completed and
      cancelled slots come out unchanged, and a slot it frees was either a
      stale hold or held by an expired booking. */
  lemma SweepTouchesOnlyHolds(st: Store, now: int)
    ensures var r := SweepResult(st, now);
            && r.slots.Keys == st.slots.Keys
            && (forall k :: k in st.slots && st.slots[k].status != SlotStatus.Pending ==>
                  r.slots[k] == st.slots[k])
            && (forall k :: k in st.slots && r.slots[k] != st.slots[k] ==>
                  r.slots[k] == Freed(st.slots[k], now)
                  && (StaleHold(st.slots[k], now) || ExpiredHolder(st.bookings, k, now)))
            && (forall k :: k in st.slots && StaleHold(st.slots[k], now) ==> r.slots[k].status == Free)
  {
  }

  /** A second sweep at the same instant finds nothing to do: it reports
      zero released and zero cancelled, and changes nothing. */
  lemma SweepTwiceIsQuiet(st: Store, now: int)
    ensures var r := SweepResult(st, now);
            && StaleIds(r.slots, now) == {}
            && ExpiredIds(r.bookings, now) == {}
            && SweepResult(r, now) == r
  {
    var r := SweepResult(st, now);
    assert forall k :: k in r.slots ==> !StaleHold(r.slots[k], now);
    assert forall k :: k in r.bookings ==> !Expired(r.bookings[k], now);
    assert forall k :: !ExpiredHolder(r.bookings, k, now);
  }
}

=== FILE: traces.dfy ===
/** Properties of sequences of handler calls: the claim race, replayed
    payment confirmations, the drift a late confirmation leaves behind and
    its repair, enrollments lost to the TTL and rebuilt from the order notes,
    and the seat count. The handlers run one after another on the store;
    the interleavings of concurrent requests are such sequences. */
module Traces {
  import opened Base
  import opened SlotModel
  import opened BookingModel
  import opened MentorshipModel
  import opened Store
  import opened BookingFlow
  import opened Webhook
  import Sweeper
  import Reconcile
  import Mentorship
  import Payment
  import Auth

  // ---------------------------------------------------------------------
  // The claim race

  /** One createBooking request: caller, body, clock and Razorpay's answer. */
  datatype Attempt = Attempt(holder: Id, req: CreateRequest, now: nat, created: Option<OrderId>)

  /** Runs the requests in order and counts those answered 201. */
  function RunAttempts(st: Store, attempts: seq<Attempt>): (r: (Store, nat))
    requires Wf(st)
    ensures Wf(r.0) && r.1 <= |attempts|
    decreases |attempts|
  {
    if attempts == [] then (st, 0)
    else
      var a := attempts[0];
      var (st1, reply) := CreateBooking(st, a.holder, a.req, a.now, a.created);
      var (st2, wins) := RunAttempts(st1, attempts[1..]);
      (st2, wins + if reply.code == CREATED then 1 else 0)
  }

  predicate AllFor(attempts: seq<Attempt>, k: SlotId) {
    forall i :: 0 <= i < |attempts| ==> attempts[i].req.slot == k
  }

  /** A slot that is not free refuses every claim and nothing changes. */
  lemma {:induction false} HeldSlotRefusesAll(st: Store, attempts: seq<Attempt>, k: SlotId)
    requires Wf(st) && AllFor(attempts, k)
    requires !(k in st.slots && st.slots[k].status == SlotStatus.Free)
    ensures RunAttempts(st, attempts) == (st, 0)
    decreases |attempts|
  {
    if attempts != [] {
      assert AllFor(attempts[1..], k);
      HeldSlotRefusesAll(st, attempts[1..], k);
    }
  }

  /** Of any number of claims on one slot, at most one wins; none wins on a
      slot that was not free to begin with. */
  lemma {:induction false} AtMostOneClaimWins(st: Store, attempts: seq<Attempt>, k: SlotId)
    requires Wf(st) && AllFor(attempts, k)
    ensures RunAttempts(st, attempts).1 <= 1
    ensures !(k in st.slots && st.slots[k].status == SlotStatus.Free) ==> RunAttempts(st, attempts).1 == 0
    decreases |attempts|
  {
    if attempts != [] {
      var a := attempts[0];
      var (st1, reply) := CreateBooking(st, a.holder, a.req, a.now, a.created);
      assert AllFor(attempts[1..], k);
      if reply.code == CREATED {
        HeldSlotRefusesAll(st1, attempts[1..], k);
      } else {
        AtMostOneClaimWins(st1, attempts[1..], k);
      }
      if !(k in st.slots && st.slots[k].status == SlotStatus.Free) {
        HeldSlotRefusesAll(st, attempts, k);
      }
    }
  }

  // ---------------------------------------------------------------------
  // Replayed confirmations

  /** Client-side verification is idempotent: repeating it changes nothing,
      and once it got past the signature and the lookup the repeat succeeds. */
  lemma VerifyPaymentTwice(st: Store, hmac: (string, string) -> string, secret: Option<string>,
                           orderId: OrderId, paymentId: string, signature: Option<string>, now: nat, later: nat)
    requires Wf(st)
    ensures var (s1, c1) := VerifyPayment(st, hmac, secret, orderId, paymentId, signature, now);
            var (s2, c2) := VerifyPayment(s1, hmac, secret, orderId, paymentId, signature, later);
            && s2 == s1
            && ((Payment.CheckSignature(hmac, secret, orderId, paymentId, signature) == OK
                 && FindByOrder(st, orderId).Some?) ==> c2 == OK)
  {
    var (s1, c1) := VerifyPayment(st, hmac, secret, orderId, paymentId, signature, now);
    if Payment.CheckSignature(hmac, secret, orderId, paymentId, signature) == OK && FindByOrder(st, orderId).Some? {
      FindByOrderStable(st, s1, orderId);
    }
  }

  lemma CapturedBookingTwice(st: Store, orderId: OrderId, paymentId: string,
                             adminEmail: Option<string>, now: int, later: int)
    requires Wf(st)
    ensures var (s1, r1) := CapturedBooking(st, orderId, paymentId, adminEmail, now);
            CapturedBooking(s1, orderId, paymentId, adminEmail, later) == (s1, Reply(OK, []))
  {
    var (s1, r1) := CapturedBooking(st, orderId, paymentId, adminEmail, now);
    if FindByOrder(st, orderId).Some? {
      FindByOrderStable(st, s1, orderId);
    }
  }

  lemma CapturedEnrollmentTwice(st: Store, orderId: OrderId, paymentId: string, fetched: Option<FetchedOrder>,
                                adminEmail: Option<string>, now: int, later: int)
    ensures var (s1, r1) := CapturedEnrollment(st, orderId, paymentId, fetched, adminEmail, now);
            var (s2, r2) := CapturedEnrollment(s1, orderId, paymentId, fetched, adminEmail, later);
            s2 == s1 && (r1.code == OK ==> r2 == Reply(OK, [])) && (r1.code != OK ==> r2.code == r1.code)
  {
  }

  lemma FailedPaymentTwice(st: Store, orderId: OrderId, now: int, later: int)
    requires Wf(st)
    ensures var (s1, r1) := FailedPayment(st, orderId, now);
            FailedPayment(s1, orderId, later) == (s1, Reply(OK, []))
  {
    var (s1, r1) := FailedPayment(st, orderId, now);
    if orderId !in st.enrollments && FindByOrder(st, orderId).Some? {
      FindByOrderStable(st, s1, orderId);
    }
  }

  /** Razorpay redelivers webhooks. A redelivered event changes nothing; if
      the first delivery was answered 200, so is the second, and it sends no
      email. */
  lemma WebhookRedeliveryIsQuiet(st: Store, hmac: (string, string) -> string, secret: Option<string>,
                                 body: string, signature: Option<string>, event: Event,
                                 fetched: Option<FetchedOrder>, adminEmail: Option<string>, now: int, later: int)
    requires Wf(st)
    ensures var (s1, r1) := HandleWebhook(st, hmac, secret, body, signature, event, fetched, adminEmail, now);
            var (s2, r2) := HandleWebhook(s1, hmac, secret, body, signature, event, fetched, adminEmail, later);
            s2 == s1 && (r1.code == OK ==> r2 == Reply(OK, []))
  {
    if secret.Some? && signature == Some(hmac(secret.value, body)) {
      match event
      case Captured(orderId, paymentId) =>
        if IsMentorshipOrder(st, orderId, fetched) {
          CapturedEnrollmentTwice(st, orderId, paymentId, fetched, adminEmail, now, later);
        } else {
          CapturedBookingTwice(st, orderId, paymentId, adminEmail, now, later);
        }
      case Failed(orderId) => FailedPaymentTwice(st, orderId, now, later);
      case OtherEvent(_) =>
    }
  }

  /** The emails are outputs only: the administrator found (or not) changes
      neither the store nor the status code. */
  lemma EmailsDoNotSteer(st: Store, hmac: (string, string) -> string, secret: Option<string>,
                         body: string, signature: Option<string>, event: Event,
                         fetched: Option<FetchedOrder>, admin1: Option<string>, admin2: Option<string>, now: int)
    requires Wf(st)
    ensures var r1 := HandleWebhook(st, hmac, secret, body, signature, event, fetched, admin1, now);
            var r2 := HandleWebhook(st, hmac, secret, body, signature, event, fetched, admin2, now);
            r1.0 == r2.0 && r1.1.code == r2.1.code
  {
  }

  // ---------------------------------------------------------------------
  // Status is not monotone

  /** cancelPayment has no status guard: it cancels a confirmed booking and
      frees its booked slot. */
  lemma CancelUndoesConfirmation(st: Store, orderId: OrderId, now: nat)
    requires Wf(st) && FindByOrder(st, orderId).Some?
    requires var b := st.bookings[FindByOrder(st, orderId).value];
             b.status == BookingStatus.Confirmed && b.slot in st.slots && st.slots[b.slot].status == Booked
    ensures var id := FindByOrder(st, orderId).value;
            var r := CancelPayment(st, orderId, now);
            r.1 == OK && r.0.bookings[id].status == BookingStatus.Cancelled
            && r.0.slots[st.bookings[id].slot].status == Free
  {
  }

  /** A captured payment confirms a booking the sweeper already cancelled. */
  lemma CaptureRevivesCancelled(st: Store, orderId: OrderId, paymentId: string,
                                adminEmail: Option<string>, now: int)
    requires Wf(st) && FindByOrder(st, orderId).Some?
    requires st.bookings[FindByOrder(st, orderId).value].status == BookingStatus.Cancelled
    ensures var id := FindByOrder(st, orderId).value;
            CapturedBooking(st, orderId, paymentId, adminEmail, now).0.bookings[id].status == BookingStatus.Confirmed
  {
  }

  // ---------------------------------------------------------------------
  // Drift and its repair

  /** The booking a client pays for, looked up by its own order id. */
  predicate HeldBooking(st: Store, id: BookingId) {
    && id in st.bookings
    && st.bookings[id].status == BookingStatus.Pending
    && st.bookings[id].slot in st.slots
    && st.slots[st.bookings[id].slot].status == SlotStatus.Pending
  }

  /** The sweep cancels an expired hold and frees its slot, and the order
      id still finds the booking. */
  lemma SweepCancelsHold(st: Store, id: BookingId, now: int)
    requires Wf(st) && HeldBooking(st, id)
    requires FindByOrder(st, st.bookings[id].orderId) == Some(id)
    requires Sweeper.Expired(st.bookings[id], now)
    ensures var b := st.bookings[id];
            var swept := Sweeper.SweepResult(st, now);
            && Wf(swept) && id in swept.bookings && b.slot in swept.slots
            && swept.bookings[id] == b.(status := BookingStatus.Cancelled)
            && swept.slots[b.slot].status == Free
            && FindByOrder(swept, b.orderId) == Some(id)
  {
    var b := st.bookings[id];
    var swept := Sweeper.SweepResult(st, now);
    assert Sweeper.ExpiredHolder(st.bookings, b.slot, now);
    Sweeper.SweepTouchesOnlyHolds(st, now);
    assert Wf(swept);
    FindByOrderStable(st, swept, b.orderId);
  }

  /** A payment verified after the sweeper released the hold confirms the
      booking but leaves its slot free and answers 400: the booking is then
      one the reconciliation pass counts as broken. */
  lemma LateConfirmationDrifts(st: Store, id: BookingId, hmac: (string, string) -> string,
                               secret: Option<string>, paymentId: string, signature: Option<string>,
                               now: int, later: nat)
    requires Wf(st) && HeldBooking(st, id)
    requires FindByOrder(st, st.bookings[id].orderId) == Some(id)
    requires Sweeper.Expired(st.bookings[id], now)
    requires Payment.CheckSignature(hmac, secret, st.bookings[id].orderId, paymentId, signature) == OK
    ensures var b := st.bookings[id];
            var swept := Sweeper.SweepResult(st, now);
            var (s2, code) := VerifyPayment(swept, hmac, secret, b.orderId, paymentId, signature, later);
            && code == BAD_REQUEST
            && s2.bookings[id].status == BookingStatus.Confirmed
            && s2.slots[b.slot].status == Free
            && Wf(s2) && id in Reconcile.BrokenIds(s2)
  {
    SweepCancelsHold(st, id, now);
  }

  /** The whole story: sweep, late verification, reconciliation. The pass
      puts the slot back to booked and reports at least one fix. */
  method DriftIsRepaired(st: Store, id: BookingId, hmac: (string, string) -> string,
                         secret: Option<string>, paymentId: string, signature: Option<string>,
                         now: int, later: nat, repairAt: int)
    returns (drifted: Store, code: int, repaired: Store, report: Reconcile.Report)
    requires Wf(st) && HeldBooking(st, id)
    requires FindByOrder(st, st.bookings[id].orderId) == Some(id)
    requires Sweeper.Expired(st.bookings[id], now)
    requires Payment.CheckSignature(hmac, secret, st.bookings[id].orderId, paymentId, signature) == OK
    ensures id in drifted.bookings && st.bookings[id].slot in drifted.slots
    ensures code == BAD_REQUEST && drifted.slots[st.bookings[id].slot].status == Free
    ensures drifted.bookings[id].status == BookingStatus.Confirmed
    ensures st.bookings[id].slot in repaired.slots && repaired.slots[st.bookings[id].slot].status == Booked
    ensures repaired.bookings == drifted.bookings
    ensures report.fixed >= 1 && report.errors == 0
  {
    var swept, _, _ := Sweeper.Sweep(st, now);
    LateConfirmationDrifts(st, id, hmac, secret, paymentId, signature, now, later);
    var r := VerifyPayment(swept, hmac, secret, st.bookings[id].orderId, paymentId, signature, later);
    drifted, code := r.0, r.1;
    ghost var broken := Reconcile.BrokenIds(drifted);
    assert id in broken;
    assert |broken - {}| >= 1 by {
      assert broken - {} == broken;
      assert {id} <= broken;
    }
    repaired, report := Reconcile.FixConfirmed(drifted, {}, repairAt);
  }

  // ---------------------------------------------------------------------
  // Enrollments and seats

  /** An enrollment the TTL removed before the payment arrived is rebuilt
      from the notes createEnrollment put on the order: confirmed, for the
      same user, taking a seat. */
  lemma LostEnrollmentIsRebuilt(st: Store, user: Auth.User, now: nat, created: Option<OrderId>,
                                later: int, paymentId: string, adminEmail: Option<string>, paidAt: int)
    requires Mentorship.CreateEnrollment(st, user, true, now, created).1.code == OK
    requires later > now + HOLD_MS
    ensures var (s1, reply) := Mentorship.CreateEnrollment(st, user, true, now, created);
            var orderId := created.value;
            && TtlDeleteEnrollment(s1, orderId, later).Some?
            && var s2 := TtlDeleteEnrollment(s1, orderId, later).value;
               var fetched := Some(FetchedOrder(reply.notes));
               var (s3, r3) := CapturedEnrollment(s2, orderId, paymentId, fetched, adminEmail, paidAt);
               && orderId !in s2.enrollments && IsMentorshipOrder(s2, orderId, fetched)
               && r3.code == OK
               && s3.enrollments[orderId].holder == user.id
               && s3.enrollments[orderId].status == EnrollmentStatus.Confirmed
               && s3.program.value.enrolledCount == s1.program.value.enrolledCount + 1
  {
  }

  /** The usual path takes no seat: an enrollment created by the user and
      then confirmed by the webhook leaves enrolledCount where it was. */
  lemma ConfirmationTakesNoSeat(st: Store, user: Auth.User, now: nat, created: Option<OrderId>,
                                paymentId: string, fetched: Option<FetchedOrder>, adminEmail: Option<string>,
                                paidAt: int)
    requires Mentorship.CreateEnrollment(st, user, true, now, created).1.code == OK
    ensures var s1 := Mentorship.CreateEnrollment(st, user, true, now, created).0;
            var (s2, r2) := CapturedEnrollment(s1, created.value, paymentId, fetched, adminEmail, paidAt);
            && r2.code == OK
            && s2.enrollments[created.value].status == EnrollmentStatus.Confirmed
            && s2.program == s1.program
            && s1.program.value.enrolledCount == WithProgram(st).1.enrolledCount
  {
  }

  /** A rebuilt enrollment takes a seat without looking at the seats left:
      on a full program it pushes enrolledCount past totalSeats. */
  lemma RebuildCanOversell(st: Store, orderId: OrderId, paymentId: string, n: OrderNotes,
                           adminEmail: Option<string>, now: int)
    requires st.program.Some? && AvailableSeats(st.program.value) <= 0
    requires orderId !in st.enrollments
    requires Truthy(n.uid) && Truthy(n.userEmail) && Truthy(n.userName)
    ensures var r := CapturedEnrollment(st, orderId, paymentId, Some(FetchedOrder(Some(n))), adminEmail, now);
            r.1.code == OK && !Mentorship.SeatsConsistent(r.0.program.value)
  {
  }
}

=== FILE: typing.dfy ===
/** The typing course (src/controllers/typingController.js and
    src/models/TypingPurchase.js): a configurable price, a purchase handler
    that refuses users who already own the course, and the access check. */
module Typing {
  import opened Base
  import opened Js
  import Auth

  const DEFAULT_TYPING_PRICE: int := 499

  datatype TypingStatus = Pending | Confirmed | Failed

  datatype TypingPurchase = TypingPurchase(holder: Id, userName: string, userEmail: string, amount: int,
                                           paymentId: Option<string>, status: TypingStatus)

  /** Purchases keyed by their (unique) Razorpay order id. */
  type TypingPurchases = map<OrderId, TypingPurchase>

  /** `getTypingPrice()`: the TYPING_PRICE environment value when it parses
      to a positive integer, 499 otherwise. */
  function TypingPrice(env: Option<string>): (r: int)
    ensures r > 0
    ensures Truthy(env) && ParseInt(env.value).Some? && ParseInt(env.value).value > 0 ==>
              r == ParseInt(env.value).value
    ensures !(Truthy(env) && ParseInt(env.value).Some? && ParseInt(env.value).value > 0) ==>
              r == DEFAULT_TYPING_PRICE
  {
    PositiveOr(env, DEFAULT_TYPING_PRICE)
  }

  /** The user owns the course: some purchase of theirs is confirmed. */
  predicate HasTypingAccess(purchases: TypingPurchases, uid: Id) {
    exists o :: o in purchases && purchases[o].holder == uid && purchases[o].status == Confirmed
  }

  datatype TypingReply = TypingReply(code: int, order: Option<OrderRequest>)

  /** The pending record the handler saves. */
  function PendingTyping(user: Auth.User, price: int): TypingPurchase {
    TypingPurchase(user.id, NameOrFallback(user.name, user.email), user.email.GetOr(""), price, None, Pending)
  }

  /** The schema's required strings, and the unique order id. Any failure on
      save reaches the error middleware, which answers 500. */
  predicate Storable(purchases: TypingPurchases, orderId: OrderId, p: TypingPurchase) {
    p.holder != "" && p.userName != "" && p.userEmail != "" && orderId !in purchases
  }

  function TypingReceipt(now: nat): string {
    "typing_" + Decimal(now)
  }

  /** `createTypingPurchase`. `user` is `req.user` (absent without
      authentication); `created` is Razorpay's answer. */
  function CreateTypingPurchase(purchases: TypingPurchases, user: Option<Auth.User>, env: Option<string>,
                                now: nat, created: Option<OrderId>): (r: (TypingPurchases, TypingReply))
    ensures r.1.code in {OK, UNAUTHORIZED, BAD_REQUEST, SERVER_ERROR}
    ensures r.1.code != OK ==> r.0 == purchases
    ensures r.1.code == UNAUTHORIZED <==> user.None?
    // an empty uid, or a confirmed purchase, refuses before any order; a
    // pending purchase does not
    ensures r.1.code == BAD_REQUEST <==>
              user.Some? && (user.value.id == "" || HasTypingAccess(purchases, user.value.id))
    ensures r.1.code in {UNAUTHORIZED, BAD_REQUEST} <==> r.1.order.None?
    ensures r.1.order.Some? ==>
              r.1.order.value == OrderRequest(TypingPrice(env) * 100, "INR", TypingReceipt(now))
    ensures r.1.code == OK <==>
              user.Some? && user.value.id != "" && !HasTypingAccess(purchases, user.value.id) && created.Some?
              && Storable(purchases, created.value, PendingTyping(user.value, TypingPrice(env)))
    ensures r.1.code == OK ==>
              && r.0 == purchases[created.value := PendingTyping(user.value, TypingPrice(env))]
              && r.0[created.value].amount == TypingPrice(env) && r.0[created.value].status == Pending
              && (forall u :: HasTypingAccess(r.0, u) <==> HasTypingAccess(purchases, u))
  {
    match user
    case None => (purchases, TypingReply(UNAUTHORIZED, None))
    case Some(u) =>
      if u.id == "" || HasTypingAccess(purchases, u.id) then (purchases, TypingReply(BAD_REQUEST, None))
      else
        var price := TypingPrice(env);
        var order := OrderRequest(price * 100, "INR", TypingReceipt(now));
        match created
        case None => (purchases, TypingReply(SERVER_ERROR, Some(order)))
        case Some(orderId) =>
          var p := PendingTyping(u, price);
          if !Storable(purchases, orderId, p) then (purchases, TypingReply(SERVER_ERROR, Some(order)))
          else
            PendingGrantsNothing(purchases, orderId, p);
            (purchases[orderId := p], TypingReply(OK, Some(order)))
  }

  /** Adding a pending purchase changes no one's access. */
  lemma PendingGrantsNothing(purchases: TypingPurchases, orderId: OrderId, p: TypingPurchase)
    requires orderId !in purchases && p.status == Pending
    ensures forall u :: HasTypingAccess(purchases[orderId := p], u) <==> HasTypingAccess(purchases, u)
  {
    var after := purchases[orderId := p];
    forall u ensures HasTypingAccess(after, u) <==> HasTypingAccess(purchases, u) {
      if HasTypingAccess(after, u) {
        var o :| o in after && after[o].holder == u && after[o].status == Confirmed;
        assert o in purchases;
      }
      if HasTypingAccess(purchases, u) {
        var o :| o in purchases && purchases[o].holder == u && purchases[o].status == Confirmed;
        assert o in after && after[o] == purchases[o];
      }
    }
  }

  /** The access reply: `hasAccess` (the purchase details it carries when
      true are not modelled). */
  datatype AccessReply = AccessReply(code: int, hasAccess: bool)

  /** `checkTypingAccess`. */
  function CheckTypingAccess(purchases: TypingPurchases, user: Option<Auth.User>): (r: AccessReply)
    ensures r.code == UNAUTHORIZED <==> user.None?
    ensures r.code == OK <==> user.Some?
    ensures r.hasAccess <==> user.Some? && exists o :: o in purchases && purchases[o].holder == user.value.id
                                                       && purchases[o].status == Confirmed
  {
    match user
    case None => AccessReply(UNAUTHORIZED, false)
    case Some(u) => AccessReply(OK, HasTypingAccess(purchases, u.id))
  }

  /** Once a user owns the course every later purchase attempt is refused,
      and a refused attempt leaves the purchases as they were. */
  lemma OwnerCannotBuyAgain(purchases: TypingPurchases, user: Auth.User, env: Option<string>,
                            now: nat, created: Option<OrderId>)
    requires CheckTypingAccess(purchases, Some(user)).hasAccess
    ensures CreateTypingPurchase(purchases, Some(user), env, now, created) ==
              (purchases, TypingReply(BAD_REQUEST, None))
  {
  }

  /** A user with only pending purchases can still buy: the guard looks at
      confirmed purchases alone. */
  lemma PendingDoesNotBlock(purchases: TypingPurchases, user: Auth.User, env: Option<string>,
                            now: nat, created: Option<OrderId>)
    requires user.id != ""
    requires forall o :: o in purchases && purchases[o].holder == user.id ==> purchases[o].status == Pending
    ensures CreateTypingPurchase(purchases, Some(user), env, now, created).1.code != BAD_REQUEST
  {
  }

  /** The receipt keeps within Razorpay's 40 characters while the clock has
      at most thirteen digits. */
  lemma TypingReceiptFits(now: nat)
    requires now < Pow10(13)
    ensures |TypingReceipt(now)| <= 20
  {
    DecimalLength(now, 13);
  }
}

=== FILE: webhook.dfy ===
/** The Razorpay webhook (src/controllers/webhookController.js): a signature
    gate over the raw body, then `payment.captured` confirms an enrollment
    (synthesising it from the order notes when it does not exist) or a
    booking, and `payment.failed` cancels a pending one. */
module Webhook {
  import opened Base
  import opened SlotModel
  import opened BookingModel
  import opened MentorshipModel
  import opened Store

  /** Razorpay's answer to `orders.fetch` when it succeeds. */
  datatype FetchedOrder = FetchedOrder(notes: Option<OrderNotes>)

  /** The parsed event: its type and the payment entity's ids. */
  datatype Event =
    | Captured(orderId: OrderId, paymentId: string)
    | Failed(orderId: OrderId)
    | OtherEvent(name: string)

  /** The HTTP status and the recipients of the confirmation emails that
      were attempted. */
  datatype Reply = Reply(code: int, mails: seq<string>)

  /** The emails a confirmation sends: to the holder when the record has an
      email, and to the administrator when one was found with an email. */
  function Mails(userEmail: string, adminEmail: Option<string>): seq<string> {
    (if userEmail != "" then [userEmail] else []) + (if Truthy(adminEmail) then [adminEmail.value] else [])
  }

  /** The order's notes mark it as a mentorship order. */
  predicate NotedMentorship(fetched: Option<FetchedOrder>) {
    fetched.Some? && fetched.value.notes.Some? && fetched.value.notes.value.kind == Some(MENTORSHIP_NOTE)
  }

  /** A captured payment goes to the mentorship branch when the notes say so
      or an enrollment already carries the order id. */
  predicate IsMentorshipOrder(st: Store, orderId: OrderId, fetched: Option<FetchedOrder>) {
    NotedMentorship(fetched) || orderId in st.enrollments
  }

  /** Only the enrollments and the program may differ. */
  predicate BookingsUntouched(st: Store, st': Store) {
    st'.slots == st.slots && st'.bookings == st.bookings
    && st'.nextSlot == st.nextSlot && st'.nextBooking == st.nextBooking
  }

  /** Only the bookings and the slots may differ. */
  predicate MentorshipUntouched(st: Store, st': Store) {
    st'.enrollments == st.enrollments && st'.program == st.program
    && st'.nextSlot == st.nextSlot && st'.nextBooking == st.nextBooking
  }

  /** The captured-payment branch for a mentorship order. The program is
      fetched (and created) first, whatever happens next. */
  function CapturedEnrollment(st: Store, orderId: OrderId, paymentId: string,
                              fetched: Option<FetchedOrder>, adminEmail: Option<string>,
                              now: int): (r: (Store, Reply))
    ensures BookingsUntouched(st, r.0)
    ensures r.0.program.Some?
    ensures st.program.Some? ==> r.0.program.value.price == st.program.value.price
    ensures r.1.code in {OK, BAD_REQUEST, SERVER_ERROR}
    // a known order: confirmed (once) in place, no seat consumed
    ensures orderId in st.enrollments ==>
              var e := st.enrollments[orderId];
              && r.1.code == OK
              && r.0.program == WithProgram(st).0.program
              && (if e.status == EnrollmentStatus.Confirmed then r.0 == WithProgram(st).0 && r.1.mails == []
                  else r.0.enrollments == st.enrollments[orderId := e.(status := EnrollmentStatus.Confirmed,
                                                                     paymentId := Some(paymentId))])
    // an unknown order: synthesised from the notes, consuming one seat
    ensures orderId !in st.enrollments ==>
              var program := WithProgram(st).1;
              && (r.1.code == BAD_REQUEST <==>
                    fetched.None? || fetched.value.notes.None?
                    || !Truthy(fetched.value.notes.value.uid) || !Truthy(fetched.value.notes.value.userEmail))
              // notes that pass the check are saved unless the name is missing
              && (r.1.code != BAD_REQUEST ==>
                    (r.1.code == OK <==> Truthy(fetched.value.notes.value.userName))
                    && (r.1.code == SERVER_ERROR <==> !Truthy(fetched.value.notes.value.userName)))
              && (r.1.code != OK ==> r.0 == WithProgram(st).0 && r.1.mails == [])
              && (r.1.code == OK ==>
                    var n := fetched.value.notes.value;
                    && Truthy(n.userName)
                    && r.0.enrollments == st.enrollments[orderId := Enrollment(
                         n.uid.value, n.userName.value, n.userEmail.value, program.price,
                         EnrollmentStatus.Confirmed, Some(paymentId), HoldExpiry(now))]
                    && r.0.program == Some(program.(enrolledCount := program.enrolledCount + 1)))
  {
    var (st1, program) := WithProgram(st);
    if orderId in st1.enrollments then
      var e := st1.enrollments[orderId];
      if e.status == EnrollmentStatus.Confirmed then (st1, Reply(OK, []))
      else
        (st1.(enrollments := st1.enrollments[orderId := e.(status := EnrollmentStatus.Confirmed,
                                                           paymentId := Some(paymentId))]),
         Reply(OK, Mails(e.userEmail, adminEmail)))
    else if fetched.None? || fetched.value.notes.None? then (st1, Reply(BAD_REQUEST, []))
    else
      var n := fetched.value.notes.value;
      if !Truthy(n.uid) || !Truthy(n.userEmail) then (st1, Reply(BAD_REQUEST, []))
      // an absent or empty userName fails the schema's `required` on save
      else if !Truthy(n.userName) then (st1, Reply(SERVER_ERROR, []))
      else
        var e := Enrollment(n.uid.value, n.userName.value, n.userEmail.value, program.price,
                            EnrollmentStatus.Confirmed, Some(paymentId), HoldExpiry(now));
        (st1.(enrollments := st1.enrollments[orderId := e],
              program := Some(program.(enrolledCount := program.enrolledCount + 1))),
         Reply(OK, Mails(e.userEmail, adminEmail)))
  }

  /** The captured-payment branch for a consultation booking. */
  function CapturedBooking(st: Store, orderId: OrderId, paymentId: string,
                           adminEmail: Option<string>, now: int): (r: (Store, Reply))
    requires Wf(st)
    ensures Wf(r.0) && MentorshipUntouched(st, r.0)
    ensures r.1.code in {OK, SERVER_ERROR}
    ensures FindByOrder(st, orderId).None? ==> r.0 == st && r.1 == Reply(OK, [])
    ensures FindByOrder(st, orderId).Some? ==>
              var id := FindByOrder(st, orderId).value;
              var b := st.bookings[id];
              if b.status == BookingStatus.Confirmed then r.0 == st && r.1 == Reply(OK, [])
              else
                && r.0.bookings == st.bookings[id := b.(status := BookingStatus.Confirmed,
                                                       paymentId := Some(paymentId))]
                && (r.1.code == SERVER_ERROR <==> b.slot !in st.slots)
                && (if b.slot in st.slots && st.slots[b.slot].status == SlotStatus.Pending then
                      r.0.slots == st.slots[b.slot := st.slots[b.slot].(
                        status := Booked, bookedBy := Some(b.holder), updatedAt := now)]
                    else r.0.slots == st.slots)
  {
    match FindByOrder(st, orderId)
    case None => (st, Reply(OK, []))
    case Some(id) =>
      var b := st.bookings[id];
      if b.status == BookingStatus.Confirmed then (st, Reply(OK, []))
      else
        var confirmed := st.(bookings := st.bookings[id := b.(status := BookingStatus.Confirmed,
                                                           paymentId := Some(paymentId))]);
        // the populated slot is null when it no longer exists: reading its id throws
        if b.slot !in st.slots then (confirmed, Reply(SERVER_ERROR, []))
        else
          var (slots, _) := BookIfPending(st.slots, b.slot, b.holder, now);
          (confirmed.(slots := slots), Reply(OK, Mails(b.userEmail, adminEmail)))
  }

  /** The `payment.failed` branch: an enrollment with the order id takes
      precedence; only pending records are cancelled. */
  function FailedPayment(st: Store, orderId: OrderId, now: int): (r: (Store, Reply))
    requires Wf(st)
    ensures Wf(r.0) && r.1 == Reply(OK, [])
    ensures r.0.program == st.program && r.0.nextSlot == st.nextSlot && r.0.nextBooking == st.nextBooking
    ensures orderId in st.enrollments ==>
              var e := st.enrollments[orderId];
              BookingsUntouched(st, r.0)
              && r.0.enrollments == (if e.status == EnrollmentStatus.Pending
                                     then st.enrollments[orderId := e.(status := EnrollmentStatus.Cancelled)]
                                     else st.enrollments)
    ensures orderId !in st.enrollments ==>
              r.0.enrollments == st.enrollments
              && (FindByOrder(st, orderId).None? ==> r.0 == st)
              && (FindByOrder(st, orderId).Some? ==>
                    var id := FindByOrder(st, orderId).value;
                    var b := st.bookings[id];
                    if b.status == BookingStatus.Pending then
                      r.0.bookings == st.bookings[id := b.(status := BookingStatus.Cancelled)]
                      && r.0.slots == ReleaseIfPending(st.slots, b.slot, now)
                    else r.0 == st)
  {
    if orderId in st.enrollments then
      var e := st.enrollments[orderId];
      if e.status == EnrollmentStatus.Pending then
        (st.(enrollments := st.enrollments[orderId := e.(status := EnrollmentStatus.Cancelled)]), Reply(OK, []))
      else (st, Reply(OK, []))
    else
      match FindByOrder(st, orderId)
      case None => (st, Reply(OK, []))
      case Some(id) =>
        var b := st.bookings[id];
        if b.status == BookingStatus.Pending then
          (st.(bookings := st.bookings[id := b.(status := BookingStatus.Cancelled)],
               slots := ReleaseIfPending(st.slots, b.slot, now)), Reply(OK, []))
        else (st, Reply(OK, []))
  }

  /** `handleRazorpayWebhook`, mounted at POST /api/webhooks/razorpay.
      `hmac(key, body)` is HMAC-SHA256 in hex; `secret` the configured
      webhook secret; `signature` the
      x-razorpay-signature header; `fetched` the answer of `orders.fetch`
      (`None` when it throws); `adminEmail` the email of the administrator the
      branch looks up. */
  function HandleWebhook(st: Store, hmac: (string, string) -> string, secret: Option<string>,
                         body: string, signature: Option<string>, event: Event,
                         fetched: Option<FetchedOrder>, adminEmail: Option<string>,
                         now: int): (r: (Store, Reply))
    requires Wf(st)
    ensures Wf(r.0)
    // the gate: no secret is a crash, a wrong or missing signature a 400; both change nothing
    ensures secret.None? ==> r.0 == st && r.1.code == SERVER_ERROR
    ensures secret.Some? && signature != Some(hmac(secret.value, body)) ==>
              r.0 == st && r.1.code == BAD_REQUEST
    ensures r.1.code == BAD_REQUEST ==>
              (secret.Some? && signature != Some(hmac(secret.value, body)))
              || (event.Captured? && IsMentorshipOrder(st, event.orderId, fetched))
    // events other than captured and failed are acknowledged and ignored
    ensures secret.Some? && signature == Some(hmac(secret.value, body)) && event.OtherEvent? ==>
              r.0 == st && r.1 == Reply(OK, [])
    ensures secret.Some? && signature == Some(hmac(secret.value, body)) && event.Captured? ==>
              r == if IsMentorshipOrder(st, event.orderId, fetched)
                   then CapturedEnrollment(st, event.orderId, event.paymentId, fetched, adminEmail, now)
                   else CapturedBooking(st, event.orderId, event.paymentId, adminEmail, now)
    ensures secret.Some? && signature == Some(hmac(secret.value, body)) && event.Failed? ==>
              r == FailedPayment(st, event.orderId, now)
  {
    if secret.None? then (st, Reply(SERVER_ERROR, []))
    else if signature != Some(hmac(secret.value, body)) then (st, Reply(BAD_REQUEST, []))
    else
      match event
      case Captured(orderId, paymentId) =>
        if IsMentorshipOrder(st, orderId, fetched)
        then CapturedEnrollment(st, orderId, paymentId, fetched, adminEmail, now)
        else CapturedBooking(st, orderId, paymentId, adminEmail, now)
      case Failed(orderId) => FailedPayment(st, orderId, now)
      case OtherEvent(_) => (st, Reply(OK, []))
  }
}
